=== FILE: README.md ===
# bali, modelled in Dafny

This project models the rules of bali, a Python framework that serves one set of resource
classes over both HTTP (FastAPI) and gRPC. The model covers the logic bali puts between
the libraries it uses:

- how actions are registered on a resource and in what order its routes and RPC methods
  are emitted;
- how endpoint names, RPC method names and response types are derived;
- how the input schema of an action is found, and the eight generic request and response
  envelope records;
- how HTTP query filters and RPC request messages are turned into action arguments, and
  how results are paged and reshaped;
- how Django-style filter keys (`field__op`, `-field`) are translated into predicates and
  orderings;
- when the scoped database session is released;
- the Redis cache's key namespacing and value encoding;
- the declarative API and its in-memory record store;
- the AMQP callback registry and the resolution of an event's destination;
- name and configuration resolution: `pluralize`, the servicer and adder lookups, the
  rewriting of database URIs to async drivers, connection option defaults, and `ENV`.

Libraries stay abstract. SQLAlchemy columns are records, and predicates are a datatype
rather than SQL. pydantic validation is a small coercion table. The query paginator,
`parse_dict`, `MessageToDict`, an action's body, the permission checks and
`BALI_ROUTING_KEY.format` are parameters. Mutable objects are Dafny classes whose methods
are proved against functions of the old state. Python's ordered dictionaries are
`OrderedMaps.OrderedMap`, a key order paired with a map.

In these places the model follows the code as written:

- `process_rpc` unwraps `data` for create and update requests whose schema is declared by
  the application, not for generic ones (bali/resources/grpc_actions.py).
- `get_schema_in` selects the second parameter, or an earlier one named `schema_in`
  (bali/schemas/__init__.py:80-83).
- `process_rpc` pages list results with `model_schema=` and `parse_dict`. Only
  bali-core/paginate.py provides that, so the RPC list path follows bali-core/paginate.py.
- Endpoints and RPC method names use `pluralize` as written (bali/_utils.py:41-42), so
  `CategoryResource` is served under `/categorys` with `ListCategorys`, and `DayResource`
  under `/daies` with `ListDaies`.
- The gRPC actions use `get_schema_in` as written (bali/schemas/__init__.py:84-94): an
  unannotated `schema_in` resolves to the `inspect.Parameter.empty` marker, which is
  called with the request's fields, so only an empty message gets past it.
- HTTP list routes take `limit` and `offset` from the query, defaulting to 50 and 0 and
  bounded as fastapi_pagination's `LimitOffsetParams` bounds them (1 to 100, at least 0).

As written, the servicer generator gives a custom action no response message class
(bali/resources/resource.py:336-350), so a custom action served over gRPC fails when its
reply is encoded; `GrpcActions.CustomActionsNeverReply` states this.

## Model

| member | source | states |
|---|---|---|
| Actions.KindOfName | bali/resources/resource.py:25-31 | a name gives its action kind and back, and the kind is generic exactly when the name is one of `GENERIC_ACTIONS` |
| Actions.NameOfKind | bali/resources/resource.py:25-31 | every generic kind, and every custom kind with a non-generic name, is recovered from its name |
| Actions.Decorate | bali/decorators.py:8-11 | `detail=None` fails the assertion and nothing else does; the methods default to `['get']`, and given methods are lower-cased one by one, keeping their number and order |
| Actions.ActionRegistry.constructor | bali/resources/resource.py:77 | `_actions` starts as an empty ordered dictionary |
| Actions.ActionRegistry.Put | bali/decorators.py:21-25 | `_actions[name] = info` on the ordered dictionary: a new name goes last, a known name keeps its place and gets the new info |
| Actions.Owner.constructor | bali/decorators.py:17 | the owner class is created with the given attributes |
| Actions.SetName | bali/decorators.py:17-28 | `__set_name__` records `{detail, methods}` under the function's name and rebinds the owner's attribute to the plain function, changing nothing else |
| Caching.MakeKey | bali/cache.py:48-49 | the Redis key ends in `:cache:{key}` and, with a prefix, starts with `{prefix}:cache:` |
| Caching.MakeKeyInjective | bali/cache.py:48-49 | under one prefix, two different keys never share a Redis key |
| Caching.Encode | bali/cache.py:51-55 | exactly the non-bool ints are stored as their decimal text; every other value is pickled as it is |
| Caching.Decode | bali/cache.py:57-63 | pickles are loaded, decimal text becomes that int, and text that is neither fails |
| Caching.DecodeEncode | bali/cache.py:51-63 | every value reads back as it was written: `decode(encode(v)) == v` |
| Caching.Counter | bali/cache.py:77-93 | Redis reads a stored value as a counter exactly when it is decimal text of a 64-bit integer |
| Caching.CounterOfEncoded | bali/cache.py:51-93 | an encoded integer reads back as the same counter when it fits in 64 bits, and as no counter otherwise |
| Caching.Lookup | bali/cache.py:70-75 | a missing key reads as None; a present one is decoded |
| Caching.Cache.constructor | bali/cache.py:12-19 | a new cache is unconfigured, with no settings and no client |
| Caching.Cache.Connect | bali/cache.py:24-37 | the settings are recorded first; with no prefix it raises and no client is created; with one the client is created |
| Caching.Cache.Set | bali/cache.py:65-68 | with a client, the encoded value is stored under the prefixed key and the reply is true; without one it fails and the store is unchanged |
| Caching.Cache.Get | bali/cache.py:70-75 | with a client, the stored value under the prefixed key, decoded, or None; without one it fails |
| Caching.Cache.IncrBy | bali/cache.py:77-93 | `INCRBY` runs only on an existing key: a missing key raises with nothing stored; an increment or stored value outside 64 bits is not an integer, and a sum outside 64 bits would overflow, both leaving the store as it was; otherwise the stored counter `m` becomes `m + delta`, which is returned |
| Caching.Cache.Incr | bali/cache.py:95-97 | on the prefixed key: no client fails; a missing key raises; a stored value that is not a 64-bit decimal counter is not an integer, with nothing changed; a stored 64-bit integer `m` becomes `m + delta` and reads back as the returned value when `delta` and the sum fit in 64 bits, and otherwise it fails with nothing changed |
| Caching.Cache.Decr | bali/cache.py:99-101 | `incr` by `-delta`: no client fails; a missing key raises; a stored value that is not a 64-bit decimal counter is not an integer, with nothing changed; a stored 64-bit integer `m` becomes `m - delta` and reads back as the returned value when `-delta` and the difference fit in 64 bits, and otherwise it fails with nothing changed |
| Caching.SetGetIncrDecr | bali/cache.py:65-101 | on a connected cache a value set is read back unchanged, and a 64-bit integer counted up by `d` and down by `d`, all within 64 bits, returns `n + d` and then `n` |
| Comparators.BucketAppend | bali/db/comparators.py:12-13 | the bucket of a concatenation is the two buckets in order, so each bucket keeps the order of `whens` |
| Comparators.BucketMembership | bali/db/comparators.py:12-13 | a key is in the bucket of `v` exactly when `(key, v)` is an entry of `whens` |
| Comparators.BucketOfAbsentValue | bali/db/comparators.py:18-19 | a value no entry maps to has an empty bucket, so `==` with it matches nothing |
| Comparators.ReverseWhens | bali/db/comparators.py:11-13 | the constructor's loop leaves, for every value, exactly the keys that map to it, in order |
| Comparators.CaseComparator.constructor | bali/db/comparators.py:9-13 | `reversed_whens` inverts `whens` |
| Comparators.CaseComparator.Eq | bali/db/comparators.py:18-19 | `== other` is an `IN` over the keys that map to `other`; reading the `defaultdict` stores an empty bucket for an unknown value and changes no bucket |
| Connection.IsMysql | bali/db/connection.py:132-134 | always raises `NotImplementedError` |
| Connection.IsPostgres | bali/db/connection.py:136-138 | always raises `NotImplementedError` |
| Connection.AsyncUri | bali/db/connection.py:140-154 | the loop applies the three scheme replacements in order, each to every occurrence |
| Connection.RewriteAbsent | bali/db/connection.py:146-154 | a URI that contains none of the sync schemes is left as it is |
| Connection.AsyncSqlite | bali/db/connection.py:147-153 | `sqlite://rest` becomes `sqlite+aiosqlite://` followed by the rewritten rest |
| Connection.AsyncMysql | bali/db/connection.py:147-153 | `mysql+pymysql://rest` becomes `mysql+aiomysql://` followed by the rewritten rest |
| Connection.AsyncPostgres | bali/db/connection.py:147-153 | `postgres://rest` becomes `postgresql+asyncpg://` followed by the rewritten rest |
| Connection.SetDefault | bali/db/connection.py:63-64 | `setdefault` adds the key, keeps an existing value, and leaves every other key alone |
| Connection.EngineOptions | bali/db/connection.py:59-64 | for SQLite the options are kept as given; otherwise `pool_size` defaults to 5 and `pool_recycle` to 7200, and other keys are kept |
| Connection.SessionOptions | bali/db/connection.py:66-69 | `expire_on_commit` defaults to False, and other keys are kept |
| Connection.DB.constructor | bali/db/connection.py:46-49 | a new `db` is not connected |
| Connection.DB.Connect | bali/db/connection.py:51-89 | `connect` records the URI, the defaulted engine and session options, and the async URI |
| Environments.NameOf | bali/environments.py:24-29 | each stage's `.name` is one of the four member names |
| Environments.FromName | bali/environments.py:32-36 | `STAGE[name]` finds exactly the four member names, each giving the stage with that name |
| Environments.FromNameOf | bali/environments.py:24-29 | every stage is found again by its name, so the names are distinct |
| Environments.Env | bali/environments.py:30-36 | an unset `ENV` means DEV; a member name gives that stage; anything else is logged and falls back to DEV |
| Environments.EnvSelectsNamedStage | bali/environments.py:30-36 | setting `ENV` to a stage's name selects that stage and logs nothing |
| Events.GetOr | bali/events/handler.py:52-56 | `config.get(key) or fallback`: a missing or empty setting gives the fallback |
| Events.ConfigKeys | bali/events/handler.py:39-44 | the key list defaults to `default`, an empty list raises, and the keys joined by `,` give the setting back |
| Events.CallbackFor | bali/events/handler.py:46-75 | fails exactly for a missing or empty config or one without a server address; otherwise the exchange type defaults to `direct`, a fanout exchange has no routing key, and the exchange and queue names fall back as written |
| Events.RegisteredInOrder | bali/events/handler.py:45-77 | with every key configured, one callback is registered per key, in the keys' order |
| Events.FirstFailureStops | bali/events/handler.py:45-50 | the first failing key raises its error; the callbacks of the keys before it stay registered |
| Events.RegisteredStep | bali/events/handler.py:45-77 | one iteration: the key either fails and ends the registrations, or adds its callback in front of the rest |
| Events.Registry.constructor | bali/events/handler.py:9-10 | both global registries start empty |
| Events.Registry.Append | bali/events/handler.py:74-77 | one registration appends the callback and the event type |
| Events.Registry.RegisterCallback | bali/events/handler.py:37-77 | the registries grow by the callbacks of the configured keys, each paired with the event type; a bad key list raises with nothing registered; the first failing key raises |
| Events.Registry.RegisterKeys | bali/events/handler.py:45-77 | the loop appends exactly the registered callbacks, and as many copies of the event type, keeping the two lists paired |
| Events.Dispatch | bali/events/dispatch.py:7-27 | fails without a non-empty sub-config or a server address; otherwise the routing key, exchange and queue fall back to the `BALI_*` settings joined to the event type |
| Events.NamedConfigConnects | bali/events/dispatch.py:7-27 | a sub-config naming its routing key, exchange and queue is consumed by `register_callback` and published to by `dispatch` through the same exchange, routing key and queue |
| GenericRoutes.PickRoute | bali/resources/generic_routes.py:22-24 | the async handler is picked exactly for a coroutine action |
| GenericRoutes.QueryParams | bali/resources/generic_routes.py:39 | `query_params._dict` holds each query key once, and exactly the query's keys |
| GenericRoutes.QueryParamsLastValue | bali/resources/generic_routes.py:39 | a key's value in `query_params._dict` is the value of its last occurrence in the query |
| GenericRoutes.ParseFilters | bali/resources/generic_routes.py:42-58 | the loop over the dict's items builds exactly the filters of the declared keys whose values convert |
| GenericRoutes.FilterItems | bali/resources/generic_routes.py:42-58 | over a dict's items, a key is kept exactly when it is declared and its value converts, with the converted value; undeclared keys and failed conversions are dropped without failing the request |
| GenericRoutes.FilterParsing | bali/resources/generic_routes.py:39-58 | over the query, a declared key is judged by the value of its last occurrence: kept with that value converted when the conversion succeeds, dropped when it fails, whatever earlier occurrences held; every filter is a declared query key |
| GenericRoutes.FilterDefault | bali/resources/generic_routes.py:98-100 | a filter parameter defaults to None exactly when its type is an alias with `NoneType` among its arguments |
| GenericRoutes.NameError | bali/resources/generic_routes.py:102-107 | `inspect.Parameter` refuses a name that is not an identifier, and otherwise a keyword, naming it |
| GenericRoutes.ValidateSignature | bali/resources/generic_routes.py:111 | `sig.replace` accepts the parameters exactly when no two clash (same name, or a default followed by none); otherwise it names the first parameter that fails, checking the default before the name |
| GenericRoutes.RouteParameters | bali/resources/generic_routes.py:96-111 | the signature is built exactly when every filter name is an identifier and not a keyword, no filter without default follows one defaulting to None, and no filter is called `request`; it then has one parameter per declared filter, in declared order, with its default and annotation, followed by `request`; otherwise ValueError names the first refused filter name, else the first filter without a default after a defaulted one, else `request` as a duplicate |
| GenericRoutes.SignatureChecks | bali/resources/generic_routes.py:109-111 | on the route's parameters, the signature check fails exactly when the filter defaults are out of order or a filter is called `request`, and says which |
| GenericRoutes.RouteClashes | bali/resources/generic_routes.py:96-111 | among the route's parameters, two filters clash exactly by their defaults, and a filter clashes with `request` exactly when it has that name |
| GenericRoutes.AcceptedRoute | bali/resources/generic_routes.py:109-111 | an accepted signature has its filter defaults in order and no filter called `request` |
| GenericRoutes.RefusedAtFilter | bali/resources/generic_routes.py:109-111 | a refusal at a filter is for its default, and that filter is the first without a default after a defaulted one |
| GenericRoutes.RefusedAtRequest | bali/resources/generic_routes.py:109-111 | a refusal at `request` is a duplicate name: a filter is called `request` and the defaults are in order |
| GenericRoutes.QueryData | bali/resources/generic_routes.py:39 | the query as keyword arguments has exactly the query's keys |
| GenericRoutes.ListRequestOf | bali/resources/generic_routes.py:60 | a `filters` query key is a duplicate keyword; otherwise the `ListRequest` validated from the query carries exactly the parsed filters, or its validation error |
| GenericRoutes.RequestParams | bali/paginate.py:19-22 | `paginate` called without parameters lets the paginator resolve them from the request: `limit` and `offset` default to 50 and 0 when absent; present ones are read as integers, and the parameters exist exactly when they lie in 1..100 and 0.. (those defaults and bounds are fastapi_pagination's `LimitOffsetParams`, which is not part of this model) |
| GenericRoutes.ListOutcome | bali/resources/generic_routes.py:39-63 | bad page parameters are refused first, then a `filters` query key; the filters are those parsed from the query's dict; a result is always an HTTP page |
| GenericRoutes.ListOfList | bali/resources/generic_routes.py:60-63 | a list action returning a list is served as the slice of that list the request's `limit` and `offset` select, with its length as the total; a query result goes to the query paginator with those parameters; one returning a model is refused |
| GenericRoutes.ServeList | bali/resources/generic_routes.py:36-63 | out-of-range page parameters are refused before the body runs; otherwise the request is stored first, a failed permission check denies with 403, and the outcome is that of the list pipeline |
| GenericRoutes.Forward | bali/resources/generic_routes.py:116-183 | `get` and `delete` pass the path id as `pk`, `create` the body, `update` the body and `pk=id` |
| GenericRoutes.ServeItem | bali/resources/generic_routes.py:116-183 | the request is stored first; the route is denied with 403 exactly when a permission check fails, and otherwise calls the action with the forwarded arguments |
| Resources.Resource.constructor | bali/resources/resource.py:79-87 | a resource keeps its request, context and response message, is RPC exactly for a protobuf message and HTTP otherwise, and starts with an empty `auth` |
| Resources.PluralizeLast | bali/resources/resource.py:44 | only the last word is pluralized; the others are kept |
| Resources.GeneratedEndpoint | bali/resources/resource.py:41-45 | the generated endpoint ends in `s`, the pluralized last word |
| Resources.HttpEndpoint | bali/resources/resource.py:36-49 | the endpoint always starts with `/`; a truthy `http_endpoint` is used as it is, with a `/` added when it lacks one; the generated one ends in `s` |
| Resources.ResourceNameOf | bali/resources/resource.py:42 | removing `Resource` from `XResource` gives `X` back when no other `Resource` occurs |
| Resources.GeneratedOfWords | bali/resources/resource.py:41-45 | for a class named by capitalised words, the generated endpoint is the lower-cased words, the last pluralized as `pluralize` is written, joined by `-` |
| Resources.GeneratedStartsLower | bali/resources/resource.py:41-45 | that generated endpoint begins with a lower-case letter |
| Resources.EndpointOfWords | bali/resources/resource.py:36-49 | a class named by capitalised words plus `Resource`, without a truthy `http_endpoint`, is served under `/` and its dashed words, the last pluralized as written |
| Resources.FalsyEndpointIsGenerated | bali/resources/resource.py:38-45 | an empty or missing `http_endpoint` both give the generated endpoint |
| Resources.RpcMethodNames | bali/resources/resource.py:51-57 | for `XResource` the servicer method is the capitalised action followed by `X`, or for `list` by the plural of `X` as `pluralize` is written |
| Resources.RpcObject | bali/resources/resource.py:51-57 | the RPC object is the resource name, pluralized (longer, ending in `s`) for `list` |
| Resources.RpcMethodName | bali/resources/resource.py:51-57 | the method name is the action, its first letter upper-cased and the rest lower-cased (`capitalize`), followed by the RPC object |
| Resources.ConsonantYPlural | bali/_utils.py:41-44 | as written, `CategoryResource`-like names keep their `y`: served under `/categorys`, listed by `ListCategorys` |
| Resources.VowelYPlural | bali/_utils.py:41-42 | as written, `DayResource`-like names trade `y` for `ies`: served under `/daies`, listed by `ListDaies` |
| Resources.PluralEndpoint | bali/resources/resource.py:41-45 | a one-word resource is served under `/` and the as-written plural of its lower-cased word |
| Resources.PluralListMethod | bali/resources/resource.py:51-57 | a one-word resource lists through `List` and the as-written plural of its word |
| Resources.CapitalWordsEndpoint | bali/resources/resource.py:36-49 | a one-word resource name has no inner `Resource`, and its endpoint is `/` and the as-written plural of the lower-cased word |
| Resources.ResponseType | bali/resources/resource.py:338-350 | `ListResponse` exactly for `list`, `ResultResponse` exactly for `delete`, `ItemResponse` exactly for create, get and update, and none for a custom action |
| Resources.Customs | bali/resources/resource.py:141-143 | the custom names are non-generic names taken from the registry |
| Resources.Generics | bali/resources/resource.py:141-143 | the generic names are generic names taken from the registry |
| Resources.EmitOrder | bali/resources/resource.py:141-143 | every emitted name is a registered name |
| Resources.PartitionMultiset | bali/resources/resource.py:141-143 | the custom and generic names together are the registered names, as a multiset |
| Resources.FilterAppend | bali/resources/resource.py:141-143 | separating custom from generic names distributes over concatenation |
| Resources.FilterIdempotent | bali/resources/resource.py:141-143 | separating twice changes nothing, and the two parts are disjoint |
| Resources.EmitOrderIsStableSort | bali/resources/resource.py:139-143 | the emission order is a stable sort on "is generic": a permutation of the registered names, with every custom name before every generic one and each group in registration order |
| Resources.RouteFor | bali/resources/resource.py:256-312 | the route of an action is registered for that action |
| Resources.CustomPath | bali/resources/resource.py:301-303 | the path starts with `/{id}/` exactly when `detail` is truthy and with `/` otherwise, and ends with the action name, each `_` turned into `-` |
| Resources.CustomPathShape | bali/resources/resource.py:297-303 | a custom path has no `_`, begins with `/{id}/` exactly when `detail` is truthy, and turning its `-` back into `_` gives the action name |
| Resources.RoutesOf | bali/resources/resource.py:146-150 | at most one route per name, and each one is for a name the class has |
| Resources.RoutesOfStep | bali/resources/resource.py:146-150 | one more name appends its route exactly when the class has that name |
| Resources.RoutesCover | bali/resources/resource.py:146-150 | every name the class has gets its route |
| Resources.RoutesCustomFirst | bali/resources/resource.py:139-150 | routes keep the order of their names, so custom routes come before generic ones |
| Resources.EmittedName | bali/resources/resource.py:141-143 | every registered name is emitted |
| Resources.EmittedRoutesOrder | bali/resources/resource.py:137-151 | custom routes come before generic ones, so `/{id}` of `get` is registered after a custom `/hello`; only registered actions the class has get routes |
| Resources.EmittedRouteFor | bali/resources/resource.py:137-151 | every registered action the class has gets its route |
| Resources.FirstFailure | bali/resources/resource.py:153-160 | the checks before the first failure all pass, and the check at that index fails |
| Resources.FirstEntries | bali/resources/resource.py:164-166 | the first key and value of each declared filter dict, in list order |
| Resources.FiltersStep | bali/resources/resource.py:164-167 | one more declaration assigns its first entry into the ordered dict |
| Resources.GetOrderedFilters | bali/resources/resource.py:162-168 | an empty filter dict fails at the first such index; otherwise the result is the ordered dict of the first entries, where a later duplicate key replaces the value and keeps the first position |
| Resources.RouterGenerator.constructor | bali/resources/resource.py:132-135 | a new generator keeps the class, the registry and the ordered filters, and has no routes |
| Resources.RouterGenerator.Call | bali/resources/resource.py:137-151 | `__call__` appends exactly the routes of the emitted names the class has, in emission order |
| Resources.RouterGenerator.AddRoutesInOrder | bali/resources/resource.py:146-151 | the loop appends, for each name in turn that the class has, the route of that name, and nothing else |
| Resources.RouterGenerator.AddRoute | bali/resources/resource.py:256-312 | `add_route` adds the action's route to the router |
| Resources.RouterGenerator.CheckPermissions | bali/resources/resource.py:153-160 | denied with 403 exactly when some check fails; the checks run in declared order and stop after the first failure |
| Resources.NewRouterGenerator | bali/resources/resource.py:132-135 | building a generator fails exactly when a filter dict is empty; otherwise it holds the ordered filters and no routes |
| Resources.RpcServicer.constructor | bali/resources/resource.py:360 | the servicer object starts without methods |
| Resources.Install | bali/resources/resource.py:330-334 | after installing, the method names are the old ones plus the RPC name of every installed name the class has |
| Resources.InstallKeysStep | bali/resources/resource.py:330-334 | one more name adds its RPC method name exactly when the class has it |
| Resources.InstallStep | bali/resources/resource.py:330-334 | one more name sets its servicer on top of the earlier ones |
| Resources.InstalledServicer | bali/resources/resource.py:336-360 | the method under a name serves the last installed action that maps to it, with that action's response type |
| Resources.ServicerGenerator.constructor | bali/resources/resource.py:320-321 | a new generator keeps the class and the registry |
| Resources.ServicerGenerator.Call | bali/resources/resource.py:323-334 | `__call__(app)` sets one servicer method per emitted name the class has, in emission order, so later ones overwrite earlier ones of the same name |
| GrpcActions.Build | bali/resources/grpc_actions.py:34 | `schema_in(**kwargs)`: a generic schema succeeds exactly when its validation does, giving the validated envelope; a declared one exactly when its construction does; the `inspect.Parameter.empty` marker accepts no keyword, so only empty arguments give an `empty` instance; a falsy annotation is not callable |
| GrpcActions.MessageId | bali/resources/grpc_actions.py:27 | `resource._request.id` succeeds exactly when the message has an `id`, giving it |
| GrpcActions.RpcParams | bali/resources/grpc_actions.py:42-45 | a missing or falsy limit becomes 10; the parameters exist exactly when limit and offset are integers with the limit in 1..100 and the offset non-negative, and carry them |
| GrpcActions.DefaultLimit | bali/resources/grpc_actions.py:42-45 | a missing or zero limit is 10, and a limit of 101 is refused |
| GrpcActions.WriteArguments | bali/resources/grpc_actions.py:56-60 | the generic `CreateRequest`/`UpdateRequest` take the whole message; any other schema takes the nested `data` mapping, and fails without one |
| GrpcActions.WriteCall | bali/resources/grpc_actions.py:64-77 | a `CreateRequest` passes a model of its `data`, an `UpdateRequest` that and `pk=id`, any other schema the instance itself |
| GrpcActions.Encode | bali/resources/grpc_actions.py:96-100 | `ParseDict` with `ignore_unknown_fields`: fails without a response message; otherwise the reply holds exactly the response data's fields the message declares, with their values |
| GrpcActions.GetResponds | bali/resources/grpc_actions.py:26-30 | `get` fails without an `id`; otherwise it calls the action with the id and answers `{'data': parse_dict(result)}` |
| GrpcActions.DeleteResponds | bali/resources/grpc_actions.py:82-85 | `delete` fails without an `id`; otherwise it answers `{'result': bool(result)}` |
| GrpcActions.ListResponds | bali/resources/grpc_actions.py:32-51 | with the generic `ListRequest` that the as-written lookup gives, `list` refuses a single model and bad parameters; otherwise the reply holds `count`, the total, and `data`, each item of the page through `parse_dict` |
| GrpcActions.ListReply | bali/resources/grpc_actions.py:96-100 | `ParseDict` into a `ListResponse` keeps exactly `count` and `data`, with their values |
| GrpcActions.WriteResponds | bali/resources/grpc_actions.py:53-80 | with the schema the as-written lookup gives, `create`/`update` with a generic `CreateRequest` pass a model of its `data`; a declared schema is built from the nested `data` and passed itself; both answer `{'data': parse_dict(result)}` |
| GrpcActions.CustomResponds | bali/resources/grpc_actions.py:87-93 | with the annotation the as-written lookup gives, a custom action answers with its dict result, a model's result through `.dict()`, and fails on anything else |
| GrpcActions.CustomNeedsAnnotation | bali/resources/grpc_actions.py:89 | a custom action whose schema parameter has a falsy annotation is refused before the action runs |
| GrpcActions.UnannotatedCallsMarker | bali/resources/grpc_actions.py:32-34 | an unannotated `schema_in` on `list` or a custom action makes any request field raise before the action runs; an empty request runs the action on an `empty` instance |
| GrpcActions.UnannotatedWrite | bali/resources/grpc_actions.py:53-62 | an unannotated `schema_in` on `create`/`update` succeeds exactly when the nested `data` is an empty mapping, and then runs the action on an `empty` instance |
| GrpcActions.ResponseData | bali/resources/grpc_actions.py:26-93 | `get` and `delete` succeed exactly when the message has an `id`; `get`, `create` and `update` answer under `data`, `delete` under `result`; a missing schema is a lookup error only for a custom action |
| GrpcActions.CustomActionsNeverReply | bali/resources/grpc_actions.py:87-100 | with the response message the servicer generator gives a custom action (none), a custom action served over RPC never produces a reply |
| Paginate.Slice | bali/paginate.py:19-22 | `items[offset:offset + limit]`: the length is clipped at the end of the list, and each element is the element `offset` further on |
| Paginate.ConsecutiveSlices | bali/paginate.py:19-22 | two consecutive slices make up the slice as long as both |
| Paginate.InMemoryPage | bali/paginate.py:13-22 | a list is paged to the selected slice, with the length of the whole list as its total |
| Paginate.PageOf | bali/paginate.py:8-22 | a model is refused and nothing else is; a list is paged in memory, anything else by the query paginator, with the given parameters or, without them, the request's |
| Paginate.Paginate | bali/paginate.py:8-39 | exactly a model is refused; over HTTP the page is returned; over RPC, for a list or a query alike, it fails with `NoDictMethod` exactly when some page item is neither a dict nor a model, and otherwise the mapping has the six keys, `count` and `total` equal to the page's total, the page's `limit` and `offset`, and `items` equal to `data`, the page's items each converted to a dict, in order |
| Paginate.PaginateParsed | bali-core/paginate.py:9-40 | exactly a model is refused; the answer is an RPC mapping exactly when `is_rpc`, and over HTTP it is the page |
| Paginate.Reshape | bali/paginate.py:27-37 | the RPC mapping has `count` equal to `total` and `items` equal to `data`, both the converted items, and keeps `limit` and `offset` |
| Paginate.ItemDict | bali/paginate.py:31 | a dict is kept, a model gives its fields, and anything else has no `.dict()` |
| Paginate.ItemDicts | bali/paginate.py:31 | the comprehension succeeds exactly when every item converts, keeping their number and order |
| Paginate.PaginateShape | bali/paginate.py:8-39 | a model is refused; over HTTP the page is returned unchanged; over RPC a list gives `count` and `total` equal to its length and `items` equal to `data`, the converted slice, or fails on an item that does not convert |
| Paginate.PaginateParsedShape | bali-core/paginate.py:9-40 | the `parse_dict` variant fails only for a model; over RPC `count` is the total and `data` is each item of the page through `parse_dict`, in order |
| Envelopes.Filter | bali/schemas/generic.py:22-56 | a declared field is reported exactly when it is given with a value of the wrong shape |
| Envelopes.Construct | bali/schemas/generic.py:22-56 | `T(**kwargs)` succeeds exactly when no declared field has a bad value, giving a record of type `T`; otherwise it reports those fields in declaration order |
| Envelopes.StringValues | bali/schemas/generic.py:30 | an ordering list becomes its strings, one by one |
| Envelopes.RowValues | bali/schemas/generic.py:47 | a list of rows becomes its mappings, one by one |
| Envelopes.ToDict | bali/schemas/generic.py:22-56 | `.dict()` has exactly the declared fields as keys |
| Envelopes.RequestDefaults | bali/schemas/generic.py:22-43 | the request records built with no arguments hold 0, `{}` and `[]` |
| Envelopes.ResponseDefaults | bali/schemas/generic.py:46-56 | the response records built with no arguments hold `[]`, 0 and False |
| Envelopes.EmptyIsValid | bali/schemas/generic.py:22-56 | every field has a default, so no arguments is valid |
| Envelopes.UnknownKeysIgnored | bali/schemas/generic.py:22-56 | keyword arguments that are not fields change nothing |
| Envelopes.ConstructAgrees | bali/schemas/generic.py:22-56 | two keyword sets that agree on the declared fields construct the same record |
| Envelopes.FilterAgrees | bali/schemas/generic.py:22-56 | the fields reported depend only on the values of those fields |
| Envelopes.NothingInvalid | bali/schemas/generic.py:22-56 | when no declared field has a bad value, nothing is reported |
| Envelopes.OnlyOneInvalid | bali/schemas/generic.py:22-56 | when only one field is given, with a bad value, that field alone is reported |
| Envelopes.StringsRoundTrip | bali/schemas/generic.py:30 | a list of strings reads back unchanged |
| Envelopes.RowsRoundTrip | bali/schemas/generic.py:47 | a list of rows reads back unchanged |
| Envelopes.DictRoundTrip | bali/schemas/generic.py:22-56 | every record survives `.dict()` followed by construction: `T(**e.dict()) == e` |
| Envelopes.ListRequestDictValid | bali/schemas/generic.py:26-30 | every field of a list request's `.dict()` is accepted again |
| Envelopes.ListRequestRoundTrip | bali/schemas/generic.py:26-30 | a list request survives `.dict()` followed by construction |
| Envelopes.ListRequestDictFields | bali/schemas/generic.py:26-30 | the list request's `.dict()` holds its four fields |
| Envelopes.ResponseRoundTrip | bali/schemas/generic.py:46-52 | an item or list response survives `.dict()` followed by construction |
| Envelopes.ResultRoundTrip | bali/schemas/generic.py:55-56 | a result response survives `.dict()` followed by construction |
| Envelopes.RequestRoundTrip | bali/schemas/generic.py:22-43 | get, create, update and delete requests survive `.dict()` followed by construction |
| Envelopes.IntFieldAcceptsText | bali/schemas/generic.py:22-23 | an `id` field accepts the decimal text of an integer, giving that integer |
| Envelopes.NoneIsRejected | bali/schemas/generic.py:22-56 | a None given for a field is rejected, not replaced by the default |
| Schemas.GenericSchema | bali/schemas/__init__.py:67-73 | exactly the generic actions have a generic schema |
| Schemas.Selected | bali/schemas/__init__.py:80-83 | the selected parameter is the second one or named `schema_in`, and no earlier parameter qualifies; none is selected when no parameter qualifies |
| Schemas.UnannotatedGenericResolvesToMarker | bali/schemas/__init__.py:84-94 | as written, an unannotated `schema_in` of a generic action resolves to the `empty` marker instead of the generic record |
| Schemas.SchemaIn | bali/schemas/__init__.py:57-96 | no qualifying parameter raises; a schema annotation is returned; otherwise, with `default_by_action`, the action's generic record (None for a custom action), and without it the lookup raises |
| Schemas.SchemaInAsWritten | bali/schemas/__init__.py:57-96 | as written: no qualifying parameter raises; a truthy annotation, the `empty` marker included, is returned; a falsy one gives, with `default_by_action`, the generic record of a generic action and None for a custom one, and without it raises |
| Schemas.SchemaInAgreesWhenAnnotated | bali/schemas/__init__.py:84-94 | the corrected and the written lookups agree whenever the selected parameter is annotated or falsy |
| Schemas.GetSchemaIn | bali/schemas/__init__.py:80-96 | the loop returns what the as-written lookup specifies |
| Schemas.ModelToSchema | bali/schemas/__init__.py:23-47 | the loop returns the fields of the columns in order, or the first column's missing python type |
| Schemas.FailureStaysFailure | bali/schemas/__init__.py:38 | once a column fails the assertion, the whole derivation fails the same way |
| Schemas.FieldRule | bali/schemas/__init__.py:25-47 | every field comes from a non-excluded column property; in partial mode it is Optional and not required; otherwise it is required exactly when its column has no default and is not nullable |
| Schemas.FieldsInColumnOrder | bali/schemas/__init__.py:25-47 | when the derivation succeeds, the fields are exactly those of the kept columns (column properties with columns, not excluded), one per kept column, in column order, each named after its column and built from it by the field rule |
| Schemas.KeptColumnGivesField | bali/schemas/__init__.py:25-47 | every kept column has a python type and its field is among the fields when the derivation succeeds |
| Schemas.MissingPythonTypeFails | bali/schemas/__init__.py:32-38 | a kept column without a python type fails the assertion |
| Declarative.FindIn | bali-core/declarative/__init__.py:188-192 | a falsy id lists the first 50 records in insertion order; a truthy id gives the record stored under it, or a KeyError exactly when none is |
| Declarative.ModelSchema.constructor | bali-core/declarative/__init__.py:166 | the store starts empty |
| Declarative.ModelSchema.Push | bali-core/declarative/__init__.py:179-181 | with a truthy id, the fields with `id` set are stored under that id and returned |
| Declarative.ModelSchema.Pop | bali-core/declarative/__init__.py:183-186 | a stored id is deleted and returned; an absent id raises KeyError and changes nothing |
| Declarative.ModelSchema.Find | bali-core/declarative/__init__.py:188-192 | returns what `FindIn` specifies for the current store |
| Declarative.StoreRoundTrip | bali-core/declarative/__init__.py:168-192 | a pushed record is found under its id with the id set; after `pop` it is missing |
| Declarative.RepushKeepsOrder | bali-core/declarative/__init__.py:179-180 | pushing under a stored id replaces the record and keeps the insertion order |
| Declarative.PushedKeepsOrder | bali-core/declarative/__init__.py:78-83 | recorded actions stay first and in place; the result holds exactly the old and pushed names; no name is recorded twice |
| Declarative.PushedIdempotent | bali-core/declarative/__init__.py:78-83 | pushing the same names again changes nothing |
| Declarative.AlreadyPresent | bali-core/declarative/__init__.py:81-83 | names that are all recorded already are not appended |
| Declarative.ResourceFactory.constructor | bali-core/declarative/__init__.py:14-31 | a factory starts with no schema, no actions and no canned responses |
| Declarative.ResourceFactory.PushAction | bali-core/declarative/__init__.py:78-83 | the actions become the old ones with each new name appended once, in order; schema and responses are unchanged |
| Declarative.ResourceFactory.Schema | bali-core/declarative/__init__.py:96-107 | a pydantic model replaces the schema; any other argument changes nothing |
| Declarative.ResourceFactory.All | bali-core/declarative/__init__.py:109-111 | the five generic actions are pushed |
| Declarative.ResourceFactory.Declare | bali-core/declarative/__init__.py:113-148 | a dict response, or a list whose first element is a dict, derives the `{Pascal}Schema` and cans the response as given; the action is pushed in every case; an empty list fails before anything changes |
| Declarative.ResourceFactory.Record | bali-core/declarative/__init__.py:130-156 | `create`, `update` and `delete` only push their action |
| Declarative.ResourceFactory.Build | bali-core/declarative/__init__.py:69-94 | the class is `{Pascal}Resource`, carries the schema, and defines exactly the pushed actions in order |
| Declarative.ResourceFactory.BuildLegacyAsWritten | bali/declarative/__init__.py:34-60 | as written, the older `__call__` fails the decorator's missing-`detail` assertion for every factory state, and no class is built |
| Declarative.ResourceFactory.BuildLegacy | bali/declarative/__init__.py:34-60 | as intended, the older class always defines `list` and `get`, whatever was pushed |
| Declarative.ResourceFactory.Invoke | bali-core/declarative/__init__.py:33-67 | a canned response is returned when there is one; otherwise `list` and `get` read the schema's store, and the other actions raise NotImplementedError |
| Declarative.DeclarativeApi.constructor | bali-core/declarative/__init__.py:196-198 | the API starts with no factories |
| Declarative.DeclarativeApi.Define | bali-core/declarative/__init__.py:203-206 | a fresh empty factory for the name is returned and appended to the factories |
| Declarative.DeclareGetThenList | bali-core/declarative/__init__.py:113-148 | declaring `get` and then `list` gives a `{Pascal}Resource` with the actions `["get", "list"]` and the schema derived from the list's first row |
| Naming.VowelYRuleIsInverted | bali/_utils.py:41-42 | as written, `day` becomes `daies` and `city` becomes `citys`; the corrected rule gives `days` and `cities` |
| Naming.Pluralize | bali/_utils.py:28-44 | the plural is longer than the noun, ends in `s`, and begins with the noun's stem |
| Naming.PluralizeAsWritten | bali/_utils.py:28-44 | as written, the plural is longer than the noun, ends in `s`, and begins with the noun without its last letter |
| Naming.AsWrittenDiffersOnlyAtY | bali/_utils.py:41-44 | the written and the intended rule differ exactly on nouns ending in `y`, where one appends `s` and the other turns `y` into `ies` |
| Naming.PluralAsWrittenAtY | bali/_utils.py:41-44 | as written, a consonant before a final `y` gets `s`, and a vowel before it gets `ies` in place of the `y` |
| Naming.PluralEs | bali/_utils.py:37-40 | `es` is appended exactly when the noun ends in s, x, z or a hard `h` |
| Naming.PluralIes | bali/_utils.py:41-42 | a final `y` becomes `ies` exactly after a consonant, when no earlier rule applies |
| Naming.PluralS | bali/_utils.py:43-44 | a plain `s` is appended exactly when no other rule applies |
| Naming.Decamelize | bali/resources/resource.py:43 | decamelizing never shortens a name |
| Naming.DecamelizeAfter | bali/resources/resource.py:43 | the letters after the first are never shortened |
| Naming.AfterAppend | bali/resources/resource.py:43 | decamelizing two pieces in turn is decamelizing them joined |
| Naming.AfterLowerCase | bali/resources/resource.py:43 | lower-case letters are copied unchanged |
| Naming.DecamelizeWord | bali/resources/resource.py:43 | a single capitalised word is only lower-cased |
| Naming.DecamelizeSeam | bali/resources/resource.py:43 | one underscore goes between a word and a capitalised tail |
| Naming.SeamHead | bali/resources/resource.py:43 | the glued word starts with the first word's first letter |
| Naming.SeamMiddle | bali/resources/resource.py:43 | the tail's letters follow the first word's last letter |
| Naming.SeamTail | bali/resources/resource.py:43 | a capital after a lower-case letter starts with an underscore |
| Naming.DecamelizeWords | bali/resources/resource.py:43 | capitalised words run together come back lower-cased and joined by `_`, so the `split('_')` recovers the words |
| Naming.CapitalizeFirst | bali-core/declarative/__init__.py:73 | a word keeps its length; only its first letter is upper-cased |
| Naming.PascalizeWords | bali-core/declarative/__init__.py:73 | snake-case words come back capitalised and run together; a name without `_` only gains a capital |
| Naming.GetServiceAdder | bali/_utils.py:18-25 | the result is the first name in `dir()` order that matches `^add_.*_to_server$`, or None exactly when no name matches |
| Naming.Singleton.constructor | bali/_utils.py:7-8 | the decorated class starts with no instance |
| Naming.Singleton.Call | bali/_utils.py:10-13 | the first call builds the instance from its arguments and keeps it; every later call returns it unchanged |
| Naming.SingletonKeepsFirst | bali/_utils.py:10-13 | two calls with different arguments both give the instance built by the first |
| Operators.OperatorNamed | bali-core/db/operators.py:12-48 | an operator is found only under its own name in the table |
| Operators.OperatorFoundByName | bali-core/db/operators.py:12-48 | every operator of the table is found under its name, so the names are distinct |
| Operators.DateOperatorFound | bali-core/db/operators.py:30-47 | every date-part operator is found under its name |
| Operators.YearOperatorFound | bali-core/db/operators.py:30-35 | the six `year` operators are found under their names |
| Operators.MonthOperatorFound | bali-core/db/operators.py:36-41 | the six `month` operators are found under their names |
| Operators.DayOperatorFound | bali-core/db/operators.py:42-47 | the six `day` operators are found under their names |
| Operators.LastOccurrenceBelow | bali-core/db/operators.py:58 | the result is an occurrence below the bound with none after it, or None exactly when there is no occurrence below the bound |
| Operators.RSplitAtLast | bali-core/db/operators.py:57-58 | a key is split exactly when it contains `__`; the split is at the last `__`, and the operator part holds no `__` |
| Operators.GetFiltersExpr | bali-core/db/operators.py:51-71 | the loop returns what the translation of all entries specifies, after rejecting a non-callable model |
| Operators.TranslateAllPrefixError | bali-core/db/operators.py:56-69 | an error in a prefix of the entries is the error of all of them |
| Operators.TranslateAllSucceeds | bali-core/db/operators.py:55-71 | on success there is one predicate per entry, each the translation of the entry at the same position |
| Operators.TranslateAllFails | bali-core/db/operators.py:55-71 | on failure the entries before some position translate and the entry there raises the reported error |
| Operators.TranslateEntry | bali-core/db/operators.py:57-69 | a translated entry names a column of the model; a missing one is reported by that name; unknown operators and bad values report the whole key, and a key without `__` has no unknown operator |
| Operators.TranslateAll | bali-core/db/operators.py:55-71 | on success there is one predicate per entry, and no entry failure is a missing-model error |
| Operators.ModelCheckedFirst | bali-core/db/operators.py:52-53 | a non-callable model raises OperatorModelError whatever the filters |
| Operators.PlainKeyIsEquality | bali-core/db/operators.py:65-69 | a key without `__` is an equality on the column of that name |
| Operators.SplitKeyUsesLastSeparator | bali-core/db/operators.py:57-69 | `col__op` raises KeyError naming the key and `op` for an unknown operator, otherwise applies the operator to column `col` |
| Operators.LastOccurrenceIs | bali-core/db/operators.py:58 | the last occurrence below a bound is the one with no occurrence after it |
| Operators.KeySplitsAtColumn | bali-core/db/operators.py:58 | `col__op` splits back into `col` and `op` when `op` holds no `__` and does not start with `_` |
| Operators.IsNullFollowsTruthiness | bali-core/db/operators.py:13 | `isnull` tests IS NULL for a truthy value and IS NOT NULL for a falsy one |
| Operators.BetweenUsesFirstTwo | bali-core/db/operators.py:22 | `between` takes its bounds from the first two items and raises on a shorter value |
| Operators.PatternOperators | bali-core/db/operators.py:26-29 | `istartswith`, `iendswith` and `contains` are case-insensitive LIKE with `v%`, `%v` and `%v%` |
| Operators.DateOperators | bali-core/db/operators.py:30-47 | each date-part operator compares the extracted part with the comparison its suffix names |
| Operators.ComparisonOperators | bali-core/db/operators.py:17-21 | `gte` and `lte` are `>=` and `<=`; `in` and `notin` are membership and non-membership |
| Operators.Lookup | bali-core/db/operators.py:74-78 | a key without `__` is `exact` on the whole key; otherwise the table operator named after the last `__`, or KeyError |
| Operators.LookupRoundTrip | bali/utils.py:50-55 | a key built from a column and a table operator gives both back |
| Operators.Ordering | bali-core/db/operators.py:81-83 | descending exactly when the key starts with `-`; the column is the key with all leading `-` removed |
| Operators.OrderingRoundTrip | bali/utils.py:58-61 | `name` is ascending on `name` and `-name` descending on `name` |
| Operators.NoUnderscoreNoSplitter | bali-core/db/operators.py:57 | a name without `_` never contains the separator |
| Operators.TranslateNamed | bali-core/db/operators.py:57-69 | a key of a known column, `__` and an operator name without `_` translates by that operator |
| Operators.IsNullExhaustive | bali-core/db/operators.py:13 | `c__isnull=True` selects exactly the NULL rows and `c__isnull=False` exactly the others |
| Operators.BetweenInclusive | bali-core/db/operators.py:22 | `c__between=[lo, hi]` holds exactly for `lo <= c <= hi` |
| Routing.InjectedEndpoint | bali/routing.py:134-146 | an endpoint that raises removes the session once and re-raises; one that returns hands back its response with the session and removes nothing |
| Routing.Respond | bali/routing.py:98-122 | a ready response gets the request's background tasks only when it has none; content is serialised, with the sub-response status when set and the route's status otherwise, or fails when serialisation fails |
| Routing.SessionPersistAsWritten | bali/routing.py:35-38 | as written, the session is removed only when the body completes; a body that raises leaves it in place |
| Routing.SessionPersist | bali/routing.py:35-38 | with the release in a `finally`, a given session is removed exactly once however the body ends |
| Routing.HandlerResult | bali/routing.py:86-122 | validation errors raise before the endpoint runs; an endpoint's exception propagates; otherwise the reply is the response built from the endpoint's return |
| Routing.HandleAsWritten | bali/routing.py:63-146 | as written, the handler returns the specified reply, and a sync endpoint's session is removed except when serialisation fails |
| Routing.Handle | bali/routing.py:63-146 | with the corrected `session_persist`, the handler returns the same reply and removes a sync endpoint's session exactly once |
| Routing.SerializationFailureKeepsSession | bali/routing.py:35-38 | a sync endpoint whose content cannot be serialised leaves its session unreleased as written, and released once after the correction |
| Routing.SyncEndpointsReleaseOnce | bali/routing.py:128-132 | every validated request to a sync endpoint releases the session once after the correction; as written, exactly those whose serialisation does not fail |
| Routing.NoSessionWorkOtherwise | bali/routing.py:86-87 | coroutine endpoints and requests that fail validation never touch the session |
| SessionControl.ScopedSession.Remove | bali-core/db/session_control.py:32 | `remove()` counts one release |
| SessionControl.MergeSession | bali-core/db/session_control.py:13-23 | an object is merged exactly when it is neither transient nor in a session; a merged object is loaded exactly when the merge without loading fails |
| SessionControl.RemoveSession | bali-core/db/session_control.py:26-34 | the wrapped call's outcome, value or exception, is passed through, and the session is removed exactly once |
| SessionControl.AutomaticSessionProperty.constructor | bali-core/db/session_control.py:38-52 | the function's doc, name and module are copied when a function is given, and nothing otherwise |
| SessionControl.AutomaticSessionProperty.Get | bali-core/db/session_control.py:54-62 | on the class, the descriptor itself with no session work; on an instance, the body's outcome, and the session removed once exactly when a merge happened |
| Servicer.Title | bali/servicer.py:22 | the title is capitalised: first letter upper-cased, the rest lower-cased, the length kept |
| Servicer.GetServicer | bali/servicer.py:20-37 | `{Title}Servicer` is preferred over `{Title}ServiceServicer`; it raises exactly when neither exists; a result names an attribute of the module |
| Servicer.ServicerAdder | bali/servicer.py:44-48 | `add_{Title}ServiceServicer_to_server` is preferred over `add_{Title}Servicer_to_server`; it raises exactly when neither exists |
| Servicer.OppositePreferences | bali/servicer.py:20-48 | a module with both spellings of both names gets the `Servicer` base class but the `ServiceServicer` adder |
| OrderedMaps.Put | bali-core/declarative/__init__.py:166 | assigning stores the value; a new key goes last and an existing key keeps its position |
| OrderedMaps.Remove | bali-core/declarative/__init__.py:185 | deleting a key removes it from the mapping and from the order, and the others keep their relative order |
| OrderedMaps.Values | bali-core/declarative/__init__.py:191 | the values are listed in key order |
| OrderedMaps.Items | bali/resources/generic_routes.py:43 | the items are the keys in order, each paired with its value |
| OrderedMaps.FromPairs | bali/resources/resource.py:164-168 | a dict filled from pairs holds exactly the keys of the pairs |
| OrderedMaps.LastAssignmentWins | bali/resources/resource.py:164-168 | a key's value is the one of its last assignment |
| OrderedMaps.KeysInFirstAssignmentOrder | bali/resources/resource.py:164-168 | the keys are ordered by their first assignment |
| Strings.LStrip | bali-core/db/operators.py:83 | every leading `-` is removed, and nothing else |
| Strings.Capitalize | bali/servicer.py:21 | `capitalize()` upper-cases the first character and lower-cases the rest |

## Left out

- Protobuf JSON conversion (`MessageToDict`, `ParseDict`, the printer and parser overrides): a parameter or an identity on mappings, because it subclasses library internals.
- `decamelize` and `humps.pascalize`: modelled by stand-ins (`Naming.Decamelize`, `Naming.Pascalize`) that do what the libraries do on capitalised ASCII words, since the libraries are not part of this model.
- pydantic validation: only the coercions the envelope records need (integers from decimal text, lists, mappings, booleans); the rest of pydantic is not part of this model.
- `Paginate.PageOf`: the query paginator is a parameter; the `limit`/`offset` bounds of `LimitOffsetParams` are modelled (`Paginate.InBounds`, used by `GrpcActions.RpcParams` and `GenericRoutes.RequestParams`), but the way `add_pagination` attaches the request's parameters to a route is not.
- `RouterGenerator.get_endpoint` signature rewriting, `pre_process`, and the `type(...)` class construction: the model keeps only the resulting names, route table, field rule and action lists.
- `Declarative.ResourceFactory.Build`: bali-core/decorators.py is not part of this model; `Build` assumes that the `action` it imports accepts `@action()` without a `detail` (bali/decorators.py's `action` would fail its assertion here, as in the fourth Findings row).
- `Declarative.ModelSchema.Push`: only the truthy-id path; without an id the source indexes `odict_keys` (which fails in Python 3) and then stores the record again under None.
- `DeclarativeAPI._clear` and `DeclarativeAPI.__call__`: `_clear` re-runs the constructor and `__call__` only forwards to `define`.
- `automatic_session_property.__call__`: it only forwards to `__get__` with the function as the instance.
- `Routing.HandlerResult`: an endpoint's own return is never a tuple in the model; only the sync wrapper's `(response, session)` pair is. The source unpacks every tuple as that pair (bali/routing.py:93-96), coroutine endpoints included, so an endpoint that itself returns a pair replies with its first item and calls `.remove()` on its second (raising for most values), and a tuple of another length raises `ValueError`; those returns are not modelled.
- `Servicer.Title`, `Strings.Capitalize`, `Strings.Lower`: ASCII letters only; Python's Unicode case mapping is not modelled.
- `Routing.HandleAsWritten`: the coroutine check is a boolean input; the `run_endpoint_function` scheduling and the body parsing before `solve_dependencies` are not modelled.
- `GenericRoutes.RouteParameters`: names are judged by ASCII rules (`GenericRoutes.IsPythonIdentifier`): a name with non-ASCII letters, which `str.isidentifier` accepts, is refused here, and a name of a dot and digits, which `inspect.Parameter` turns into a positional-only `implicitN`, is refused as not an identifier. Only the positional-or-keyword checks of `inspect.Signature` are modelled, since every parameter of the route is of that kind.
- `Resources.RouterGenerator.AddRoute`: the source builds the list route with `list_(self)` while adding it (bali/resources/resource.py:256-260), so a signature that `GenericRoutes.RouteParameters` refuses makes `add_route` raise ValueError there; the model's `AddRoute` always adds the route, and that refusal is stated only by `RouteParameters`.
- `Caching.Cache.IncrBy`: requires a connected client; it is the internal `_incr`, which is only reached through `incr` and `decr`. The source checks no connection: without a client, `self._client.eval` on `None` raises AttributeError (bali/cache.py:89). The model's `incr` and `decr` report that case as `NoClient` before calling `IncrBy`. Redis's 64-bit bounds are modelled, but its stricter reading of stored text (for instance a leading `+` or zeros) is not: any decimal text in range counts.
- Redis expiry (TTL), Lua-script atomicity, `Cache.__getattribute__` and cache_memoize: they concern the server and concurrency, not bali's logic.
- `GrpcActions.ProcessRpc`: it has no contract of its own; its behaviour is stated by the lemmas about it.
- Connection: `setdefault` changes the caller's own option dictionaries in place; the model returns the new dictionaries, so that aliasing is not captured. `DB.__getattribute__` lazy connection and the model-metaclass setup are reflection and are not modelled.
- Events: publishing, `handle()` and the Kombu consumers are I/O; only the registries and the resolved routing key, exchange and queue are modelled.
- Transport and process plumbing (application, CLI, `serve()`, interceptors, middlewares, async sessions): I/O and concurrency.
- ORM wrappers, the date and time helpers and the permission classes: SQLAlchemy, the tz database and `check()` are outside the model; the result of each permission class's `check()` is a boolean input.

## Findings

| source | as written | input that shows it | evidently intended | confidence | as-written member | corrected member |
|---|---|---|---|---|---|---|
| bali/_utils.py:41-42 | a final `y` after a vowel becomes `ies` (`[aeiou]y$`) | `pluralize("day")` gives `daies` and `pluralize("city")` gives `citys` | a final `y` after a consonant becomes `ies` (`[^aeiou]y$`) | not executed | Naming.VowelYRuleIsInverted | Naming.Pluralize |
| bali/schemas/__init__.py:84-94 | `if not schema_in` tests the annotation, and `inspect.Parameter.empty` is a class, so it is truthy | a generic action `def list(self, schema_in)` with `default_by_action=True` gets `Parameter.empty` as its schema | an unannotated `schema_in` falls back to the action's generic record | not executed | Schemas.UnannotatedGenericResolvesToMarker | Schemas.SchemaIn |
| bali/routing.py:35-38 | `session_persist` removes the session after `yield` without a `finally` | a sync endpoint whose content fails `serialize_response` raises out of the `with` block, and its session is never removed | the session is removed however the block ends | not executed | Routing.SerializationFailureKeepsSession | Routing.Handle |
| bali/declarative/__init__.py:34-60 | `list` and `get` are decorated with `@action()`, and `action` asserts that `detail` is given (bali/decorators.py:11) | calling any factory of the older API, e.g. `API("Greeter")()`, fails that assertion before `type(...)` builds the class | the call returns `{Pascal}Resource` defining `list` and `get`, which the declarative tests serve | not executed | Declarative.ResourceFactory.BuildLegacyAsWritten | Declarative.ResourceFactory.BuildLegacy |

For the first two rows the resources and the gRPC actions keep the framework's observable
behaviour, so they use the as-written members (`Naming.PluralizeAsWritten`,
`Schemas.SchemaInAsWritten`); the corrected members carry the intended properties
(`Naming.PluralEs`, `Naming.PluralIes`, `Naming.PluralS`, `Schemas.SchemaIn`), and
`Naming.AsWrittenDiffersOnlyAtY` and `Schemas.SchemaInAgreesWhenAnnotated` say exactly
where the two halves part. For the fourth row the model keeps the intended class
(`Declarative.ResourceFactory.BuildLegacy`), which is what the older API's tests expect.

=== FILE: cache.dfy ===
/**
 * `Cache`: a key-value cache over a Redis client. Every key is namespaced as
 * `{prefix}:cache:{key}`; plain integers are stored as Redis integers (their decimal text)
 * so that `incr`/`decr` work on them, every other value is pickled; reading back tries an
 * integer first and unpickles otherwise.
 */
module Caching {
  import opened Wrappers
  import opened Strings
  import opened Values

  /** What the Redis server holds under a key: decimal text, or the bytes of a pickle. */
  datatype Stored = Text(text: string) | Pickled(value: Value)

  datatype CacheError =
      /** `connect` without a prefix */
    | NoPrefix
      /** a command before `connect` created the client: the call on `None` raises AttributeError */
    | NoClient
      /** `int(...)` failed and the bytes are not a pickle either */
    | Unreadable
      /** `incr`/`decr` of a key that does not exist */
    | KeyNotFound(key: string)
      /** `INCRBY` with a stored value or an increment that is not a 64-bit integer */
    | NotAnInteger
      /** `INCRBY` whose result leaves the 64-bit range */
    | WouldOverflow

  /** Redis keeps counters as signed 64-bit integers. */
  const Int64Min: int := -0x8000_0000_0000_0000
  const Int64Max: int := 0x7fff_ffff_ffff_ffff

  predicate IsInt64(i: int) { Int64Min <= i <= Int64Max }

  /** The stored value as a Redis counter: decimal text of a 64-bit integer. */
  function Counter(s: Stored): (r: Option<int>)
    ensures r.Some? <==> s.Text? && ParseDecimal(s.text).Some? && IsInt64(ParseDecimal(s.text).value)
    ensures r.Some? ==> r.value == ParseDecimal(s.text).value
  {
    if s.Text? && ParseDecimal(s.text).Some? && IsInt64(ParseDecimal(s.text).value) then ParseDecimal(s.text) else None
  }

  /** `make_key(key)`: `{prefix}:cache:{key}`, with `None` spelled out when there is no prefix. */
  function MakeKey(prefix: Option<string>, key: string): (k: string)
    ensures EndsWith(k, ":cache:" + key)
    ensures prefix.Some? ==> StartsWith(k, prefix.value + ":cache:")
  {
    var p := if prefix.Some? then prefix.value else "None";
    assert p + ":cache:" + key == (p + ":cache:") + key;
    p + ":cache:" + key
  }

  /** Under one prefix, different keys never share a Redis key. */
  lemma MakeKeyInjective(prefix: Option<string>, a: string, b: string)
    requires MakeKey(prefix, a) == MakeKey(prefix, b)
    ensures a == b
  {
    var p := if prefix.Some? then prefix.value else "None";
    var n := |p + ":cache:"|;
    assert MakeKey(prefix, a)[n..] == a;
    assert MakeKey(prefix, b)[n..] == b;
  }

  /** `encode(value)`: a non-bool int as it is (Redis keeps its decimal text), anything else pickled. */
  function Encode(v: Value): (s: Stored)
    ensures v.VInt? <==> s.Text?
    ensures s.Text? ==> s.text == ToDecimal(v.i)
    ensures s.Pickled? ==> s.value == v
  {
    if v.VInt? then Text(ToDecimal(v.i)) else Pickled(v)
  }

  /** `decode(value)`: `int(value)` when the bytes are decimal text, otherwise `pickle.loads`. */
  function Decode(s: Stored): (r: Result<Value, CacheError>)
    ensures s.Pickled? ==> r == Ok(s.value)
    ensures s.Text? && ParseDecimal(s.text).Some? ==> r == Ok(VInt(ParseDecimal(s.text).value))
    ensures s.Text? && ParseDecimal(s.text).None? ==> r == Err(Unreadable)
  {
    match s
    case Pickled(v) => Ok(v)
    case Text(t) =>
      match ParseDecimal(t)
      case Some(i) => Ok(VInt(i))
      case None => Err(Unreadable)
  }

  /** Every value reads back as it was written. */
  lemma DecodeEncode(v: Value)
    ensures Decode(Encode(v)) == Ok(v)
  {
    if v.VInt? {
      ParseToDecimal(v.i);
    }
  }

  /** An encoded integer is a Redis counter exactly when it fits in 64 bits. */
  lemma CounterOfEncoded(m: int)
    ensures IsInt64(m) ==> Counter(Encode(VInt(m))) == Some(m)
    ensures !IsInt64(m) ==> Counter(Encode(VInt(m))).None?
  {
    ParseToDecimal(m);
  }

  /** `get` on the server's contents: None for a missing key, the decoded value otherwise. */
  function Lookup(store: map<string, Stored>, k: string): (r: Result<Value, CacheError>)
    ensures k !in store ==> r == Ok(VNone)
    ensures k in store ==> r == Decode(store[k])
  {
    if k in store then Decode(store[k]) else Ok(VNone)
  }

  /** The cache object and the server behind its client. */
  class Cache {
    var configured: bool
    var host: Option<string>
    var port: Option<int>
    var password: Option<string>
    var prefix: Option<string>
    var connected: bool
    /** The Redis server's contents. */
    var store: map<string, Stored>

    constructor ()
      ensures !configured && host == None && port == None && password == None && prefix == None
      ensures !connected && store == map[]
    {
      configured := false;
      host := None;
      port := None;
      password := None;
      prefix := None;
      connected := false;
      store := map[];
    }

    /**
     * `connect(host, port, password, prefix)`: the settings are recorded first; without a
     * prefix it then raises and no client is created.
     */
    method Connect(host: string, port: int, password: Option<string>, prefix: Option<string>)
      returns (r: Result<(), CacheError>)
      modifies this
      ensures configured && this.host == Some(host) && this.port == Some(port)
      ensures this.password == password && this.prefix == prefix
      ensures prefix.None? ==> r == Err(NoPrefix) && connected == old(connected)
      ensures prefix.Some? ==> r == Ok(()) && connected
      ensures store == old(store)
    {
      configured := true;
      this.host := Some(host);
      this.port := Some(port);
      this.password := password;
      this.prefix := prefix;
      if prefix.None? {
        return Err(NoPrefix);
      }
      connected := true;
      return Ok(());
    }

    /** `set(key, value)`: the encoded value under the prefixed key; the reply is true. */
    method Set(key: string, v: Value) returns (r: Result<bool, CacheError>)
      modifies this
      ensures !old(connected) ==> r == Err(NoClient) && store == old(store)
      ensures old(connected) ==> r == Ok(true) && store == old(store)[MakeKey(prefix, key) := Encode(v)]
      ensures prefix == old(prefix) && connected == old(connected)
    {
      if !connected {
        return Err(NoClient);
      }
      store := store[MakeKey(prefix, key) := Encode(v)];
      return Ok(true);
    }

    /** `get(key)`. */
    method Get(key: string) returns (r: Result<Value, CacheError>)
      ensures !connected ==> r == Err(NoClient)
      ensures connected ==> r == Lookup(store, MakeKey(prefix, key))
    {
      if !connected {
        return Err(NoClient);
      }
      var k := MakeKey(prefix, key);
      if k !in store {
        return Ok(VNone);
      }
      return Decode(store[k]);
    }

    /**
     * `_incr(key, delta)` on a full key: `INCRBY` only when the key exists; the increment
     * and the stored value must be 64-bit integers and so must their sum.
     */
    method IncrBy(k: string, delta: int) returns (r: Result<int, CacheError>)
      requires connected
      modifies this
      ensures k !in old(store) ==> r == Err(KeyNotFound(k)) && store == old(store)
      ensures k in old(store) && (!IsInt64(delta) || Counter(old(store)[k]).None?) ==>
        r == Err(NotAnInteger) && store == old(store)
      ensures k in old(store) && IsInt64(delta) && Counter(old(store)[k]).Some? ==>
        var n := Counter(old(store)[k]).value + delta;
        (!IsInt64(n) ==> r == Err(WouldOverflow) && store == old(store)) &&
        (IsInt64(n) ==> r == Ok(n) && store == old(store)[k := Text(ToDecimal(n))])
      ensures prefix == old(prefix) && connected == old(connected)
    {
      if k !in store {
        return Err(KeyNotFound(k));
      }
      var counter := Counter(store[k]);
      if !IsInt64(delta) || counter.None? {
        return Err(NotAnInteger);
      }
      var n := counter.value + delta;
      if !IsInt64(n) {
        return Err(WouldOverflow);
      }
      store := store[k := Text(ToDecimal(n))];
      return Ok(n);
    }

    /** `incr(key, delta)`: a stored integer `m` becomes `m + delta`, which is returned. */
    method Incr(key: string, delta: int) returns (r: Result<int, CacheError>)
      modifies this
      ensures !old(connected) ==> r == Err(NoClient) && store == old(store)
      ensures old(connected) && MakeKey(prefix, key) !in old(store) ==>
        r == Err(KeyNotFound(MakeKey(prefix, key))) && store == old(store)
      ensures old(connected) && MakeKey(prefix, key) in old(store) && Counter(old(store)[MakeKey(prefix, key)]).None? ==>
        r == Err(NotAnInteger) && store == old(store)
      ensures forall m :: old(connected) && MakeKey(prefix, key) in old(store) && old(store)[MakeKey(prefix, key)] == Encode(VInt(m)) ==>
        if IsInt64(m) && IsInt64(delta) && IsInt64(m + delta) then
          r == Ok(m + delta) && store == old(store)[MakeKey(prefix, key) := Encode(VInt(m + delta))]
        else r.Err? && store == old(store)
      ensures r.Ok? ==> Lookup(store, MakeKey(prefix, key)) == Ok(VInt(r.value))
      ensures prefix == old(prefix) && connected == old(connected)
    {
      if !connected {
        return Err(NoClient);
      }
      var k := MakeKey(prefix, key);
      ghost var before := store;
      r := IncrBy(k, delta);
      forall m | k in before && before[k] == Encode(VInt(m))
        ensures if IsInt64(m) && IsInt64(delta) && IsInt64(m + delta) then r == Ok(m + delta) && store == before[k := Encode(VInt(m + delta))]
                else r.Err? && store == before
      {
        CounterOfEncoded(m);
      }
      if r.Ok? {
        CounterOfEncoded(r.value);
      }
    }

    /** `decr(key, delta)`: `incr` by `-delta`. */
    method Decr(key: string, delta: int) returns (r: Result<int, CacheError>)
      modifies this
      ensures !old(connected) ==> r == Err(NoClient) && store == old(store)
      ensures old(connected) && MakeKey(prefix, key) !in old(store) ==>
        r == Err(KeyNotFound(MakeKey(prefix, key))) && store == old(store)
      ensures old(connected) && MakeKey(prefix, key) in old(store) && Counter(old(store)[MakeKey(prefix, key)]).None? ==>
        r == Err(NotAnInteger) && store == old(store)
      ensures forall m :: old(connected) && MakeKey(prefix, key) in old(store) && old(store)[MakeKey(prefix, key)] == Encode(VInt(m)) ==>
        if IsInt64(m) && IsInt64(-delta) && IsInt64(m - delta) then
          r == Ok(m - delta) && store == old(store)[MakeKey(prefix, key) := Encode(VInt(m - delta))]
        else r.Err? && store == old(store)
      ensures r.Ok? ==> Lookup(store, MakeKey(prefix, key)) == Ok(VInt(r.value))
      ensures prefix == old(prefix) && connected == old(connected)
    {
      if !connected {
        return Err(NoClient);
      }
      var k := MakeKey(prefix, key);
      ghost var before := store;
      r := IncrBy(k, -delta);
      forall m | k in before && before[k] == Encode(VInt(m))
        ensures if IsInt64(m) && IsInt64(-delta) && IsInt64(m - delta) then r == Ok(m - delta) && store == before[k := Encode(VInt(m - delta))]
                else r.Err? && store == before
      {
        CounterOfEncoded(m);
      }
      if r.Ok? {
        CounterOfEncoded(r.value);
      }
    }
  }

  /**
   * On a connected cache, a value set is read back unchanged, and a 64-bit integer can be
   * counted up and down by a 64-bit step as long as the count stays in range.
   */
  method SetGetIncrDecr(prefix: string, key: string, v: Value, n: int, d: int)
    returns (read: Result<Value, CacheError>, up: Result<int, CacheError>, down: Result<int, CacheError>)
    requires IsInt64(n) && IsInt64(d) && IsInt64(-d) && IsInt64(n + d)
    ensures read == Ok(v)
    ensures up == Ok(n + d)
    ensures down == Ok(n)
  {
    var c := new Cache();
    var _ := c.Connect("localhost", 6379, None, Some(prefix));
    var _ := c.Set(key, v);
    read := c.Get(key);
    DecodeEncode(v);
    var _ := c.Set(key, VInt(n));
    ghost var k := MakeKey(c.prefix, key);
    assert k in c.store && c.store[k] == Encode(VInt(n));
    up := c.Incr(key, d);
    assert k in c.store && c.store[k] == Encode(VInt(n + d));
    down := c.Decr(key, d);
    assert n + d - d == n;
  }
}

=== FILE: comparators.dfy ===
/**
 * `CaseComparator`: a hybrid-property comparator over a `case` mapping. Its constructor
 * inverts the `whens` mapping into buckets of keys per value, and equality with a value
 * becomes membership of the column in that value's bucket.
 */
module Comparators {

  /** The keys of `whens` that map to `v`, in iteration order. */
  function Bucket<K, V(==)>(whens: seq<(K, V)>, v: V): seq<K>
    decreases |whens|
  {
    if whens == [] then []
    else Bucket(whens[..|whens| - 1], v) + (if whens[|whens| - 1].1 == v then [whens[|whens| - 1].0] else [])
  }

  /** A bucket of a concatenation is the two buckets one after the other, so buckets keep the order of `whens`. */
  lemma {:induction false} BucketAppend<K, V>(a: seq<(K, V)>, b: seq<(K, V)>, v: V)
    ensures Bucket(a + b, v) == Bucket(a, v) + Bucket(b, v)
    decreases |b|
  {
    if b == [] {
      assert a + b == a;
    } else {
      var b' := b[..|b| - 1];
      assert (a + b)[..|a + b| - 1] == a + b';
      BucketAppend(a, b', v);
    }
  }

  /** `k` is in the bucket of `v` exactly when `(k, v)` is an entry of `whens`. */
  lemma {:induction false} BucketMembership<K, V>(whens: seq<(K, V)>, k: K, v: V)
    ensures k in Bucket(whens, v) <==> (k, v) in whens
    decreases |whens|
  {
    if whens != [] {
      var init := whens[..|whens| - 1];
      BucketMembership(init, k, v);
      assert whens == init + [whens[|whens| - 1]];
    }
  }

  /** A value of no entry has an empty bucket. */
  lemma {:induction false} BucketOfAbsentValue<K, V>(whens: seq<(K, V)>, v: V)
    requires forall i :: 0 <= i < |whens| ==> whens[i].1 != v
    ensures Bucket(whens, v) == []
    decreases |whens|
  {
    if whens != [] {
      BucketOfAbsentValue(whens[..|whens| - 1], v);
    }
  }

  /** Reading a `defaultdict(list)` without inserting: the stored list, or an empty one. */
  function Get<K, V>(buckets: map<V, seq<K>>, v: V): seq<K> {
    if v in buckets then buckets[v] else []
  }

  /** `buckets` holds, for every value, the keys that map to it. */
  ghost predicate Inverts<K, V(!new)>(buckets: map<V, seq<K>>, whens: seq<(K, V)>) {
    forall v :: Get(buckets, v) == Bucket(whens, v)
  }

  /** The constructor's loop: every key is appended to the bucket of its value. */
  method ReverseWhens<K, V(==,!new)>(whens: seq<(K, V)>) returns (buckets: map<V, seq<K>>)
    ensures forall v :: Get(buckets, v) == Bucket(whens, v)
  {
    buckets := map[];
    var i := 0;
    while i < |whens|
      invariant 0 <= i <= |whens|
      invariant forall v :: Get(buckets, v) == Bucket(whens[..i], v)
    {
      var (k, v) := whens[i];
      assert whens[..i + 1][..i] == whens[..i];
      buckets := buckets[v := Get(buckets, v) + [k]];
      i := i + 1;
    }
    assert whens[..i] == whens;
  }

  /** An SQL `expression IN (keys)` clause. */
  datatype InClause<K> = InClause(keys: seq<K>)

  class CaseComparator<K, V(==,!new)> {
    const whens: seq<(K, V)>
    var reversedWhens: map<V, seq<K>>

    /** `__init__(whens, expression)`. */
    constructor (whens: seq<(K, V)>)
      ensures this.whens == whens
      ensures Inverts(reversedWhens, whens)
    {
      this.whens := whens;
      var buckets := ReverseWhens(whens);
      assert Inverts(buckets, whens);
      reversedWhens := buckets;
    }

    /**
     * `__eq__(other)`: membership in the bucket of `other`. Indexing the `defaultdict`
     * stores an empty bucket for a value it did not hold.
     */
    method Eq(other: V) returns (r: InClause<K>)
      requires Inverts(reversedWhens, whens)
      modifies this
      ensures r == InClause(Bucket(whens, other))
      ensures reversedWhens == if other in old(reversedWhens) then old(reversedWhens) else old(reversedWhens)[other := []]
      ensures forall v :: Get(reversedWhens, v) == Get(old(reversedWhens), v)
    {
      if other !in reversedWhens {
        reversedWhens := reversedWhens[other := []];
      }
      r := InClause(reversedWhens[other]);
    }
  }
}

=== FILE: connection.dfy ===
/**
 * `DB.connect` and its `TypeChecker`: the database URI decides whether pool options are
 * defaulted, and is rewritten to the matching async driver for the async engine.
 */
module Connection {
  import opened Wrappers
  import opened Strings
  import opened Values

  /** `is_sqlite`: the URI starts with `sqlite`. */
  predicate IsSqlite(uri: string) {
    StartsWith(uri, "sqlite")
  }

  datatype ConnectionError = NotImplemented

  /** `is_mysql`: not implemented. */
  function IsMysql(uri: string): (r: Result<bool, ConnectionError>)
    ensures r == Err(NotImplemented)
  {
    Err(NotImplemented)
  }

  /** `is_postgres`: not implemented. */
  function IsPostgres(uri: string): (r: Result<bool, ConnectionError>)
    ensures r == Err(NotImplemented)
  {
    Err(NotImplemented)
  }

  /** The sync schemes and their async replacements, applied in this order. */
  const AsyncSchemes: seq<(string, string)> := [
    ("sqlite://", "sqlite+aiosqlite://"),
    ("mysql+pymysql://", "mysql+aiomysql://"),
    ("postgres://", "postgresql+asyncpg://")
  ]

  /** Every replacement of `maps`, one after the other, each on every occurrence. */
  function Rewrite(uri: string, maps: seq<(string, string)>): string
    requires forall i :: 0 <= i < |maps| ==> |maps[i].0| > 0
    decreases |maps|
  {
    if maps == [] then uri
    else Rewrite(ReplaceAll(uri, maps[0].0, maps[0].1), maps[1..])
  }

  /** `async_uri`. */
  method AsyncUri(uri: string) returns (r: string)
    ensures r == Rewrite(uri, AsyncSchemes)
  {
    r := uri;
    var i := 0;
    while i < |AsyncSchemes|
      invariant 0 <= i <= |AsyncSchemes|
      invariant Rewrite(r, AsyncSchemes[i..]) == Rewrite(uri, AsyncSchemes)
    {
      var (sync, async) := AsyncSchemes[i];
      assert AsyncSchemes[i..][1..] == AsyncSchemes[i + 1..];
      r := ReplaceAll(r, sync, async);
      i := i + 1;
    }
  }

  /** A URI in which none of the sync schemes occurs is left as it is. */
  lemma {:induction false} RewriteAbsent(uri: string, maps: seq<(string, string)>)
    requires forall i :: 0 <= i < |maps| ==> |maps[i].0| > 0 && !Contains(uri, maps[i].0)
    ensures Rewrite(uri, maps) == uri
    decreases |maps|
  {
    if maps != [] {
      ReplaceAbsent(uri, maps[0].0, maps[0].1);
      RewriteAbsent(uri, maps[1..]);
    }
  }

  /** No occurrence of `p` starts at `i` when a letter of `x` there differs from `p`. */
  lemma Mismatch(x: string, y: string, p: string, i: nat, j: nat)
    requires j < |p| && i + j < |x| && x[i + j] != p[j]
    ensures !OccursAt(x + y, p, i)
  {
    if i + |p| <= |x + y| {
      assert (x + y)[i..i + |p|][j] == x[i + j];
    }
  }

  /** `sqlite://rest` becomes `sqlite+aiosqlite://` followed by the rewritten rest. */
  lemma AsyncSqlite(rest: string)
    ensures Rewrite("sqlite://" + rest, AsyncSchemes) == "sqlite+aiosqlite://" + Rewrite(rest, AsyncSchemes)
  {
    var a := "sqlite+aiosqlite://";
    ReplacePrefix("sqlite://", a, rest);
    var r1 := ReplaceAll(rest, "sqlite://", a);
    NoOccurrenceWithoutFirstLetter(a, r1, "mysql+pymysql://");
    ReplaceAfter(a, r1, "mysql+pymysql://", "mysql+aiomysql://");
    var r2 := ReplaceAll(r1, "mysql+pymysql://", "mysql+aiomysql://");
    NoOccurrenceWithoutFirstLetter(a, r2, "postgres://");
    ReplaceAfter(a, r2, "postgres://", "postgresql+asyncpg://");
  }

  /** `mysql+pymysql://rest` becomes `mysql+aiomysql://` followed by the rewritten rest. */
  lemma AsyncMysql(rest: string)
    ensures Rewrite("mysql+pymysql://" + rest, AsyncSchemes) == "mysql+aiomysql://" + Rewrite(rest, AsyncSchemes)
  {
    var s, a := "mysql+pymysql://", "mysql+aiomysql://";
    forall i | 0 <= i < |s| ensures !OccursAt(s + rest, "sqlite://", i) {
      if s[i] != 's' {
        Mismatch(s, rest, "sqlite://", i, 0);
      } else {
        Mismatch(s, rest, "sqlite://", i, 3);
      }
    }
    ReplaceAfter(s, rest, "sqlite://", "sqlite+aiosqlite://");
    var r1 := ReplaceAll(rest, "sqlite://", "sqlite+aiosqlite://");
    ReplacePrefix(s, a, r1);
    var r2 := ReplaceAll(r1, s, a);
    NoOccurrenceWithoutFirstLetter(a, r2, "postgres://");
    ReplaceAfter(a, r2, "postgres://", "postgresql+asyncpg://");
  }

  /** `postgres://rest` becomes `postgresql+asyncpg://` followed by the rewritten rest. */
  lemma AsyncPostgres(rest: string)
    ensures Rewrite("postgres://" + rest, AsyncSchemes) == "postgresql+asyncpg://" + Rewrite(rest, AsyncSchemes)
  {
    var s, a := "postgres://", "postgresql+asyncpg://";
    forall i | 0 <= i < |s| ensures !OccursAt(s + rest, "sqlite://", i) {
      if s[i] != 's' {
        Mismatch(s, rest, "sqlite://", i, 0);
      } else {
        Mismatch(s, rest, "sqlite://", i, 1);
      }
    }
    ReplaceAfter(s, rest, "sqlite://", "sqlite+aiosqlite://");
    var r1 := ReplaceAll(rest, "sqlite://", "sqlite+aiosqlite://");
    NoOccurrenceWithoutFirstLetter(s, r1, "mysql+pymysql://");
    ReplaceAfter(s, r1, "mysql+pymysql://", "mysql+aiomysql://");
    var r2 := ReplaceAll(r1, "mysql+pymysql://", "mysql+aiomysql://");
    ReplacePrefix(s, a, r2);
  }

  /** `options.setdefault(key, value)`. */
  function SetDefault(options: map<string, Value>, key: string, v: Value): (r: map<string, Value>)
    ensures r.Keys == options.Keys + {key}
    ensures r[key] == (if key in options then options[key] else v)
    ensures forall k :: k in options && k != key ==> r[k] == options[k]
  {
    if key in options then options else options[key := v]
  }

  /** `engine_options or {}`, with the pool defaults for any database but SQLite. */
  function EngineOptions(uri: string, given: Option<map<string, Value>>): (r: map<string, Value>)
    ensures var base := if given.Some? then given.value else map[];
      (IsSqlite(uri) ==> r == base) &&
      (!IsSqlite(uri) ==>
        r.Keys == base.Keys + {"pool_size", "pool_recycle"} &&
        r["pool_size"] == (if "pool_size" in base then base["pool_size"] else VInt(5)) &&
        r["pool_recycle"] == (if "pool_recycle" in base then base["pool_recycle"] else VInt(7200)) &&
        forall k :: k in base && k != "pool_size" && k != "pool_recycle" ==> r[k] == base[k])
  {
    var base := if given.Some? then given.value else map[];
    if IsSqlite(uri) then base
    else SetDefault(SetDefault(base, "pool_size", VInt(5)), "pool_recycle", VInt(2 * 60 * 60))
  }

  /** `session_options or {}`, with `expire_on_commit` defaulting to False. */
  function SessionOptions(given: Option<map<string, Value>>): (r: map<string, Value>)
    ensures var base := if given.Some? then given.value else map[];
      r.Keys == base.Keys + {"expire_on_commit"} &&
      r["expire_on_commit"] == (if "expire_on_commit" in base then base["expire_on_commit"] else VBool(false)) &&
      forall k :: k in base && k != "expire_on_commit" ==> r[k] == base[k]
  {
    SetDefault(if given.Some? then given.value else map[], "expire_on_commit", VBool(false))
  }

  /** The `db` object, reduced to what `connect` decides. */
  class DB {
    var connected: bool
    var uri: string
    var engineOptions: map<string, Value>
    var sessionOptions: map<string, Value>
    var asyncUri: string

    constructor ()
      ensures !connected
    {
      connected := false;
      uri := "";
      engineOptions := map[];
      sessionOptions := map[];
      asyncUri := "";
    }

    /** `connect(database_uri, engine_options, session_options)`. */
    method Connect(databaseUri: string, engine: Option<map<string, Value>>, session: Option<map<string, Value>>)
      modifies this
      ensures connected && uri == databaseUri
      ensures engineOptions == EngineOptions(databaseUri, engine)
      ensures sessionOptions == SessionOptions(session)
      ensures asyncUri == Rewrite(databaseUri, AsyncSchemes)
    {
      uri := databaseUri;
      engineOptions := EngineOptions(databaseUri, engine);
      sessionOptions := SessionOptions(session);
      asyncUri := AsyncUri(databaseUri);
      connected := true;
    }
  }
}

=== FILE: declarative.dfy ===
/**
 * The declarative API: `API("greeter").get({...}).list([...])` records which generic
 * actions a resource has and the canned responses they return, derives a schema from a
 * canned dict, and builds a `{Pascal}Resource` class from what was recorded. `ModelSchema`
 * is the in-memory record store the generated actions read when no response is canned.
 * Both versions of the factory share everything except the class they build.
 */
module Declarative {
  import opened Wrappers
  import opened Strings
  import opened Values
  import opened Naming
  import opened Actions
  import OrderedMaps

  // ---------------------------------------------------------------- the record store

  type Record = map<string, Value>

  /** At most this many records are listed by `find()`. */
  const FindLimit: nat := 50

  datatype StoreError = KeyError(key: Value)

  /** `find(id)` on a storage: the first records when `id` is falsy, else the record stored under it. */
  function FindIn(storage: OrderedMaps.OrderedMap<Value, Record>, id: Value): (r: Result<Value, StoreError>)
    requires OrderedMaps.Valid(storage)
    ensures !Truthy(id) ==> (r.Ok? && r.value.VList? &&
      |r.value.items| == (if |storage.keys| < FindLimit then |storage.keys| else FindLimit) &&
      forall i :: 0 <= i < |r.value.items| ==> r.value.items[i] == VDict(storage.values[storage.keys[i]]))
    ensures Truthy(id) ==> (r.Ok? <==> id in storage.values)
    ensures Truthy(id) && r.Ok? ==> r.value == VDict(storage.values[id])
    ensures r.Err? ==> r.error == KeyError(id)
  {
    if !Truthy(id) then
      var all := OrderedMaps.Values(storage);
      var first := if |all| < FindLimit then all else all[..FindLimit];
      Ok(VList(seq(|first|, i requires 0 <= i < |first| => VDict(first[i]))))
    else if id in storage.values then Ok(VDict(storage.values[id]))
    else Err(KeyError(id))
  }

  /** `ModelSchema`: records in an insertion-ordered mapping from id to fields. */
  class ModelSchema {
    var storage: OrderedMaps.OrderedMap<Value, Record>

    ghost predicate Valid()
      reads this
    {
      OrderedMaps.Valid(storage)
    }

    constructor ()
      ensures Valid() && storage == OrderedMaps.Empty()
    {
      storage := OrderedMaps.Empty();
    }

    /** `push(id, **kwargs)` with a truthy id: the fields, with `id` set, stored under the id. */
    method Push(id: Value, kwargs: Record) returns (record: Record)
      requires Valid() && Truthy(id)
      modifies this
      ensures Valid()
      ensures record == kwargs["id" := id]
      ensures storage == OrderedMaps.Put(old(storage), id, record)
    {
      record := kwargs["id" := id];
      storage := OrderedMaps.Put(storage, id, record);
    }

    /** `pop(id)`: delete the record stored under `id` and return the id. */
    method Pop(id: Value) returns (r: Result<Value, StoreError>)
      requires Valid()
      modifies this
      ensures Valid()
      ensures old(id in storage.values) ==> r == Ok(id) && storage == OrderedMaps.Remove(old(storage), id)
      ensures old(id !in storage.values) ==> r == Err(KeyError(id)) && storage == old(storage)
    {
      if id !in storage.values {
        return Err(KeyError(id));
      }
      storage := OrderedMaps.Remove(storage, id);
      return Ok(id);
    }

    /** `find(id)`. */
    method Find(id: Value) returns (r: Result<Value, StoreError>)
      requires Valid()
      ensures r == FindIn(storage, id)
    {
      if !Truthy(id) {
        var all := OrderedMaps.Values(storage);
        var first := if |all| < FindLimit then all else all[..FindLimit];
        return Ok(VList(seq(|first|, i requires 0 <= i < |first| => VDict(first[i]))));
      }
      if id !in storage.values {
        return Err(KeyError(id));
      }
      return Ok(VDict(storage.values[id]));
    }
  }

  /** A record pushed under an id is found under it with its id set; once popped it is gone. */
  method StoreRoundTrip(id: Value, kwargs: Record) returns (found: Result<Value, StoreError>, popped: Result<Value, StoreError>,
                                                           after: Result<Value, StoreError>)
    requires Truthy(id)
    ensures found == Ok(VDict(kwargs["id" := id]))
    ensures popped == Ok(id)
    ensures after == Err(KeyError(id))
  {
    var store := new ModelSchema();
    var _ := store.Push(id, kwargs);
    found := store.Find(id);
    popped := store.Pop(id);
    after := store.Find(id);
  }

  /** Pushing again under a stored id replaces the record in place: `find()` keeps its position. */
  lemma RepushKeepsOrder(storage: OrderedMaps.OrderedMap<Value, Record>, id: Value, record: Record)
    requires OrderedMaps.Valid(storage) && Truthy(id) && id in storage.values
    ensures OrderedMaps.Put(storage, id, record).keys == storage.keys
    ensures FindIn(OrderedMaps.Put(storage, id, record), id) == Ok(VDict(record))
  {
  }

  // ---------------------------------------------------------------- the factory

  /** `_push_action`: each name not yet recorded is appended, in the order given. */
  function Pushed(actions: seq<string>, names: seq<string>): seq<string>
    decreases |names|
  {
    if names == [] then actions
    else
      var front := Pushed(actions, names[..|names| - 1]);
      if names[|names| - 1] in front then front else front + [names[|names| - 1]]
  }

  predicate NoDuplicates(xs: seq<string>) {
    forall i, j :: 0 <= i < j < |xs| ==> xs[i] != xs[j]
  }

  /**
   * Recorded actions stay in place and first, the result holds exactly the old and the
   * pushed names, and no name is recorded twice.
   */
  lemma {:induction false} PushedKeepsOrder(actions: seq<string>, names: seq<string>)
    ensures |Pushed(actions, names)| >= |actions| && Pushed(actions, names)[..|actions|] == actions
    ensures forall x :: x in Pushed(actions, names) <==> x in actions || x in names
    ensures NoDuplicates(actions) ==> NoDuplicates(Pushed(actions, names))
    decreases |names|
  {
    if names != [] {
      var front := names[..|names| - 1];
      PushedKeepsOrder(actions, front);
      forall x ensures x in names <==> x in front || x == names[|names| - 1] {
        assert names == front + [names[|names| - 1]];
      }
    }
  }

  /** Pushing the same names a second time changes nothing. */
  lemma {:induction false} PushedIdempotent(actions: seq<string>, names: seq<string>)
    ensures Pushed(Pushed(actions, names), names) == Pushed(actions, names)
  {
    PushedKeepsOrder(actions, names);
    AlreadyPresent(Pushed(actions, names), names);
  }

  /** Names that are all recorded already are not appended. */
  lemma {:induction false} AlreadyPresent(actions: seq<string>, names: seq<string>)
    requires forall x :: x in names ==> x in actions
    ensures Pushed(actions, names) == actions
    decreases |names|
  {
    if names != [] {
      AlreadyPresent(actions, names[..|names| - 1]);
    }
  }

  /** The class of a declared schema: one derived from a canned dict, or a pydantic model passed in. */
  datatype SchemaDef = Derived(name: string, defaults: map<string, Value>) | Given(name: string)

  /** The class the factory builds: its name, its schema and the actions defined on it. */
  datatype GeneratedResource = GeneratedResource(name: string, schema: Option<SchemaDef>, actions: seq<string>)

  datatype FactoryError = EmptyListResponse

  /** What a generated action returns when called, or why it fails. */
  datatype ActionError = NotImplemented | NoFind | Missing(error: StoreError)

  /** `ResourceFactory(resource_name)`. */
  class ResourceFactory {
    const resourceName: string
    var schema: Option<SchemaDef>
    var actions: seq<string>
    var responses: map<string, Value>

    constructor (resourceName: string)
      ensures this.resourceName == resourceName
      ensures schema == None && actions == [] && responses == map[]
    {
      this.resourceName := resourceName;
      schema := None;
      actions := [];
      responses := map[];
    }

    /** `_push_action(names)`; a single name is pushed as a one-element list. */
    method PushAction(names: seq<string>)
      modifies this
      ensures actions == Pushed(old(actions), names)
      ensures schema == old(schema) && responses == old(responses)
    {
      var i := 0;
      while i < |names|
        invariant 0 <= i <= |names|
        invariant actions == Pushed(old(actions), names[..i])
        invariant schema == old(schema) && responses == old(responses)
      {
        assert names[..i + 1][..i] == names[..i];
        if names[i] !in actions {
          actions := actions + [names[i]];
        }
        i := i + 1;
      }
      assert names[..i] == names;
    }

    /** `schema(model)`: a pydantic model replaces the schema; anything else is ignored. */
    method Schema(model: Option<string>)
      modifies this
      ensures schema == (if model.Some? then Some(Given(model.value)) else old(schema))
      ensures actions == old(actions) && responses == old(responses)
    {
      if model.Some? {
        schema := Some(Given(model.value));
      }
    }

    /** `all()`: push the five generic actions. */
    method All()
      modifies this
      ensures actions == Pushed(old(actions), GenericActionNames)
      ensures schema == old(schema) && responses == old(responses)
    {
      PushAction(GenericActionNames);
    }

    /**
     * `list(response)` and `get(response)`: when the response, or the first element of a
     * list response, is a dict, a `{Pascal}Schema` is derived from it and the response as
     * given is canned for the action; the action is pushed either way. An empty list has
     * no first element.
     */
    method Declare(action: string, response: Value) returns (r: Result<(), FactoryError>)
      requires action == "list" || action == "get"
      modifies this
      ensures response == VList([]) ==> r.Err? && schema == old(schema) && actions == old(actions) && responses == old(responses)
      ensures response != VList([]) ==> r.Ok? && actions == Pushed(old(actions), [action])
      ensures response != VList([]) ==>
        var first := if response.VList? then response.items[0] else response;
        (first.VDict? ==> schema == Some(Derived(Pascalize(resourceName) + "Schema", first.entries)) &&
                          responses == old(responses)[action := response]) &&
        (!first.VDict? ==> schema == old(schema) && responses == old(responses))
    {
      var first := response;
      if response.VList? {
        if response.items == [] {
          return Err(EmptyListResponse);
        }
        first := response.items[0];
      }
      if first.VDict? {
        schema := Some(Derived(Pascalize(resourceName) + "Schema", first.entries));
        responses := responses[action := response];
      }
      PushAction([action]);
      return Ok(());
    }

    /** `create(func)`, `update(func)`, `delete(func)`: only the action is recorded. */
    method Record(action: string)
      requires action == "create" || action == "update" || action == "delete"
      modifies this
      ensures actions == Pushed(old(actions), [action])
      ensures schema == old(schema) && responses == old(responses)
    {
      PushAction([action]);
    }

    /** `__call__()` of the current factory: the class has exactly the pushed actions, in order. */
    method Build() returns (cls: GeneratedResource)
      ensures cls == GeneratedResource(Pascalize(resourceName) + "Resource", schema, actions)
    {
      cls := GeneratedResource(Pascalize(resourceName) + "Resource", schema, actions);
    }

    /**
     * `__call__()` of the older factory as written: `list` is decorated with `@action()`,
     * which passes no `detail`, so the decorator's assertion fails before `get` is
     * decorated and before any class is built, whatever the factory holds.
     */
    method BuildLegacyAsWritten() returns (r: Result<GeneratedResource, DecoratorError>)
      ensures r == Err(MissingDetail)
    {
      var info := Decorate(None, VNone);
      r := if info.Err? then Err(info.error) else Ok(GeneratedResource(Pascalize(resourceName) + "Resource", schema, ["list", "get"]));
    }

    /**
     * `__call__()` of the older factory as intended: the class always has `list` and
     * `get`, whatever was pushed.
     */
    method BuildLegacy() returns (cls: GeneratedResource)
      ensures cls == GeneratedResource(Pascalize(resourceName) + "Resource", schema, ["list", "get"])
    {
      cls := GeneratedResource(Pascalize(resourceName) + "Resource", schema, ["list", "get"]);
    }

    /**
     * Calling a generated action: the canned response when there is one; otherwise `list`
     * and `get` read the schema's store (a derived schema has no `find`), and the other
     * actions are not implemented.
     */
    method Invoke(store: ModelSchema, action: string, pk: Value) returns (r: Result<Value, ActionError>)
      requires action in GenericActionNames && store.Valid()
      ensures action in responses ==> r == Ok(responses[action])
      ensures action !in responses && action != "list" && action != "get" ==> r == Err(NotImplemented)
      ensures action !in responses && (action == "list" || action == "get") ==>
        if schema.Some? && schema.value.Given? then
          var found := FindIn(store.storage, if action == "list" then VNone else pk);
          r == (if found.Ok? then Ok(found.value) else Err(Missing(found.error)))
        else r == Err(NoFind)
    {
      if action in responses {
        return Ok(responses[action]);
      }
      if action != "list" && action != "get" {
        return Err(NotImplemented);
      }
      if schema.None? || schema.value.Derived? {
        return Err(NoFind);
      }
      var found := store.Find(if action == "list" then VNone else pk);
      if found.Err? {
        return Err(Missing(found.error));
      }
      return Ok(found.value);
    }
  }

  /** `DeclarativeAPI`: every factory it defined, in order. */
  class DeclarativeApi {
    var factories: seq<ResourceFactory>

    constructor ()
      ensures factories == []
    {
      factories := [];
    }

    /** `define(name)`, also reached by calling the API: a fresh factory, recorded. */
    method Define(resourceName: string) returns (f: ResourceFactory)
      modifies this
      ensures fresh(f) && f.resourceName == resourceName
      ensures f.schema == None && f.actions == [] && f.responses == map[]
      ensures factories == old(factories) + [f]
    {
      f := new ResourceFactory(resourceName);
      factories := factories + [f];
    }
  }

  /**
   * `API("greeter").get({...})` then `.list([{...}])`: both actions recorded in that order,
   * both responses canned, and the schema derived from the list's first element.
   */
  method DeclareGetThenList(name: string, item: map<string, Value>, rows: seq<Value>) returns (cls: GeneratedResource)
    requires |rows| > 0 && rows[0].VDict?
    ensures cls.name == Pascalize(name) + "Resource"
    ensures cls.actions == ["get", "list"]
    ensures cls.schema == Some(Derived(Pascalize(name) + "Schema", rows[0].entries))
  {
    var api := new DeclarativeApi();
    var f := api.Define(name);
    var _ := f.Declare("get", VDict(item));
    var _ := f.Declare("list", VList(rows));
    cls := f.Build();
  }
}

=== FILE: decorators.dfy ===
/**
 * The `@action` decorator and the registry of actions it fills: every decorated
 * method is recorded under its function name with its `detail` flag and its HTTP
 * methods, and the class attribute is rebound to the undecorated function.
 */
module Actions {
  import opened Wrappers
  import opened Strings
  import opened Values
  import OrderedMaps

  /** The action a resource method implements, by its function name. */
  datatype ActionKind = ListAction | GetAction | CreateAction | UpdateAction | DeleteAction | CustomAction(name: string)

  /** `GENERIC_ACTIONS`: the five names with built-in routes and servicers. */
  const GenericActionNames: seq<string> := ["list", "get", "create", "update", "delete"]

  function KindOf(name: string): (k: ActionKind) {
    if name == "list" then ListAction
    else if name == "get" then GetAction
    else if name == "create" then CreateAction
    else if name == "update" then UpdateAction
    else if name == "delete" then DeleteAction
    else CustomAction(name)
  }

  function NameOf(k: ActionKind): string {
    match k
    case ListAction => "list"
    case GetAction => "get"
    case CreateAction => "create"
    case UpdateAction => "update"
    case DeleteAction => "delete"
    case CustomAction(n) => n
  }

  predicate IsGeneric(k: ActionKind) { !k.CustomAction? }

  /** A name is generic exactly when it is one of `GENERIC_ACTIONS`; the kind gives the name back. */
  lemma KindOfName(name: string)
    ensures NameOf(KindOf(name)) == name
    ensures IsGeneric(KindOf(name)) <==> name in GenericActionNames
  {
  }

  /** A generic kind, or a custom kind whose name is not generic, is recovered from its name. */
  lemma NameOfKind(k: ActionKind)
    requires k.CustomAction? ==> k.name !in GenericActionNames
    ensures KindOf(NameOf(k)) == k
  {
  }

  /** What `_actions[name]` holds: `{'detail': detail, 'methods': methods}`. */
  datatype ActionInfo = ActionInfo(detail: Value, methods: seq<string>)

  datatype DecoratorError = MissingDetail

  /**
   * `action(methods, detail)`: the methods default to `['get']` and are lowercased;
   * `detail` must be given (None fails the assertion).
   */
  function Decorate(methods: Option<seq<string>>, detail: Value): (r: Result<ActionInfo, DecoratorError>)
    ensures detail == VNone <==> r == Err(MissingDetail)
    ensures r.Ok? ==> r.value.detail == detail
    ensures r.Ok? && methods.None? ==> r.value.methods == ["get"]
    ensures r.Ok? && methods.Some? ==>
      |r.value.methods| == |methods.value| &&
      forall i :: 0 <= i < |methods.value| ==> r.value.methods[i] == Lower(methods.value[i])
  {
    // `['get']` is already lower-case, so only given methods need lowering.
    var lowered := if methods.None? then ["get"]
                   else seq(|methods.value|, i requires 0 <= i < |methods.value| => Lower(methods.value[i]));
    if detail == VNone then Err(MissingDetail)
    else Ok(ActionInfo(detail, lowered))
  }

  /** A class attribute as the registration leaves it. */
  datatype Member = ActionWrapper(funcName: string) | Function(funcName: string)

  /**
   * `Resource._actions`: one `OrderedDict` from action name to its info, shared by the
   * base class and every subclass.
   */
  class ActionRegistry {
    var actions: OrderedMaps.OrderedMap<string, ActionInfo>

    ghost predicate Valid()
      reads this
    {
      OrderedMaps.Valid(actions)
    }

    constructor ()
      ensures Valid() && actions == OrderedMaps.Empty()
    {
      actions := OrderedMaps.Empty();
    }

    /** `_actions[name] = info`: a new name goes last, a known name keeps its place. */
    method Put(name: string, info: ActionInfo)
      requires Valid()
      modifies this
      ensures Valid()
      ensures actions == OrderedMaps.Put(old(actions), name, info)
    {
      actions := OrderedMaps.Put(actions, name, info);
    }
  }

  /** The attributes of the class whose body declares the decorated method. */
  class Owner {
    var attributes: map<string, Member>

    constructor (attributes: map<string, Member>)
      ensures this.attributes == attributes
    {
      this.attributes := attributes;
    }
  }

  /**
   * `Action.__set_name__(owner, name)`: record `{detail, methods}` under the wrapped
   * function's name (overwriting an earlier entry of that name in place), then rebind the
   * owner's attribute to the original function.
   */
  method SetName(registry: ActionRegistry, owner: Owner, name: string, funcName: string, info: ActionInfo)
    requires registry.Valid()
    modifies registry, owner
    ensures registry.Valid()
    ensures registry.actions == OrderedMaps.Put(old(registry.actions), funcName, info)
    ensures owner.attributes == old(owner.attributes)[name := Function(funcName)]
  {
    registry.Put(funcName, info);
    owner.attributes := owner.attributes[name := Function(funcName)];
  }
}

=== FILE: environments.dfy ===
/**
 * The deployment stage: the `STAGE` enumeration and `ENV`, resolved from the `ENV`
 * environment variable with DEV as the fallback.
 */
module Environments {
  import opened Wrappers

  /** `STAGE`, in declaration order. */
  datatype Stage = DEV | TEST | STAGING | PROD

  /** A member's `.name`. */
  function NameOf(s: Stage): (n: string)
    ensures n in {"DEV", "TEST", "STAGING", "PROD"}
  {
    match s
    case DEV => "DEV"
    case TEST => "TEST"
    case STAGING => "STAGING"
    case PROD => "PROD"
  }

  /** `STAGE[name]` for a name in `STAGE.__members__`. */
  function FromName(name: string): (r: Option<Stage>)
    ensures r.Some? ==> NameOf(r.value) == name
    ensures r.None? <==> name !in {"DEV", "TEST", "STAGING", "PROD"}
  {
    if name == "DEV" then Some(DEV)
    else if name == "TEST" then Some(TEST)
    else if name == "STAGING" then Some(STAGING)
    else if name == "PROD" then Some(PROD)
    else None
  }

  /** Every stage is found again by its name, so the names are distinct. */
  lemma FromNameOf(s: Stage)
    ensures FromName(NameOf(s)) == Some(s)
  {
  }

  /**
   * `ENV` for the value of the `ENV` environment variable (None when unset), and whether
   * an error is logged: an unset variable means DEV; a member name gives that member;
   * anything else is logged and falls back to DEV.
   */
  function Env(environ: Option<string>): (r: (Stage, bool))
    ensures environ.None? ==> r == (DEV, false)
    ensures environ.Some? && FromName(environ.value).Some? ==> NameOf(r.0) == environ.value && !r.1
    ensures environ.Some? && FromName(environ.value).None? ==> r == (DEV, true)
  {
    var env := if environ.Some? then environ.value else NameOf(DEV);
    match FromName(env)
    case Some(s) => (s, false)
    case None => (DEV, true)
  }

  /** Setting `ENV` to a stage's name selects that stage. */
  lemma EnvSelectsNamedStage(s: Stage)
    ensures Env(Some(NameOf(s))) == (s, false)
  {
    FromNameOf(s);
  }
}

=== FILE: events.dfy ===
/**
 * AMQP event wiring: `register_callback` turns an event type into one consumer queue per
 * configured AMQP connection and records them in the two global registries, and
 * `dispatch` resolves where an event is published (the publishing itself is not modelled).
 */
module Events {
  import opened Wrappers
  import opened Strings

  /** One `AMQP_CONFIGS` entry: its string settings; a missing key is absent from the map. */
  type AmqpConfig = map<string, string>

  /**
   * The settings the event code reads. `formatRoutingKey` is `BALI_ROUTING_KEY.format`,
   * applied to an event type.
   */
  datatype Settings = Settings(
    eventTypeToAmqp: map<string, string>,
    amqpConfigs: map<string, AmqpConfig>,
    baliRoutingKey: string,
    formatRoutingKey: string -> string,
    baliExchange: string,
    baliQueue: string)

  datatype Exchange = Exchange(name: string, exchangeType: Option<string>)
  datatype Queue = Queue(name: string, exchange: Exchange, routingKey: Option<string>)

  /** `Callback(queue, callback, connection)`; the callable is identified by a number. */
  datatype Callback = Callback(queue: Queue, callback: nat, connection: string)

  datatype EventError =
      /** the event type maps to an empty key list */
    | NoAmqpKeys(eventType: string)
      /** a key with a missing or empty `AMQP_CONFIGS` entry */
    | NoAmqpConfig(key: string)
      /** `amqp_config['AMQP_SERVER_ADDRESS']` on a config without it */
    | NoServerAddress(configKey: string)
      /** `dispatch` without a sub-config */
    | SubConfigNotSet
      /** `dispatch` on a sub-config without a server address */
    | ServerAddressNotSet

  /** `config.get(key) or fallback`: an absent or empty setting gives the fallback. */
  function GetOr(config: AmqpConfig, key: string, fallback: string): (r: string)
    ensures key in config && config[key] != "" ==> r == config[key]
    ensures !(key in config && config[key] != "") ==> r == fallback
  {
    if key in config && config[key] != "" then config[key] else fallback
  }

  /** `EVENT_TYPE_TO_AMQP.get(event_type, 'default')` split at commas. */
  function ConfigKeys(settings: Settings, eventType: string): (r: Result<seq<string>, EventError>)
    ensures eventType !in settings.eventTypeToAmqp ==> r == Ok(["default"])
    ensures eventType in settings.eventTypeToAmqp ==>
      (r.Err? <==> settings.eventTypeToAmqp[eventType] == "")
    ensures r.Err? ==> r.error == NoAmqpKeys(eventType)
    ensures r.Ok? ==> Join(r.value, ",") == (if eventType in settings.eventTypeToAmqp then settings.eventTypeToAmqp[eventType] else "default")
  {
    var keys := if eventType in settings.eventTypeToAmqp then settings.eventTypeToAmqp[eventType] else "default";
    if keys == "" then Err(NoAmqpKeys(eventType))
    else
      JoinSplit(keys, ',');
      Ok(Split(keys, ','))
  }

  /**
   * One iteration of the loop of `register_callback`: the consumer for one config key,
   * with the exchange type defaulting to `direct`, no routing key for a fanout exchange,
   * the exchange named after its type unless named, and the queue named after
   * `BALI_QUEUE` unless named.
   */
  function CallbackFor(settings: Settings, eventType: string, callback: nat, key: string): (r: Result<Callback, EventError>)
    ensures r.Err? <==> (key !in settings.amqpConfigs || settings.amqpConfigs[key] == map[] ||
      "AMQP_SERVER_ADDRESS" !in settings.amqpConfigs[key])
    ensures r.Err? && (key !in settings.amqpConfigs || settings.amqpConfigs[key] == map[]) ==> r.error == NoAmqpConfig(key)
    ensures r.Ok? ==>
      var config := settings.amqpConfigs[key];
      var exchangeType := GetOr(config, "EXCHANGE_TYPE", "direct");
      r.value.callback == callback &&
      r.value.connection == config["AMQP_SERVER_ADDRESS"] &&
      r.value.queue.exchange == Exchange(
        if "EXCHANGE_NAME" in config then config["EXCHANGE_NAME"] else settings.baliExchange + "_" + exchangeType,
        Some(exchangeType)) &&
      (exchangeType == "fanout" <==> r.value.queue.routingKey.None?) &&
      (exchangeType != "fanout" ==>
        r.value.queue.routingKey == Some(GetOr(config, "ROUTING_KEY", settings.formatRoutingKey(eventType)))) &&
      r.value.queue.name == GetOr(config, "QUEUE_NAME",
        if exchangeType == "fanout" then settings.baliQueue else settings.baliQueue + "." + exchangeType)
  {
    if key !in settings.amqpConfigs || settings.amqpConfigs[key] == map[] then Err(NoAmqpConfig(key))
    else
      var config := settings.amqpConfigs[key];
      var exchangeType := GetOr(config, "EXCHANGE_TYPE", "direct");
      var routingKey := if exchangeType != "fanout" then Some(GetOr(config, "ROUTING_KEY", settings.formatRoutingKey(eventType))) else None;
      var exchangeName := if "EXCHANGE_NAME" in config then config["EXCHANGE_NAME"] else settings.baliExchange + "_" + exchangeType;
      var queueName := GetOr(config, "QUEUE_NAME", if exchangeType == "fanout" then settings.baliQueue else settings.baliQueue + "." + exchangeType);
      if "AMQP_SERVER_ADDRESS" !in config then Err(NoServerAddress(key))
      else Ok(Callback(Queue(queueName, Exchange(exchangeName, Some(exchangeType)), routingKey), callback, config["AMQP_SERVER_ADDRESS"]))
  }

  /**
   * The callbacks the loop registers for `keys`, in order, up to the first key that
   * fails, and that key's error.
   */
  function Registered(settings: Settings, eventType: string, callback: nat, keys: seq<string>): (seq<Callback>, Option<EventError>)
    decreases |keys|
  {
    if keys == [] then ([], None)
    else match CallbackFor(settings, eventType, callback, keys[0])
      case Err(e) => ([], Some(e))
      case Ok(c) =>
        var rest := Registered(settings, eventType, callback, keys[1..]);
        ([c] + rest.0, rest.1)
  }

  /** With every key configured, one callback is registered per key, in the keys' order. */
  lemma {:induction false} RegisteredInOrder(settings: Settings, eventType: string, callback: nat, keys: seq<string>)
    requires forall i :: 0 <= i < |keys| ==> CallbackFor(settings, eventType, callback, keys[i]).Ok?
    ensures Registered(settings, eventType, callback, keys).1 == None
    ensures |Registered(settings, eventType, callback, keys).0| == |keys|
    ensures forall i :: 0 <= i < |keys| ==>
      Registered(settings, eventType, callback, keys).0[i] == CallbackFor(settings, eventType, callback, keys[i]).value
    decreases |keys|
  {
    if keys != [] {
      assert CallbackFor(settings, eventType, callback, keys[0]).Ok?;
      forall i | 0 <= i < |keys[1..]| ensures CallbackFor(settings, eventType, callback, keys[1..][i]).Ok? {
        assert keys[1..][i] == keys[i + 1];
      }
      RegisteredInOrder(settings, eventType, callback, keys[1..]);
    }
  }

  /** The first failing key stops the loop with its error; the callbacks for the keys before it stay. */
  lemma {:induction false} FirstFailureStops(settings: Settings, eventType: string, callback: nat, keys: seq<string>, j: nat)
    requires j < |keys| && CallbackFor(settings, eventType, callback, keys[j]).Err?
    requires forall i :: 0 <= i < j ==> CallbackFor(settings, eventType, callback, keys[i]).Ok?
    ensures Registered(settings, eventType, callback, keys).1 == Some(CallbackFor(settings, eventType, callback, keys[j]).error)
    ensures |Registered(settings, eventType, callback, keys).0| == j
    ensures forall i :: 0 <= i < j ==>
      Registered(settings, eventType, callback, keys).0[i] == CallbackFor(settings, eventType, callback, keys[i]).value
    decreases j
  {
    if j > 0 {
      assert CallbackFor(settings, eventType, callback, keys[0]).Ok?;
      forall i | 0 <= i < j - 1 ensures CallbackFor(settings, eventType, callback, keys[1..][i]).Ok? {
        assert keys[1..][i] == keys[i + 1];
      }
      FirstFailureStops(settings, eventType, callback, keys[1..], j - 1);
    }
  }

  /** One iteration of the loop: the key at `i` either fails and ends the registrations, or adds its callback. */
  lemma RegisteredStep(settings: Settings, eventType: string, callback: nat, keys: seq<string>, i: nat)
    requires i < |keys|
    ensures var c := CallbackFor(settings, eventType, callback, keys[i]);
      var rest := Registered(settings, eventType, callback, keys[i + 1..]);
      Registered(settings, eventType, callback, keys[i..]) ==
        if c.Err? then ([], Some(c.error)) else ([c.value] + rest.0, rest.1)
  {
    assert keys[i..][0] == keys[i] && keys[i..][1..] == keys[i + 1..];
  }

  /** `n` copies of `x`. */
  function Repeat(x: string, n: nat): (r: seq<string>)
    ensures |r| == n && forall i :: 0 <= i < n ==> r[i] == x
  {
    if n == 0 then [] else Repeat(x, n - 1) + [x]
  }

  /** `REGISTER_EVENT_CALLBACKS` and `REGISTER_EVENT_TYPES`. */
  class Registry {
    var callbacks: seq<Callback>
    var eventTypes: seq<string>

    /** Every registration appends to both lists, so they pair up index by index. */
    ghost predicate Valid()
      reads this
    {
      |callbacks| == |eventTypes|
    }

    constructor ()
      ensures Valid() && callbacks == [] && eventTypes == []
    {
      callbacks := [];
      eventTypes := [];
    }

    /** The two `append` calls of one registration. */
    method Append(c: Callback, eventType: string)
      modifies this
      ensures callbacks == old(callbacks) + [c] && eventTypes == old(eventTypes) + [eventType]
    {
      callbacks := callbacks + [c];
      eventTypes := eventTypes + [eventType];
    }

    /**
     * `register_callback(event_type, callback)`: one callback per key of the event type's
     * key list, in order, each paired with the event type; the first key that fails
     * raises, and what was registered before it stays.
     */
    method RegisterCallback(settings: Settings, eventType: string, callback: nat) returns (r: Result<(), EventError>)
      requires Valid()
      modifies this
      ensures Valid()
      ensures ConfigKeys(settings, eventType).Err? ==>
        r == Err(ConfigKeys(settings, eventType).error) && callbacks == old(callbacks) && eventTypes == old(eventTypes)
      ensures ConfigKeys(settings, eventType).Ok? ==>
        var reg := Registered(settings, eventType, callback, ConfigKeys(settings, eventType).value);
        callbacks == old(callbacks) + reg.0 &&
        eventTypes == old(eventTypes) + Repeat(eventType, |reg.0|) &&
        r == (if reg.1.Some? then Err(reg.1.value) else Ok(()))
    {
      var keys := ConfigKeys(settings, eventType);
      if keys.Err? {
        return Err(keys.error);
      }
      r := RegisterKeys(settings, eventType, callback, keys.value);
    }

    /** The loop of `register_callback` over the event type's config keys. */
    method RegisterKeys(settings: Settings, eventType: string, callback: nat, keys: seq<string>) returns (r: Result<(), EventError>)
      requires Valid()
      modifies this
      ensures Valid()
      ensures var reg := Registered(settings, eventType, callback, keys);
        callbacks == old(callbacks) + reg.0 &&
        eventTypes == old(eventTypes) + Repeat(eventType, |reg.0|) &&
        r == (if reg.1.Some? then Err(reg.1.value) else Ok(()))
    {
      ghost var reg := Registered(settings, eventType, callback, keys);
      ghost var added: seq<Callback> := [];
      var i := 0;
      assert keys[0..] == keys;
      assert [] + reg.0 == reg.0;
      while i < |keys|
        invariant 0 <= i <= |keys|
        invariant callbacks == old(callbacks) + added
        invariant eventTypes == old(eventTypes) + Repeat(eventType, |added|)
        invariant reg.0 == added + Registered(settings, eventType, callback, keys[i..]).0
        invariant reg.1 == Registered(settings, eventType, callback, keys[i..]).1
      {
        RegisteredStep(settings, eventType, callback, keys, i);
        var c := CallbackFor(settings, eventType, callback, keys[i]);
        if c.Err? {
          assert added + [] == added;
          return Err(c.error);
        }
        ghost var rest := Registered(settings, eventType, callback, keys[i + 1..]);
        AppendAssoc(added, [c.value], rest.0);
        AppendAssoc(old(callbacks), added, [c.value]);
        AppendAssoc(old(eventTypes), Repeat(eventType, |added|), [eventType]);
        Append(c.value, eventType);
        added := added + [c.value];
        i := i + 1;
      }
      assert keys[i..] == [];
      assert added + [] == added;
      return Ok(());
    }
  }

  /** The event being published. */
  datatype Event = Event(eventType: string, amqpName: string)

  /** Where `dispatch` publishes: the server, the exchange, the declared queue and the routing key. */
  datatype Publication = Publication(address: string, exchange: Exchange, queueName: string, routingKey: string)

  /**
   * The configuration `dispatch(event, amqp_name)` resolves before publishing: the named
   * (or the event's) sub-config must exist, be non-empty and name a server; the routing
   * key and the queue name fall back to `BALI_ROUTING_KEY` and `BALI_QUEUE` joined to the
   * event type with `_`; the exchange is named `BALI_EXCHANGE` unless the sub-config names it.
   */
  function Dispatch(settings: Settings, event: Event, amqpName: string): (r: Result<Publication, EventError>)
    ensures var name := if amqpName == "" then event.amqpName else amqpName;
      var config := if name in settings.amqpConfigs then settings.amqpConfigs[name] else map[];
      (config == map[] ==> r == Err(SubConfigNotSet)) &&
      (config != map[] && "AMQP_SERVER_ADDRESS" !in config ==> r == Err(ServerAddressNotSet)) &&
      (config != map[] && "AMQP_SERVER_ADDRESS" in config ==>
        r.Ok? &&
        r.value.address == config["AMQP_SERVER_ADDRESS"] &&
        r.value.routingKey == GetOr(config, "ROUTING_KEY", settings.baliRoutingKey + "_" + event.eventType) &&
        r.value.exchange.name == (if "EXCHANGE_NAME" in config then config["EXCHANGE_NAME"] else settings.baliExchange) &&
        r.value.exchange.exchangeType == (if "EXCHANGE_TYPE" in config then Some(config["EXCHANGE_TYPE"]) else None) &&
        r.value.queueName == GetOr(config, "QUEUE_NAME", settings.baliQueue + "_" + event.eventType))
  {
    var name := if amqpName == "" then event.amqpName else amqpName;
    var config := if name in settings.amqpConfigs then settings.amqpConfigs[name] else map[];
    if config == map[] then Err(SubConfigNotSet)
    else if "AMQP_SERVER_ADDRESS" !in config then Err(ServerAddressNotSet)
    else
      var routingKey := GetOr(config, "ROUTING_KEY", settings.baliRoutingKey + "_" + event.eventType);
      var exchange := Exchange(
        if "EXCHANGE_NAME" in config then config["EXCHANGE_NAME"] else settings.baliExchange,
        if "EXCHANGE_TYPE" in config then Some(config["EXCHANGE_TYPE"]) else None);
      var queueName := GetOr(config, "QUEUE_NAME", settings.baliQueue + "_" + event.eventType);
      Ok(Publication(config["AMQP_SERVER_ADDRESS"], exchange, queueName, routingKey))
  }

  /**
   * A sub-config that names its routing key, exchange and queue is consumed by
   * `register_callback` and published to by `dispatch` through the same exchange, routing
   * key and queue, whatever the event type.
   */
  lemma NamedConfigConnects(settings: Settings, eventType: string, callback: nat, key: string)
    requires key in settings.amqpConfigs
    requires var config := settings.amqpConfigs[key];
      "AMQP_SERVER_ADDRESS" in config && "EXCHANGE_NAME" in config &&
      "EXCHANGE_TYPE" in config && config["EXCHANGE_TYPE"] != "" && config["EXCHANGE_TYPE"] != "fanout" &&
      "ROUTING_KEY" in config && config["ROUTING_KEY"] != "" &&
      "QUEUE_NAME" in config && config["QUEUE_NAME"] != ""
    ensures var c := CallbackFor(settings, eventType, callback, key);
      var p := Dispatch(settings, Event(eventType, key), "");
      c.Ok? && p.Ok? &&
      c.value.connection == p.value.address &&
      c.value.queue.exchange == p.value.exchange &&
      c.value.queue.routingKey == Some(p.value.routingKey) &&
      c.value.queue.name == p.value.queueName
  {
  }
}

=== FILE: generic_routes.dfy ===
/**
 * The bodies of the five generic routes: each stores the request on the resource, runs
 * the permission checks, and only then calls the action. The list route also parses the
 * declared filters out of the query string and pages the action's result; its signature
 * lists one query parameter per declared filter.
 */
module GenericRoutes {
  import opened Wrappers
  import opened Values
  import opened Envelopes
  import opened Resources
  import opened Paginate
  import OrderedMaps
  import Strings

  /** Which of the two handlers a route is given. */
  datatype Variant = AsyncVariant | SyncVariant

  /** `pick_route(func, async_route, route)`. */
  function PickRoute(isCoroutine: bool): (v: Variant)
    ensures v == AsyncVariant <==> isCoroutine
  {
    if isCoroutine then AsyncVariant else SyncVariant
  }

  // ---------------------------------------------------------------- filters

  /** The class a declared filter converts with: the type itself, or a `typing` alias's first argument. */
  function ConverterOf(ft: FilterType): Option<TypeRef> {
    match ft
    case Plain(t) => Some(t)
    case Alias(args) => if args == [] then None else Some(args[0])
  }

  /**
   * A query value converted with its declared filter type, or None when the conversion
   * raises; `convert` stands for calling the class on the string.
   */
  function Converted(ft: FilterType, v: string, convert: (TypeRef, string) -> Option<Value>): Option<Value> {
    match ConverterOf(ft)
    case None => None
    case Some(t) => convert(t, v)
  }

  /** The keys of a query, as a set. */
  function QueryKeys(query: seq<(string, string)>): set<string> {
    set i | 0 <= i < |query| :: query[i].0
  }

  /** The items of a dict: no key twice. */
  predicate DistinctKeys(items: seq<(string, string)>) {
    forall i, j :: 0 <= i < j < |items| ==> items[i].0 != items[j].0
  }

  /**
   * `request.query_params._dict.items()`: each query key once, in the order of its first
   * occurrence, with the value of its last occurrence.
   */
  function QueryParams(query: seq<(string, string)>): (params: seq<(string, string)>)
    ensures DistinctKeys(params)
    ensures QueryKeys(params) == QueryKeys(query)
  {
    var d := OrderedMaps.FromPairs(query);
    var params := OrderedMaps.Items(d);
    assert QueryKeys(params) == QueryKeys(query) by {
      forall k | k in QueryKeys(params) ensures k in QueryKeys(query) {
        var p :| 0 <= p < |params| && params[p].0 == k;
        assert d.keys[p] in d.values;
      }
      forall k | k in QueryKeys(query) ensures k in QueryKeys(params) {
        var i :| 0 <= i < |query| && query[i].0 == k;
        assert k in d.values;
        var p :| 0 <= p < |d.keys| && d.keys[p] == k;
        assert params[p].0 == k;
      }
    }
    params
  }

  /** The value a query key ends up with in `query_params._dict` is that of its last occurrence. */
  lemma QueryParamsLastValue(query: seq<(string, string)>, i: nat)
    requires i < |query|
    requires forall j :: i < j < |query| ==> query[j].0 != query[i].0
    ensures exists p :: 0 <= p < |QueryParams(query)| && QueryParams(query)[p] == query[i]
  {
    var d := OrderedMaps.FromPairs(query);
    OrderedMaps.LastAssignmentWins(query, i);
    var p :| 0 <= p < |d.keys| && d.keys[p] == query[i].0;
    assert QueryParams(query)[p] == query[i];
  }

  /** The filters collected from the items of a dict: declared keys whose value converts. */
  function FiltersOfItems(items: seq<(string, string)>, declared: OrderedMaps.OrderedMap<string, FilterType>,
                          convert: (TypeRef, string) -> Option<Value>): map<string, Value>
    decreases |items|
  {
    if items == [] then map[]
    else
      var front := FiltersOfItems(items[..|items| - 1], declared, convert);
      var (k, v) := items[|items| - 1];
      if k in declared.values && Converted(declared.values[k], v, convert).Some? then
        front[k := Converted(declared.values[k], v, convert).value]
      else front
  }

  /** The filters the list route collects from a query. */
  function ParsedFilters(query: seq<(string, string)>, declared: OrderedMaps.OrderedMap<string, FilterType>,
                         convert: (TypeRef, string) -> Option<Value>): map<string, Value>
  {
    FiltersOfItems(QueryParams(query), declared, convert)
  }

  /** The loop of the list route that fills `filters` from `params.items()`. */
  method ParseFilters(params: seq<(string, string)>, declared: OrderedMaps.OrderedMap<string, FilterType>,
                      convert: (TypeRef, string) -> Option<Value>) returns (filters: map<string, Value>)
    ensures filters == FiltersOfItems(params, declared, convert)
  {
    filters := map[];
    var i := 0;
    while i < |params|
      invariant 0 <= i <= |params|
      invariant filters == FiltersOfItems(params[..i], declared, convert)
    {
      var (k, v) := params[i];
      assert params[..i + 1][..i] == params[..i];
      if k in declared.values {
        var converted := Converted(declared.values[k], v, convert);
        if converted.Some? {
          filters := filters[k := converted.value];
        }
        // a failed conversion is logged and the key skipped
      }
      i := i + 1;
    }
    assert params[..i] == params;
  }

  /**
   * Over the items of a dict: undeclared keys are ignored, a declared key is kept with its
   * converted value, and a key whose conversion fails is dropped.
   */
  lemma {:induction false} FilterItems(items: seq<(string, string)>, declared: OrderedMaps.OrderedMap<string, FilterType>,
                                       convert: (TypeRef, string) -> Option<Value>)
    requires DistinctKeys(items)
    ensures var f := FiltersOfItems(items, declared, convert);
      (forall i :: 0 <= i < |items| ==>
        (items[i].0 in f <==> items[i].0 in declared.values && Converted(declared.values[items[i].0], items[i].1, convert).Some?)) &&
      (forall i :: 0 <= i < |items| && items[i].0 in f ==>
        f[items[i].0] == Converted(declared.values[items[i].0], items[i].1, convert).value) &&
      (forall k :: k in f ==> k in QueryKeys(items) && k in declared.values)
    decreases |items|
  {
    if items != [] {
      var front := items[..|items| - 1];
      assert DistinctKeys(front) by {
        forall i, j | 0 <= i < j < |front| ensures front[i].0 != front[j].0 {
          assert front[i] == items[i] && front[j] == items[j];
        }
      }
      FilterItems(front, declared, convert);
      var f := FiltersOfItems(front, declared, convert);
      forall i | 0 <= i < |items| - 1 ensures items[i] == front[i] && items[i].0 != items[|items| - 1].0 {
      }
      forall k | k in f ensures k in QueryKeys(items) {
        var i :| 0 <= i < |front| && front[i].0 == k;
        assert items[i].0 == k;
      }
      assert items[|items| - 1].0 in QueryKeys(items);
    }
  }

  /**
   * The list route's filters, in terms of the query: only declared query keys are kept;
   * each is judged by the value of its LAST occurrence, kept with that value converted
   * when the conversion succeeds and dropped (without failing the request) when it does
   * not, whatever earlier occurrences held.
   */
  lemma FilterParsing(query: seq<(string, string)>, declared: OrderedMaps.OrderedMap<string, FilterType>,
                      convert: (TypeRef, string) -> Option<Value>)
    ensures var f := ParsedFilters(query, declared, convert);
      (forall i :: 0 <= i < |query| && (forall j :: i < j < |query| ==> query[j].0 != query[i].0) ==>
        (query[i].0 in f <==> query[i].0 in declared.values && Converted(declared.values[query[i].0], query[i].1, convert).Some?) &&
        (query[i].0 in f ==> f[query[i].0] == Converted(declared.values[query[i].0], query[i].1, convert).value)) &&
      (forall k :: k in f ==> k in QueryKeys(query) && k in declared.values)
  {
    var params := QueryParams(query);
    FilterItems(params, declared, convert);
    forall i | 0 <= i < |query| && (forall j :: i < j < |query| ==> query[j].0 != query[i].0)
      ensures exists p :: 0 <= p < |params| && params[p] == query[i]
    {
      QueryParamsLastValue(query, i);
    }
  }

  /** Whether a route parameter has a default. */
  datatype Default = Required | DefaultNone

  /** A parameter of the list route's signature; the annotation is a filter type, or None for `request`. */
  datatype Parameter = Parameter(name: string, default: Default, annotation: Option<FilterType>)

  /** A filter parameter defaults to None exactly when its type is an alias with `NoneType` among its arguments. */
  function FilterDefault(ft: FilterType): (d: Default)
    ensures d == DefaultNone <==> ft.Alias? && NoneType in ft.args
  {
    if ft.Alias? && NoneType in ft.args then DefaultNone else Required
  }

  /** Python's reserved words, which `keyword.iskeyword` recognises. */
  const PythonKeywords: set<string> := {
    "False", "None", "True", "and", "as", "assert", "async", "await", "break", "class",
    "continue", "def", "del", "elif", "else", "except", "finally", "for", "from", "global",
    "if", "import", "in", "is", "lambda", "nonlocal", "not", "or", "pass", "raise",
    "return", "try", "while", "with", "yield"}

  /** `str.isidentifier()` on ASCII text: a letter or `_`, then letters, digits and `_`. */
  predicate IsPythonIdentifier(s: string) {
    s != [] && (Strings.IsLower(s[0]) || Strings.IsUpper(s[0]) || s[0] == '_') &&
    forall i :: 1 <= i < |s| ==> Strings.IsLower(s[i]) || Strings.IsUpper(s[i]) || Strings.IsDigit(s[i]) || s[i] == '_'
  }

  /** The ValueError raised while the list route's signature is built. */
  datatype SignatureError =
      /** `inspect.Parameter`: the name is not an identifier */
    | NotIdentifier(name: string)
      /** `inspect.Parameter`: the name is a keyword */
    | KeywordName(name: string)
      /** `inspect.Signature`: a parameter without default after one with a default */
    | NonDefaultAfterDefault(name: string)
      /** `inspect.Signature`: a name used twice */
    | DuplicateName(name: string)

  /** `inspect.Parameter(name, ...)` accepts the name. */
  predicate IsParameterName(name: string) {
    IsPythonIdentifier(name) && name !in PythonKeywords
  }

  /** What `inspect.Parameter` raises for a name it refuses. */
  function NameError(name: string): (e: SignatureError)
    requires !IsParameterName(name)
    ensures e.name == name
    ensures e.NotIdentifier? <==> !IsPythonIdentifier(name)
    ensures e.KeywordName? <==> IsPythonIdentifier(name) && name in PythonKeywords
  {
    if !IsPythonIdentifier(name) then NotIdentifier(name) else KeywordName(name)
  }

  /** Parameters `i < j` that `inspect.Signature` refuses together: the same name, or a default followed by none. */
  predicate Clash(ps: seq<Parameter>, i: nat, j: nat)
    requires i < j < |ps|
  {
    ps[i].name == ps[j].name || (ps[i].default == DefaultNone && ps[j].default == Required)
  }

  /** No two parameters clash. */
  predicate WellFormed(ps: seq<Parameter>) {
    forall i, j :: 0 <= i < j < |ps| ==> !Clash(ps, i, j)
  }

  /** Some parameter before `j` has a default. */
  predicate DefaultBefore(ps: seq<Parameter>, j: nat)
    requires j <= |ps|
  {
    exists i :: 0 <= i < j && ps[i].default == DefaultNone
  }

  /**
   * Parameter `j` is the first that `inspect.Signature` refuses, with error `e`: the
   * default check comes before the name check.
   */
  predicate RefusedAt(ps: seq<Parameter>, j: nat, e: SignatureError)
    requires j < |ps|
  {
    WellFormed(ps[..j]) &&
    if ps[j].default == Required && DefaultBefore(ps, j) then e == NonDefaultAfterDefault(ps[j].name)
    else e == DuplicateName(ps[j].name) && exists i :: 0 <= i < j && ps[i].name == ps[j].name
  }

  /**
   * The checks `inspect.Signature` makes on positional-or-keyword parameters, in order:
   * at each parameter, first that it has a default if an earlier one had, then that its
   * name is new. The error names the first parameter that fails.
   */
  method ValidateSignature(ps: seq<Parameter>) returns (e: Option<SignatureError>)
    ensures e.None? <==> WellFormed(ps)
    ensures e.Some? ==> exists j :: 0 <= j < |ps| && RefusedAt(ps, j, e.value)
  {
    var seenDefault := false;
    var names: set<string> := {};
    var j := 0;
    while j < |ps|
      invariant 0 <= j <= |ps|
      invariant WellFormed(ps[..j])
      invariant seenDefault <==> DefaultBefore(ps, j)
      invariant names == set i | 0 <= i < j :: ps[i].name
    {
      if ps[j].default == Required && seenDefault {
        var i :| 0 <= i < j && ps[i].default == DefaultNone;
        assert Clash(ps, i, j);
        assert RefusedAt(ps, j, NonDefaultAfterDefault(ps[j].name));
        return Some(NonDefaultAfterDefault(ps[j].name));
      }
      if ps[j].name in names {
        var i :| 0 <= i < j && ps[i].name == ps[j].name;
        assert Clash(ps, i, j);
        assert RefusedAt(ps, j, DuplicateName(ps[j].name));
        return Some(DuplicateName(ps[j].name));
      }
      var next := ps[..j + 1];
      assert WellFormed(next) by {
        forall a, b | 0 <= a < b < |next| ensures !Clash(next, a, b) {
          assert next[a] == ps[a] && next[b] == ps[b];
          if b < j {
            assert !Clash(ps[..j], a, b);
          } else {
            assert ps[a].name in names;
          }
        }
      }
      assert DefaultBefore(ps, j + 1) <==> DefaultBefore(ps, j) || ps[j].default == DefaultNone;
      seenDefault := seenDefault || ps[j].default == DefaultNone;
      names := names + {ps[j].name};
      j := j + 1;
    }
    assert ps[..j] == ps;
    return None;
  }

  /** The parameter of a declared filter: its default and its type as annotation. */
  function FilterParameter(declared: OrderedMaps.OrderedMap<string, FilterType>, k: string): Parameter
    requires k in declared.values
  {
    Parameter(k, FilterDefault(declared.values[k]), Some(declared.values[k]))
  }

  /** The route's own `request: Request = None`. */
  const RequestParameter: Parameter := Parameter("request", DefaultNone, None)

  /** Every declared filter name is one `inspect.Parameter` accepts. */
  predicate NamesAccepted(declared: OrderedMaps.OrderedMap<string, FilterType>) {
    forall i :: 0 <= i < |declared.keys| ==> IsParameterName(declared.keys[i])
  }

  /** Filter `n` is the first whose name `inspect.Parameter` refuses. */
  predicate FirstRefusedName(declared: OrderedMaps.OrderedMap<string, FilterType>, n: nat) {
    n < |declared.keys| && !IsParameterName(declared.keys[n]) &&
    forall m :: 0 <= m < n ==> IsParameterName(declared.keys[m])
  }

  /** Declared filters `i < j` where a filter without default follows one defaulting to None. */
  predicate DefaultFollowed(declared: OrderedMaps.OrderedMap<string, FilterType>, i: nat, j: nat)
    requires OrderedMaps.Valid(declared) && i < j < |declared.keys|
  {
    FilterDefault(declared.values[declared.keys[i]]) == DefaultNone &&
    FilterDefault(declared.values[declared.keys[j]]) == Required
  }

  /** No filter without default follows one defaulting to None among the first `n` filters. */
  predicate DefaultsInOrder(declared: OrderedMaps.OrderedMap<string, FilterType>, n: nat)
    requires OrderedMaps.Valid(declared) && n <= |declared.keys|
  {
    forall i, j :: 0 <= i < j < n ==> !DefaultFollowed(declared, i, j)
  }

  /** Filter `n` is the first without default that follows one defaulting to None. */
  predicate FirstDefaultFollowed(declared: OrderedMaps.OrderedMap<string, FilterType>, n: nat)
    requires OrderedMaps.Valid(declared)
  {
    n < |declared.keys| && DefaultsInOrder(declared, n) &&
    exists i :: 0 <= i < n && DefaultFollowed(declared, i, n)
  }

  /**
   * The list route's signature: one parameter per declared filter, in order, then
   * `request`. Building it raises ValueError, in this order of precedence: at the first
   * filter name `inspect.Parameter` refuses; at the first filter without a default that
   * follows one defaulting to None; when a filter is called `request`.
   */
  method RouteParameters(declared: OrderedMaps.OrderedMap<string, FilterType>) returns (r: Result<seq<Parameter>, SignatureError>)
    requires OrderedMaps.Valid(declared)
    ensures r.Ok? <==> NamesAccepted(declared) && DefaultsInOrder(declared, |declared.keys|) && "request" !in declared.values
    ensures r.Ok? ==> (
      |r.value| == |declared.keys| + 1 &&
      (forall i :: 0 <= i < |declared.keys| ==> r.value[i] == FilterParameter(declared, declared.keys[i])) &&
      r.value[|declared.keys|] == RequestParameter)
    ensures !NamesAccepted(declared) ==> (
      exists n: nat :: FirstRefusedName(declared, n) && r == Err(NameError(declared.keys[n])))
    ensures NamesAccepted(declared) && !DefaultsInOrder(declared, |declared.keys|) ==> (
      exists n: nat :: FirstDefaultFollowed(declared, n) && r == Err(NonDefaultAfterDefault(declared.keys[n])))
    ensures NamesAccepted(declared) && DefaultsInOrder(declared, |declared.keys|) && "request" in declared.values ==>
      r == Err(DuplicateName("request"))
  {
    var ps: seq<Parameter> := [];
    var i := 0;
    while i < |declared.keys|
      invariant 0 <= i <= |declared.keys|
      invariant |ps| == i
      invariant forall j :: 0 <= j < i ==> IsParameterName(declared.keys[j])
      invariant forall j :: 0 <= j < i ==> ps[j] == FilterParameter(declared, declared.keys[j])
    {
      var k := declared.keys[i];
      if !IsParameterName(k) {
        assert FirstRefusedName(declared, i);
        return Err(NameError(k));
      }
      ps := ps + [FilterParameter(declared, k)];
      i := i + 1;
    }
    var all := ps + [RequestParameter];
    var e := ValidateSignature(all);
    SignatureChecks(declared, all, e);
    if e.Some? {
      return Err(e.value);
    }
    return Ok(all);
  }

  /** Among the route's parameters, filters clash only by their defaults, and `request` only by its name. */
  lemma RouteClashes(declared: OrderedMaps.OrderedMap<string, FilterType>, all: seq<Parameter>)
    requires OrderedMaps.Valid(declared)
    requires |all| == |declared.keys| + 1 && all[|declared.keys|] == RequestParameter
    requires forall j :: 0 <= j < |declared.keys| ==> all[j] == FilterParameter(declared, declared.keys[j])
    ensures forall a, b :: 0 <= a < b < |declared.keys| ==> (Clash(all, a, b) <==> DefaultFollowed(declared, a, b))
    ensures forall a :: 0 <= a < |declared.keys| ==> (Clash(all, a, |declared.keys|) <==> declared.keys[a] == "request")
  {
    forall a, b | 0 <= a < b < |declared.keys|
      ensures Clash(all, a, b) <==> DefaultFollowed(declared, a, b)
    {
      assert all[a].name == declared.keys[a] && all[b].name == declared.keys[b];
    }
  }

  /** What `inspect.Signature` finds on the route's parameters, in terms of the declared filters. */
  lemma SignatureChecks(declared: OrderedMaps.OrderedMap<string, FilterType>, all: seq<Parameter>, e: Option<SignatureError>)
    requires OrderedMaps.Valid(declared)
    requires |all| == |declared.keys| + 1 && all[|declared.keys|] == RequestParameter
    requires forall j :: 0 <= j < |declared.keys| ==> all[j] == FilterParameter(declared, declared.keys[j])
    requires e.None? <==> WellFormed(all)
    requires e.Some? ==> exists j :: 0 <= j < |all| && RefusedAt(all, j, e.value)
    ensures e.None? <==> DefaultsInOrder(declared, |declared.keys|) && "request" !in declared.values
    ensures !DefaultsInOrder(declared, |declared.keys|) ==> (
      exists n: nat :: FirstDefaultFollowed(declared, n) && e == Some(NonDefaultAfterDefault(declared.keys[n])))
    ensures DefaultsInOrder(declared, |declared.keys|) && "request" in declared.values ==>
      e == Some(DuplicateName("request"))
  {
    RouteClashes(declared, all);
    if e.None? {
      AcceptedRoute(declared, all);
    } else {
      var j :| 0 <= j < |all| && RefusedAt(all, j, e.value);
      if j < |declared.keys| {
        RefusedAtFilter(declared, all, j, e.value);
      } else {
        assert j == |declared.keys| && RefusedAt(all, |declared.keys|, e.value);
        RefusedAtRequest(declared, all, e.value);
      }
    }
  }

  /** A signature `inspect.Signature` accepts has its defaults in order and no filter called `request`. */
  lemma AcceptedRoute(declared: OrderedMaps.OrderedMap<string, FilterType>, all: seq<Parameter>)
    requires OrderedMaps.Valid(declared)
    requires |all| == |declared.keys| + 1 && WellFormed(all)
    requires forall a, b :: 0 <= a < b < |declared.keys| ==> (Clash(all, a, b) <==> DefaultFollowed(declared, a, b))
    requires forall a :: 0 <= a < |declared.keys| ==> (Clash(all, a, |declared.keys|) <==> declared.keys[a] == "request")
    ensures DefaultsInOrder(declared, |declared.keys|) && "request" !in declared.values
  {
    var n := |declared.keys|;
    forall a, b | 0 <= a < b < n ensures !DefaultFollowed(declared, a, b) {
      assert !Clash(all, a, b);
    }
    forall a | 0 <= a < n ensures declared.keys[a] != "request" {
      assert !Clash(all, a, n);
    }
  }

  /** The first parameter refused is a filter: it is refused for its default, the first so refused. */
  lemma RefusedAtFilter(declared: OrderedMaps.OrderedMap<string, FilterType>, all: seq<Parameter>, j: nat, e: SignatureError)
    requires OrderedMaps.Valid(declared)
    requires |all| == |declared.keys| + 1 && j < |declared.keys|
    requires forall i :: 0 <= i < |declared.keys| ==> all[i] == FilterParameter(declared, declared.keys[i])
    requires forall a, b :: 0 <= a < b < |declared.keys| ==> (Clash(all, a, b) <==> DefaultFollowed(declared, a, b))
    requires RefusedAt(all, j, e)
    ensures FirstDefaultFollowed(declared, j) && e == NonDefaultAfterDefault(declared.keys[j])
  {
    var front := all[..j];
    forall a, b | 0 <= a < b < j ensures !DefaultFollowed(declared, a, b) {
      assert front[a] == all[a] && front[b] == all[b];
      assert !Clash(front, a, b);
    }
    // Filter names are distinct, so the failure at a filter is its default.
    forall i | 0 <= i < j ensures all[i].name != all[j].name {
      assert declared.keys[i] != declared.keys[j];
    }
    var i :| 0 <= i < j && all[i].default == DefaultNone;
    assert DefaultFollowed(declared, i, j);
  }

  /** The first parameter refused is `request`: a filter has its name, and the defaults are in order. */
  lemma RefusedAtRequest(declared: OrderedMaps.OrderedMap<string, FilterType>, all: seq<Parameter>, e: SignatureError)
    requires OrderedMaps.Valid(declared)
    requires |all| == |declared.keys| + 1 && all[|declared.keys|] == RequestParameter
    requires forall a, b :: 0 <= a < b < |declared.keys| ==> (Clash(all, a, b) <==> DefaultFollowed(declared, a, b))
    requires forall a :: 0 <= a < |declared.keys| ==> (Clash(all, a, |declared.keys|) <==> declared.keys[a] == "request")
    requires RefusedAt(all, |declared.keys|, e)
    ensures DefaultsInOrder(declared, |declared.keys|) && "request" in declared.values
    ensures e == DuplicateName("request")
  {
    var n := |declared.keys|;
    var front := all[..n];
    forall a, b | 0 <= a < b < n ensures !DefaultFollowed(declared, a, b) {
      assert front[a] == all[a] && front[b] == all[b];
      assert !Clash(front, a, b);
    }
    var i :| 0 <= i < n && all[i].name == all[n].name;
    assert Clash(all, i, n);
  }

  // ---------------------------------------------------------------- list

  /** Why a generic route fails. */
  datatype RouteError =
    | Denied(error: HttpError)
      /** `ListRequest(**params, filters=...)` with a `filters` query key: a duplicate keyword */
    | DuplicateFilters
    | BadListRequest(invalid: ValidationError)
    | PaginationFailed(reason: PaginateError)
      /** the `limit` or `offset` query parameter fails `LimitOffsetParams` validation */
    | BadPageParams

  /** The query parameters as keyword arguments: every value a string. */
  function QueryData(query: seq<(string, string)>): (d: Data)
    ensures d.Keys == QueryKeys(query)
    decreases |query|
  {
    if query == [] then map[]
    else QueryData(query[..|query| - 1])[query[|query| - 1].0 := VStr(query[|query| - 1].1)]
  }

  /** `ListRequest(**params, filters=filters)`. */
  function ListRequestOf(query: seq<(string, string)>, filters: map<string, Value>): (r: Result<Envelope, RouteError>)
    ensures "filters" in QueryKeys(query) ==> r == Err(DuplicateFilters)
    ensures "filters" !in QueryKeys(query) ==>
      match Construct(TListRequest, QueryData(query)["filters" := VDict(filters)])
      case Ok(e) => r == Ok(e) && e.ListRequest? && e.filters == filters
      case Err(e) => r == Err(BadListRequest(e))
  {
    if "filters" in QueryKeys(query) then Err(DuplicateFilters)
    else
      match Construct(TListRequest, QueryData(query)["filters" := VDict(filters)])
      case Err(e) => Err(BadListRequest(e))
      case Ok(e) => Ok(e)
  }

  /**
   * The `limit` and `offset` query parameters of `LimitOffsetParams`, which
   * fastapi_pagination resolves from the request for a `paginate` call without
   * parameters: 50 and 0 when omitted, integers within its bounds otherwise.
   */
  function RequestParams(query: seq<(string, string)>): (r: Option<Params>)
    ensures "limit" !in QueryKeys(query) && "offset" !in QueryKeys(query) ==> r == Some(DefaultParams)
    ensures r.Some? ==> InBounds(r.value.limit, r.value.offset)
    ensures "limit" in QueryKeys(query) ==>
      (r.Some? ==> Some(r.value.limit as int) == AsInt(QueryData(query)["limit"])) &&
      (AsInt(QueryData(query)["limit"]).None? ==> r.None?)
    ensures "offset" in QueryKeys(query) ==>
      (r.Some? ==> Some(r.value.offset as int) == AsInt(QueryData(query)["offset"])) &&
      (AsInt(QueryData(query)["offset"]).None? ==> r.None?)
  {
    var d := QueryData(query);
    var limit := if "limit" in d then AsInt(d["limit"]) else Some(DefaultParams.limit as int);
    var offset := if "offset" in d then AsInt(d["offset"]) else Some(DefaultParams.offset as int);
    if limit.Some? && offset.Some? && InBounds(limit.value, offset.value) then Some(Params(limit.value, offset.value))
    else None
  }

  /**
   * What the list route returns once the request's page parameters validate and the
   * permissions pass: the filters parsed from the query, the `ListRequest` built from the
   * query and the filters, the action called with it, and its result always paged (the
   * HTTP form) with the request's page parameters.
   */
  function ListOutcome(query: seq<(string, string)>, declared: OrderedMaps.OrderedMap<string, FilterType>,
                       convert: (TypeRef, string) -> Option<Value>, listAction: Envelope -> Value,
                       pager: (Value, Params) -> Page): (r: Result<Paginated, RouteError>)
    ensures RequestParams(query).None? ==> r == Err(BadPageParams)
    ensures RequestParams(query).Some? && "filters" in QueryKeys(query) ==> r == Err(DuplicateFilters)
    ensures r.Ok? ==> RequestParams(query).Some? && r.value.HttpPage?
  {
    match RequestParams(query)
    case None => Err(BadPageParams)
    case Some(page) =>
      match ListRequestOf(query, ParsedFilters(query, declared, convert))
      case Err(e) => Err(e)
      case Ok(schemaIn) =>
        match Paginate.Paginate(listAction(schemaIn), None, page, false, pager)
        case Err(e) => Err(PaginationFailed(e))
        case Ok(p) => Ok(p)
  }

  /**
   * A list action that returns a list is served as the page of that list cut with the
   * request's `limit` and `offset` (`?limit=2&offset=1` on five items serves the second
   * and third); a query is handed to the query paginator with those parameters; a model
   * is refused.
   */
  lemma ListOfList(query: seq<(string, string)>, declared: OrderedMaps.OrderedMap<string, FilterType>,
                   convert: (TypeRef, string) -> Option<Value>, listAction: Envelope -> Value,
                   pager: (Value, Params) -> Page)
    requires RequestParams(query).Some?
    requires ListRequestOf(query, ParsedFilters(query, declared, convert)).Ok?
    ensures var result := listAction(ListRequestOf(query, ParsedFilters(query, declared, convert)).value);
      var p := RequestParams(query).value;
      (result.VList? ==> ListOutcome(query, declared, convert, listAction, pager) ==
                          Ok(HttpPage(InMemoryPage(result.items, p)))) &&
      (result.VList? ==> ListOutcome(query, declared, convert, listAction, pager).value.page.items ==
                          Slice(result.items, p.offset, p.limit)) &&
      (!result.VList? && !result.VModel? ==>
        ListOutcome(query, declared, convert, listAction, pager) == Ok(HttpPage(pager(result, p)))) &&
      (result.VModel? ==> ListOutcome(query, declared, convert, listAction, pager) == Err(PaginationFailed(ReturnTypeError)))
  {
  }

  /**
   * The list route: validate the page parameters, store the request, check permissions,
   * parse the filters, call the action, page the result.
   */
  method ServeList(gen: RouterGenerator, resource: Resource, query: seq<(string, string)>, check: string -> bool,
                   convert: (TypeRef, string) -> Option<Value>, listAction: Envelope -> Value,
                   pager: (Value, Params) -> Page) returns (r: Result<Paginated, RouteError>)
    modifies resource
    ensures RequestParams(query).None? ==> r == Err(BadPageParams) && resource.request == old(resource.request)
    ensures RequestParams(query).Some? ==> resource.request == HttpRequest(query)
    ensures resource.context == old(resource.context) && resource.responseMessage == old(resource.responseMessage)
    ensures resource.isRpc == old(resource.isRpc) && resource.isHttp == old(resource.isHttp) && resource.auth == old(resource.auth)
    ensures RequestParams(query).Some? && (exists i :: 0 <= i < |gen.cls.permissions| && !check(gen.cls.permissions[i])) ==>
      r == Err(Denied(PermissionDenied))
    ensures (forall i :: 0 <= i < |gen.cls.permissions| ==> check(gen.cls.permissions[i])) ==>
      r == ListOutcome(query, gen.orderedFilters, convert, listAction, pager)
  {
    var pageParams := RequestParams(query);
    if pageParams.None? {
      return Err(BadPageParams);
    }
    resource.request := HttpRequest(query);
    var denied, _ := gen.CheckPermissions(check);
    if denied.Some? {
      return Err(Denied(denied.value));
    }
    var params := QueryParams(query);
    var filters := ParseFilters(params, gen.orderedFilters, convert);
    var schemaIn := ListRequestOf(query, filters);
    if schemaIn.Err? {
      return Err(schemaIn.error);
    }
    var page := Paginate.Paginate(listAction(schemaIn.value), None, pageParams.value, false, pager);
    if page.Err? {
      return Err(PaginationFailed(page.error));
    }
    return Ok(page.value);
  }

  // ---------------------------------------------------------------- get / create / update / delete

  /** The call a generic route makes on its action. */
  datatype ActionCall =
    | GetCall(pk: int)
    | CreateCall(body: Value)
    | UpdateCall(body: Value, pk: int)
    | DeleteCall(pk: int)

  /**
   * The arguments each route passes: `get` and `delete` the path id as `pk`, `create` the
   * body, `update` the body and `pk=id`.
   */
  function Forward(action: string, id: int, body: Value): (c: ActionCall)
    requires action in {"get", "create", "update", "delete"}
    ensures c.GetCall? <==> action == "get"
    ensures c.DeleteCall? <==> action == "delete"
    ensures c.CreateCall? <==> action == "create"
    ensures c.UpdateCall? <==> action == "update"
    ensures (c.GetCall? || c.UpdateCall? || c.DeleteCall?) ==> c.pk == id
    ensures (c.CreateCall? || c.UpdateCall?) ==> c.body == body
  {
    if action == "get" then GetCall(id)
    else if action == "create" then CreateCall(body)
    else if action == "update" then UpdateCall(body, id)
    else DeleteCall(id)
  }

  /** `get_`, `create_`, `update_` and `delete_`: store the request, check permissions, then call the action. */
  method ServeItem(gen: RouterGenerator, resource: Resource, request: Request, check: string -> bool,
                   action: string, id: int, body: Value) returns (r: Result<ActionCall, RouteError>)
    requires action in {"get", "create", "update", "delete"}
    modifies resource
    ensures resource.request == request
    ensures resource.context == old(resource.context) && resource.responseMessage == old(resource.responseMessage)
    ensures resource.isRpc == old(resource.isRpc) && resource.isHttp == old(resource.isHttp) && resource.auth == old(resource.auth)
    ensures r.Err? <==> exists i :: 0 <= i < |gen.cls.permissions| && !check(gen.cls.permissions[i])
    ensures r.Err? ==> r.error == Denied(PermissionDenied)
    ensures r.Ok? ==> r.value == Forward(action, id, body)
  {
    resource.request := request;
    var denied, _ := gen.CheckPermissions(check);
    if denied.Some? {
      return Err(Denied(denied.value));
    }
    return Ok(Forward(action, id, body));
  }
}

=== FILE: grpc_actions.dfy ===
/**
 * `process_rpc(resource, func)`: the request message, as a mapping, is turned into the
 * action's arguments according to the action's name, the action's result is shaped into
 * the response mapping (`{'data': ...}`, `{'result': ...}`, a page, or the custom result
 * itself), and that mapping is encoded into the response message, ignoring unknown keys.
 */
module GrpcActions {
  import opened Wrappers
  import opened Values
  import opened Actions
  import opened Envelopes
  import opened Schemas
  import opened Paginate
  import Resources

  /**
   * The schema instance built from the request mapping; `MarkerInput` is an instance of
   * `inspect.Parameter.empty`, the class an unannotated parameter carries.
   */
  datatype Input = EnvelopeInput(e: Envelope) | DeclaredInput(v: Value) | MarkerInput

  /** The arguments an action is called with (after `resource`). */
  datatype RpcCall =
    | PkCall(pk: Value)
    | InputCall(input: Input)
      /** `func(resource, resource.schema(**schema.data))` */
    | ModelCall(obj: Value)
      /** `func(resource, resource.schema(**schema.data), pk=schema.id)` */
    | ModelPkCall(obj: Value, id: int)

  datatype RpcError =
      /** `resource._request.id` on a message without an `id` field */
    | MissingId
    | NoSchema(schemaError: SchemaError)
      /** the schema resolved to None and was called */
    | NotCallable
      /** `inspect.Parameter.empty(**kwargs)` with a keyword argument: the class takes none */
    | MarkerRejected
      /** `**` applied to a `data` entry that is missing or not a mapping */
    | NotAMapping
    | InvalidInput(invalid: ValidationError)
      /** a declared schema rejected its arguments */
    | DeclaredRejected
      /** `list` returned a single model */
    | ReturnedModel
      /** `LimitOffsetParams` rejected its arguments */
    | BadParams
    | ResultNotDict(dictError: PaginateError)
      /** `resource._response_message()` with no response message */
    | NoResponseMessage

  /**
   * What `process_rpc` calls out to: the action itself, the construction of a declared
   * schema (None when validation fails), `resource.schema(**data)`, `parse_dict` with the
   * resource's schema, and the query paginator.
   */
  datatype Collaborators = Collaborators(
    action: RpcCall -> Value,
    construct: (string, Data) -> Option<Value>,
    modelSchema: Data -> Value,
    parseDict: Value -> Value,
    query: (Value, Params) -> Page)

  /**
   * `schema_in(**kwargs)` for the annotation `get_schema_in` returned: a schema validates
   * the arguments, the `empty` marker class accepts none, and a falsy annotation cannot
   * be called.
   */
  function Build(a: Annotation, kwargs: Data, env: Collaborators): (r: Result<Input, RpcError>)
    ensures a.Schema? && a.ref.Generic? ==> (r.Ok? <==> Construct(a.ref.t, kwargs).Ok?)
    ensures a.Schema? && a.ref.Generic? && r.Ok? ==> r.value == EnvelopeInput(Construct(a.ref.t, kwargs).value)
    ensures a.Schema? && a.ref.Declared? ==> (r.Ok? <==> env.construct(a.ref.name, kwargs).Some?)
    ensures a.Schema? && a.ref.Declared? && r.Ok? ==> r.value == DeclaredInput(env.construct(a.ref.name, kwargs).value)
    ensures a == Unannotated ==> (r.Ok? <==> kwargs == map[]) && (r.Ok? ==> r.value == MarkerInput)
    ensures a == Unannotated && r.Err? ==> r.error == MarkerRejected
    ensures a == Falsy ==> r == Err(NotCallable)
  {
    match a
    case Schema(Generic(t)) =>
      (match Construct(t, kwargs)
       case Err(e) => Err(InvalidInput(e))
       case Ok(e) => Ok(EnvelopeInput(e)))
    case Schema(Declared(name)) =>
      (match env.construct(name, kwargs)
       case None => Err(DeclaredRejected)
       case Some(v) => Ok(DeclaredInput(v)))
    case Unannotated => if kwargs == map[] then Ok(MarkerInput) else Err(MarkerRejected)
    case Falsy => Err(NotCallable)
  }

  /** `resource._request.id`. */
  function MessageId(message: Data): (r: Result<Value, RpcError>)
    ensures r.Ok? <==> "id" in message
    ensures r.Ok? ==> r.value == message["id"]
    ensures r.Err? ==> r.error == MissingId
  {
    if "id" in message then Ok(message["id"]) else Err(MissingId)
  }

  /**
   * `LimitOffsetParams(limit=request_data.get('limit') or 10, offset=request_data.get('offset'))`:
   * a missing or falsy limit becomes 10; both must be integers within the bounds
   * `LimitOffsetParams` validates.
   */
  function RpcParams(message: Data): (r: Option<Params>)
    ensures var limit := if "limit" in message && Truthy(message["limit"]) then message["limit"] else VInt(10);
      var offset := if "offset" in message then message["offset"] else VNone;
      (r.Some? <==> AsInt(limit).Some? && AsInt(offset).Some? && InBounds(AsInt(limit).value, AsInt(offset).value)) &&
      (r.Some? ==> r.value.limit == AsInt(limit).value && r.value.offset == AsInt(offset).value)
  {
    var limit := if "limit" in message && Truthy(message["limit"]) then message["limit"] else VInt(10);
    var offset := if "offset" in message then message["offset"] else VNone;
    match (AsInt(limit), AsInt(offset))
    case (Some(l), Some(o)) => if InBounds(l, o) then Some(Params(l, o)) else None
    case _ => None
  }

  /** A missing or zero limit is 10; a limit over 100 is rejected. */
  lemma DefaultLimit(message: Data, offset: nat)
    requires "offset" in message && message["offset"] == VInt(offset)
    ensures "limit" !in message || message["limit"] == VInt(0) ==> RpcParams(message) == Some(Params(10, offset))
    ensures "limit" in message && message["limit"] == VInt(MaxLimit + 1) ==> RpcParams(message).None?
  {
  }

  /** The `list` branch: build the request, refuse a single model, page the result with `parse_dict`. */
  function ListData(params: seq<Param>, message: Data, env: Collaborators): Result<Data, RpcError> {
    match SchemaInAsWritten(params, ListAction, true)
    case Err(e) => Err(NoSchema(e))
    case Ok(None) => Err(NotCallable)
    case Ok(Some(s)) =>
      match Build(s, message, env)
      case Err(e) => Err(e)
      case Ok(input) =>
        var result := env.action(InputCall(input));
        if result.VModel? then Err(ReturnedModel)
        else
          match RpcParams(message)
          case None => Err(BadParams)
          case Some(p) =>
            var paged := PaginateParsed(result, Some(p), DefaultParams, true, env.query, env.parseDict);
            if paged.Err? || !paged.value.RpcData? then Err(ReturnedModel)
            else Ok(paged.value.data)
  }

  /**
   * The keyword arguments of a `create`/`update` schema: anything but the generic
   * `CreateRequest` or `UpdateRequest` reads the nested `data`.
   */
  function WriteArguments(a: Annotation, message: Data): (r: Result<Data, RpcError>)
    ensures a == Schema(Generic(TCreateRequest)) || a == Schema(Generic(TUpdateRequest)) ==> r == Ok(message)
    ensures a != Schema(Generic(TCreateRequest)) && a != Schema(Generic(TUpdateRequest)) ==>
      (r.Ok? <==> "data" in message && message["data"].VDict?) &&
      (r.Ok? ==> r.value == message["data"].entries)
  {
    if a == Schema(Generic(TCreateRequest)) || a == Schema(Generic(TUpdateRequest)) then Ok(message)
    else if "data" in message && message["data"].VDict? then Ok(message["data"].entries)
    else Err(NotAMapping)
  }

  /** A generic `CreateRequest` or `UpdateRequest` hands the action a model built from its `data`. */
  function WriteCall(input: Input, env: Collaborators): (c: RpcCall)
    ensures input.EnvelopeInput? && input.e.CreateRequest? ==> c == ModelCall(env.modelSchema(input.e.data))
    ensures input.EnvelopeInput? && input.e.UpdateRequest? ==> c == ModelPkCall(env.modelSchema(input.e.data), input.e.id)
    ensures !(input.EnvelopeInput? && (input.e.CreateRequest? || input.e.UpdateRequest?)) ==> c == InputCall(input)
  {
    match input
    case EnvelopeInput(CreateRequest(data)) => ModelCall(env.modelSchema(data))
    case EnvelopeInput(UpdateRequest(id, data)) => ModelPkCall(env.modelSchema(data), id)
    case _ => InputCall(input)
  }

  /** The `create`/`update` branch. */
  function WriteData(k: ActionKind, params: seq<Param>, message: Data, env: Collaborators): Result<Data, RpcError> {
    match SchemaInAsWritten(params, k, true)
    case Err(e) => Err(NoSchema(e))
    case Ok(None) => Err(NotCallable)
    case Ok(Some(s)) =>
      match WriteArguments(s, message)
      case Err(e) => Err(e)
      case Ok(kwargs) =>
        match Build(s, kwargs, env)
        case Err(e) => Err(e)
        case Ok(input) => Ok(map["data" := env.parseDict(env.action(WriteCall(input, env)))])
  }

  /** The custom branch: an annotated schema is required; a result that is not a dict goes through `.dict()`. */
  function CustomData(k: ActionKind, params: seq<Param>, message: Data, env: Collaborators): Result<Data, RpcError> {
    match SchemaInAsWritten(params, k, false)
    case Err(e) => Err(NoSchema(e))
    case Ok(None) => Err(NotCallable)
    case Ok(Some(s)) =>
      match Build(s, message, env)
      case Err(e) => Err(e)
      case Ok(input) =>
        match ItemDict(env.action(InputCall(input)))
        case Err(e) => Err(ResultNotDict(e))
        case Ok(d) => Ok(d.entries)
  }

  /** `response_data`, by the action's name. */
  function ResponseData(k: ActionKind, params: seq<Param>, message: Data, env: Collaborators): (r: Result<Data, RpcError>)
    ensures k == GetAction || k == DeleteAction ==> (r.Ok? <==> "id" in message) && (r.Err? ==> r.error == MissingId)
    ensures k == GetAction && r.Ok? ==> r.value.Keys == {"data"}
    ensures k == DeleteAction && r.Ok? ==> r.value.Keys == {"result"}
    ensures (k == CreateAction || k == UpdateAction) && r.Ok? ==> r.value.Keys == {"data"}
    ensures r.Err? && r.error.NoSchema? ==> r.error.schemaError == ArgumentsError || k.CustomAction?
  {
    match k
    case GetAction =>
      (match MessageId(message)
       case Err(e) => Err(e)
       case Ok(pk) => Ok(map["data" := env.parseDict(env.action(PkCall(pk)))]))
    case ListAction => ListData(params, message, env)
    case CreateAction => WriteData(k, params, message, env)
    case UpdateAction => WriteData(k, params, message, env)
    case DeleteAction =>
      (match MessageId(message)
       case Err(e) => Err(e)
       case Ok(pk) => Ok(map["result" := VBool(Truthy(env.action(PkCall(pk))))]))
    case CustomAction(_) => CustomData(k, params, message, env)
  }

  /** A response message: its type and the fields set on it. */
  datatype Reply = Reply(message: EnvelopeType, fields: Data)

  /** `ParseDict(response_data, resource._response_message(), ignore_unknown_fields=True)`. */
  function Encode(data: Data, response: Option<EnvelopeType>): (r: Result<Reply, RpcError>)
    ensures response.None? <==> r == Err(NoResponseMessage)
    ensures response.Some? ==> r.Ok? && r.value.message == response.value
    ensures response.Some? ==> forall f :: f in r.value.fields <==> f in data && f in Fields(response.value)
    ensures response.Some? ==> forall f :: f in r.value.fields ==> r.value.fields[f] == data[f]
  {
    match response
    case None => Err(NoResponseMessage)
    case Some(t) => Ok(Reply(t, map f | f in data && f in Fields(t) :: data[f]))
  }

  /** `process_rpc`. */
  function ProcessRpc(k: ActionKind, params: seq<Param>, message: Data, response: Option<EnvelopeType>,
                      env: Collaborators): Result<Reply, RpcError>
  {
    match ResponseData(k, params, message, env)
    case Err(e) => Err(e)
    case Ok(data) => Encode(data, response)
  }

  /** `get` calls the action with the message's id and answers `{'data': parse_dict(result)}`. */
  lemma GetResponds(params: seq<Param>, message: Data, env: Collaborators)
    ensures "id" !in message ==> ProcessRpc(GetAction, params, message, Some(TItemResponse), env) == Err(MissingId)
    ensures "id" in message ==>
      ProcessRpc(GetAction, params, message, Some(TItemResponse), env) ==
      Ok(Reply(TItemResponse, map["data" := env.parseDict(env.action(PkCall(message["id"])))]))
  {
    if "id" in message {
      var d := map["data" := env.parseDict(env.action(PkCall(message["id"])))];
      assert Encode(d, Some(TItemResponse)).value.fields == d;
    }
  }

  /** `delete` calls the action with the message's id and answers `{'result': bool(result)}`. */
  lemma DeleteResponds(params: seq<Param>, message: Data, env: Collaborators)
    ensures "id" !in message ==> ProcessRpc(DeleteAction, params, message, Some(TResultResponse), env) == Err(MissingId)
    ensures "id" in message ==>
      ProcessRpc(DeleteAction, params, message, Some(TResultResponse), env) ==
      Ok(Reply(TResultResponse, map["result" := VBool(Truthy(env.action(PkCall(message["id"]))))]))
  {
    if "id" in message {
      var d := map["result" := VBool(Truthy(env.action(PkCall(message["id"]))))];
      assert Encode(d, Some(TResultResponse)).value.fields == d;
    }
  }

  /**
   * `list` with the generic `ListRequest` (annotated, or by default for a falsy
   * annotation): a single model is refused; otherwise the reply holds `count`, the total,
   * and `data`, each item of the page through `parse_dict`.
   */
  lemma ListResponds(params: seq<Param>, message: Data, env: Collaborators)
    requires SchemaInAsWritten(params, ListAction, true) == Ok(Some(Schema(Generic(TListRequest))))
    requires Construct(TListRequest, message).Ok?
    ensures var result := env.action(InputCall(EnvelopeInput(Construct(TListRequest, message).value)));
      var r := ProcessRpc(ListAction, params, message, Some(TListResponse), env);
      (result.VModel? ==> r == Err(ReturnedModel)) &&
      (!result.VModel? && RpcParams(message).None? ==> r == Err(BadParams)) &&
      (!result.VModel? && RpcParams(message).Some? ==>
        var pg := PageOf(result, RpcParams(message), DefaultParams, env.query).value;
        r.Ok? && r.value.message == TListResponse &&
        r.value.fields.Keys == {"data", "count"} && r.value.fields["count"] == VInt(pg.total) &&
        r.value.fields["data"] == VList(seq(|pg.items|, i requires 0 <= i < |pg.items| => env.parseDict(pg.items[i]))))
  {
    var input := EnvelopeInput(Construct(TListRequest, message).value);
    assert Build(Schema(Generic(TListRequest)), message, env) == Ok(input);
    var result := env.action(InputCall(input));
    assert ResponseData(ListAction, params, message, env) == ListData(params, message, env);
    if !result.VModel? && RpcParams(message).Some? {
      var pg := PageOf(result, RpcParams(message), DefaultParams, env.query).value;
      var parsed := seq(|pg.items|, i requires 0 <= i < |pg.items| => env.parseDict(pg.items[i]));
      PaginateParsedShape(result, RpcParams(message), DefaultParams, true, env.query, env.parseDict);
      var d := PaginateParsed(result, RpcParams(message), DefaultParams, true, env.query, env.parseDict).value.data;
      assert d["data"] == VList(parsed);
      assert ListData(params, message, env) == Ok(d);
      ListReply(d, pg.total, parsed);
    }
  }

  /** A mapping with `count` and `data` encodes into a `ListResponse` holding just those two. */
  lemma ListReply(data: Data, total: int, items: seq<Value>)
    requires "count" in data && "data" in data && data["count"] == VInt(total) && data["data"] == VList(items)
    ensures var r := Encode(data, Some(TListResponse));
      r.Ok? && r.value.message == TListResponse && r.value.fields.Keys == {"data", "count"} &&
      r.value.fields["count"] == VInt(total) && r.value.fields["data"] == VList(items)
  {
    var r := Encode(data, Some(TListResponse));
    assert forall f :: f in Fields(TListResponse) <==> f == "data" || f == "count";
    assert r.value.fields.Keys == {"data", "count"};
  }

  /**
   * `create`/`update` with a declared schema build it from the nested `data` and pass the
   * instance itself; a generic `CreateRequest` passes a model of its `data`.
   */
  lemma WriteResponds(k: ActionKind, params: seq<Param>, message: Data, env: Collaborators)
    requires k == CreateAction || k == UpdateAction
    ensures (SchemaInAsWritten(params, k, true) == Ok(Some(Schema(Generic(TCreateRequest)))) &&
             Construct(TCreateRequest, message).Ok?) ==>
      ResponseData(k, params, message, env) ==
        Ok(map["data" := env.parseDict(env.action(ModelCall(env.modelSchema(Construct(TCreateRequest, message).value.data))))])
    ensures forall name :: SchemaInAsWritten(params, k, true) == Ok(Some(Schema(Declared(name)))) ==>
      (ResponseData(k, params, message, env).Ok? <==>
        "data" in message && message["data"].VDict? && env.construct(name, message["data"].entries).Some?) &&
      (ResponseData(k, params, message, env).Ok? ==>
        ResponseData(k, params, message, env).value ==
          map["data" := env.parseDict(env.action(InputCall(DeclaredInput(env.construct(name, message["data"].entries).value))))])
  {
  }

  /** A custom action answers with its result as a mapping, a model through `.dict()`. */
  lemma CustomResponds(name: string, params: seq<Param>, message: Data, env: Collaborators, a: Annotation)
    requires name !in GenericActionNames
    requires SchemaInAsWritten(params, CustomAction(name), false) == Ok(Some(a))
    requires Build(a, message, env).Ok?
    ensures var result := env.action(InputCall(Build(a, message, env).value));
      (result.VDict? ==> ResponseData(CustomAction(name), params, message, env) == Ok(result.entries)) &&
      (result.VModel? ==> ResponseData(CustomAction(name), params, message, env) == Ok(result.fields)) &&
      (!result.VDict? && !result.VModel? ==> ResponseData(CustomAction(name), params, message, env) == Err(ResultNotDict(NoDictMethod)))
  {
  }

  /** A custom action whose schema parameter has a falsy annotation is refused before the action runs. */
  lemma CustomNeedsAnnotation(name: string, params: seq<Param>, message: Data, env: Collaborators)
    requires Selected(params).Some? && params[Selected(params).value].annotation == Falsy
    ensures ResponseData(CustomAction(name), params, message, env) == Err(NoSchema(CustomActionNeedsAnnotation))
  {
  }

  /**
   * An unannotated schema parameter (`def recents(self, schema_in)`) makes `list` and a
   * custom action call `inspect.Parameter.empty(**request_data)`: any field in the
   * request raises before the action runs, and an empty request runs the action on an
   * `empty` instance.
   */
  lemma UnannotatedCallsMarker(k: ActionKind, params: seq<Param>, message: Data, env: Collaborators)
    requires k == ListAction || k.CustomAction?
    requires Selected(params).Some? && params[Selected(params).value].annotation == Unannotated
    ensures message != map[] ==> ResponseData(k, params, message, env) == Err(MarkerRejected)
    ensures message == map[] && k.CustomAction? ==>
      var result := env.action(InputCall(MarkerInput));
      ResponseData(k, params, message, env) == match ItemDict(result)
        case Err(e) => Err(ResultNotDict(e))
        case Ok(d) => Ok(d.entries)
    ensures message == map[] && k == ListAction && env.action(InputCall(MarkerInput)).VModel? ==>
      ResponseData(k, params, message, env) == Err(ReturnedModel)
  {
  }

  /**
   * An unannotated `create`/`update` schema parameter reads the nested `data` and calls
   * `inspect.Parameter.empty(**data)`: only an empty `data` mapping reaches the action.
   */
  lemma UnannotatedWrite(k: ActionKind, params: seq<Param>, message: Data, env: Collaborators)
    requires k == CreateAction || k == UpdateAction
    requires Selected(params).Some? && params[Selected(params).value].annotation == Unannotated
    ensures ResponseData(k, params, message, env).Ok? <==> "data" in message && message["data"] == VDict(map[])
    ensures ResponseData(k, params, message, env).Ok? ==>
      ResponseData(k, params, message, env).value == map["data" := env.parseDict(env.action(InputCall(MarkerInput)))]
  {
  }

  /**
   * The servicer generator gives custom actions no response message, so a custom action
   * served over RPC never produces a reply: it fails on its input or on encoding.
   */
  lemma CustomActionsNeverReply(name: string, params: seq<Param>, message: Data, env: Collaborators)
    requires name !in GenericActionNames
    ensures ProcessRpc(CustomAction(name), params, message, Resources.ResponseType(name), env).Err?
  {
  }
}

=== FILE: naming.dfy ===
/**
 * Small naming helpers: the English pluralisation rule used for endpoints and RPC
 * method names, the `singleton` class decorator, the lookup of a generated
 * `add_..._to_server` function, and stand-ins for the case-conversion libraries.
 */
module Naming {
  import opened Wrappers
  import opened Strings

  /** Letters that, before a final `h`, keep the plural at `+s` (`-ch`, `-sh` take `es`). */
  const SoftBeforeH: string := "aeioudgkprt"
  const Vowels: string := "aeiou"

  predicate EndsInSibilant(noun: string) {
    |noun| >= 1 && noun[|noun| - 1] in "sxz"
  }

  /** `[^aeioudgkprt]h$` */
  predicate EndsInHardH(noun: string) {
    |noun| >= 2 && noun[|noun| - 1] == 'h' && noun[|noun| - 2] !in SoftBeforeH
  }

  /** `[aeiou]y$` */
  predicate EndsInVowelY(noun: string) {
    |noun| >= 2 && noun[|noun| - 1] == 'y' && noun[|noun| - 2] in Vowels
  }

  /** `[^aeiou]y$` */
  predicate EndsInConsonantY(noun: string) {
    |noun| >= 2 && noun[|noun| - 1] == 'y' && noun[|noun| - 2] !in Vowels
  }

  /** `pluralize(noun)` as written, with the vowel-`y` rule. */
  function PluralizeAsWritten(noun: string): (r: string)
    ensures |r| > |noun| && EndsWith(r, "s")
    ensures noun != [] ==> StartsWith(r, noun[..|noun| - 1])
  {
    if EndsInSibilant(noun) then noun + "es"
    else if EndsInHardH(noun) then noun + "es"
    else if EndsInVowelY(noun) then noun[..|noun| - 1] + "ies"
    else noun + "s"
  }

  /**
   * The rule as written and the intended one part only on nouns ending in `y`:
   * there one gives `ies` where the other gives `s`.
   */
  lemma AsWrittenDiffersOnlyAtY(noun: string)
    ensures PluralizeAsWritten(noun) != Pluralize(noun) <==> |noun| >= 2 && noun[|noun| - 1] == 'y'
    ensures |noun| >= 2 && noun[|noun| - 1] == 'y' ==>
      {PluralizeAsWritten(noun), Pluralize(noun)} == {noun + "s", noun[..|noun| - 1] + "ies"}
  {
    var n := |noun|;
    if n >= 2 && noun[n - 1] == 'y' {
      assert |noun + "s"| != |noun[..n - 1] + "ies"|;
    }
  }

  /** As written, a consonant-`y` noun only gains an `s` and a vowel-`y` noun trades the `y` for `ies`. */
  lemma PluralAsWrittenAtY(noun: string)
    ensures EndsInConsonantY(noun) ==> PluralizeAsWritten(noun) == noun + "s"
    ensures EndsInVowelY(noun) ==> PluralizeAsWritten(noun) == noun[..|noun| - 1] + "ies"
  {
  }

  /** The rule as written turns `day` into `daies` and leaves `city` as `citys`. */
  lemma VowelYRuleIsInverted()
    ensures PluralizeAsWritten("day") == "daies"
    ensures PluralizeAsWritten("city") == "citys"
    ensures Pluralize("day") == "days"
    ensures Pluralize("city") == "cities"
  {
  }

  /** `pluralize(noun)` with the consonant-`y` rule the pattern was meant to express. */
  function Pluralize(noun: string): (r: string)
    ensures |r| > |noun| && EndsWith(r, "s")
    ensures noun != [] ==> StartsWith(r, noun[..|noun| - 1])
  {
    if EndsInSibilant(noun) then noun + "es"
    else if EndsInHardH(noun) then noun + "es"
    else if EndsInConsonantY(noun) then noun[..|noun| - 1] + "ies"
    else noun + "s"
  }

  /** The noun without its last letter. */
  function Stem(noun: string): string {
    if noun == [] then [] else noun[..|noun| - 1]
  }

  /** `es` exactly after s/x/z or a hard `h`. */
  lemma PluralEs(noun: string)
    ensures Pluralize(noun) == noun + "es" <==> EndsInSibilant(noun) || EndsInHardH(noun)
  {
    var n := |noun|;
    if !(EndsInSibilant(noun) || EndsInHardH(noun)) && EndsInConsonantY(noun) {
      var es, ies := noun + "es", Stem(noun) + "ies";
      assert ies[n - 1] == 'i' && es[n - 1] == 'y';
    }
  }

  /** `ies` in place of the `y` exactly after a consonant-`y` that no earlier rule took. */
  lemma PluralIes(noun: string)
    ensures Pluralize(noun) == Stem(noun) + "ies" <==>
      !EndsInSibilant(noun) && !EndsInHardH(noun) && EndsInConsonantY(noun)
  {
    var n := |noun|;
    var es, ies, s := noun + "es", Stem(noun) + "ies", noun + "s";
    if EndsInSibilant(noun) || EndsInHardH(noun) {
      assert es[n - 1] == noun[n - 1] && noun[n - 1] != 'i' && ies[n - 1] == 'i';
    } else if !EndsInConsonantY(noun) {
      assert |s| != |ies|;
    }
  }

  /** A plain `s` for every other noun. */
  lemma PluralS(noun: string)
    ensures Pluralize(noun) == noun + "s" <==>
      !EndsInSibilant(noun) && !EndsInHardH(noun) && !EndsInConsonantY(noun)
  {
    var n := |noun|;
    var es, ies, s := noun + "es", Stem(noun) + "ies", noun + "s";
    if EndsInSibilant(noun) || EndsInHardH(noun) {
      assert |es| != |s|;
    } else if EndsInConsonantY(noun) {
      assert |ies| != |s|;
    }
  }

  /** `snake` is `camel` with an underscore before each inner capital, all lower-cased. */
  function Decamelize(camel: string): (snake: string)
    ensures |snake| >= |camel|
  {
    if camel == [] then [] else [LowerChar(camel[0])] + DecamelizeAfter(camel[0], camel[1..])
  }

  /** The decamelized letters of `s`, which follows the letter `prev`. */
  function DecamelizeAfter(prev: char, s: string): (snake: string)
    ensures |snake| >= |s|
    decreases |s|
  {
    if s == [] then []
    else (if Boundary(prev, s[0]) then "_" else "") + [LowerChar(s[0])] + DecamelizeAfter(s[0], s[1..])
  }

  /** A lower-case letter or a digit followed by a capital: where `decamelize` puts an underscore. */
  predicate Boundary(prev: char, c: char) {
    (IsLower(prev) || IsDigit(prev)) && IsUpper(c)
  }

  /** Decamelizing two pieces one after the other: the second piece follows the last letter of the first. */
  lemma {:induction false} AfterAppend(prev: char, x: string, b: string)
    ensures DecamelizeAfter(prev, x + b) ==
      DecamelizeAfter(prev, x) + DecamelizeAfter(if x == [] then prev else x[|x| - 1], b)
    decreases |x|
  {
    if x == [] {
      assert x + b == b;
    } else {
      assert (x + b)[0] == x[0] && (x + b)[1..] == x[1..] + b;
      AfterAppend(x[0], x[1..], b);
      var sep: string := if Boundary(prev, x[0]) then "_" else "";
      var p, q := DecamelizeAfter(x[0], x[1..]), DecamelizeAfter(x[|x| - 1], b);
      assert sep + [LowerChar(x[0])] + (p + q) == (sep + [LowerChar(x[0])] + p) + q;
    }
  }

  /** Lower-case letters after any letter are only copied. */
  lemma {:induction false} AfterLowerCase(prev: char, s: string)
    requires forall i :: 0 <= i < |s| ==> IsLower(s[i])
    ensures DecamelizeAfter(prev, s) == Lower(s)
    decreases |s|
  {
    if s != [] {
      assert !IsUpper(s[0]);
      assert forall i :: 0 <= i < |s[1..]| ==> s[1..][i] == s[i + 1];
      AfterLowerCase(s[0], s[1..]);
    }
  }

  /** A capitalised word of at least two letters: `Greeter`, `Multi`, `Action`. */
  predicate CapitalWord(w: string) {
    |w| >= 2 && IsUpper(w[0]) && forall i :: 1 <= i < |w| ==> IsLower(w[i])
  }

  function Concat(ws: seq<string>): string {
    if ws == [] then [] else ws[0] + Concat(ws[1..])
  }

  function LowerWords(ws: seq<string>): (ls: seq<string>)
    ensures |ls| == |ws| && forall i :: 0 <= i < |ws| ==> ls[i] == Lower(ws[i])
  {
    seq(|ws|, i requires 0 <= i < |ws| => Lower(ws[i]))
  }

  /** A single capitalised word is only lower-cased. */
  lemma DecamelizeWord(w: string)
    requires |w| >= 1 && IsUpper(w[0]) && forall i :: 1 <= i < |w| ==> IsLower(w[i])
    ensures Decamelize(w) == Lower(w)
  {
    assert forall i :: 0 <= i < |w[1..]| ==> w[1..][i] == w[i + 1];
    AfterLowerCase(w[0], w[1..]);
  }

  /** Gluing a camel-case tail after a lower-case letter puts one underscore at the seam. */
  lemma DecamelizeSeam(w: string, b: string)
    requires w != [] && IsLower(w[|w| - 1])
    requires b != [] && IsUpper(b[0])
    ensures Decamelize(w + b) == Decamelize(w) + "_" + Decamelize(b)
  {
    SeamHead(w, b);
    SeamMiddle(w, b);
    SeamTail(w[|w| - 1], b);
    SeqAssoc([LowerChar(w[0])], DecamelizeAfter(w[0], w[1..]), "_", Decamelize(b));
  }

  /** The first letter of the glued word is the first letter of `w`. */
  lemma SeamHead(w: string, b: string)
    requires w != []
    ensures Decamelize(w + b) == [LowerChar(w[0])] + DecamelizeAfter(w[0], w[1..] + b)
    ensures Decamelize(w) == [LowerChar(w[0])] + DecamelizeAfter(w[0], w[1..])
  {
    assert (w + b)[0] == w[0] && (w + b)[1..] == w[1..] + b;
  }

  /** The letters of `b` follow the last letter of `w`. */
  lemma SeamMiddle(w: string, b: string)
    requires w != []
    ensures DecamelizeAfter(w[0], w[1..] + b) == DecamelizeAfter(w[0], w[1..]) + DecamelizeAfter(w[|w| - 1], b)
  {
    var x := w[1..];
    AfterAppend(w[0], x, b);
    assert (if x == [] then w[0] else x[|x| - 1]) == w[|w| - 1];
  }

  /** A capital after a lower-case letter starts with an underscore. */
  lemma SeamTail(c: char, b: string)
    requires IsLower(c) && b != [] && IsUpper(b[0])
    ensures DecamelizeAfter(c, b) == "_" + Decamelize(b)
  {
    assert Boundary(c, b[0]);
  }

  lemma SeqAssoc(a: string, b: string, c: string, d: string)
    ensures a + (b + (c + d)) == (a + b) + c + d
  {
  }

  /** Capitalised words run together decamelize to the lower-cased words joined by `_`. */
  lemma {:induction false} DecamelizeWords(ws: seq<string>)
    requires |ws| >= 1 && forall i :: 0 <= i < |ws| ==> CapitalWord(ws[i])
    ensures Decamelize(Concat(ws)) == Join(LowerWords(ws), "_")
    decreases |ws|
  {
    DecamelizeWord(ws[0]);
    if |ws| > 1 {
      var rest := Concat(ws[1..]);
      assert rest == ws[1] + Concat(ws[2..]);
      assert Concat(ws) == ws[0] + rest;
      assert rest[0] == ws[1][0];
      DecamelizeSeam(ws[0], rest);
      DecamelizeWords(ws[1..]);
      assert LowerWords(ws)[1..] == LowerWords(ws[1..]);
      assert Join(LowerWords(ws), "_") == Lower(ws[0]) + "_" + Join(LowerWords(ws[1..]), "_");
    } else {
      assert Concat(ws[1..]) == [];
      assert Concat(ws) == ws[0];
      assert Join(LowerWords(ws), "_") == LowerWords(ws)[0] == Lower(ws[0]);
    }
  }

  /** The first letter upper-cased, the rest kept: what `pascalize` does to each word. */
  function CapitalizeFirst(w: string): (r: string)
    ensures |r| == |w| && (w != [] ==> r[0] == UpperChar(w[0]) && r[1..] == w[1..])
  {
    if w == [] then [] else [UpperChar(w[0])] + w[1..]
  }

  /** `humps.pascalize`: the `_`-separated words, each with its first letter upper-cased, run together. */
  function Pascalize(snake: string): string {
    Concat(CapitalizeAll(Split(snake, '_')))
  }

  function CapitalizeAll(ws: seq<string>): (cs: seq<string>)
    ensures |cs| == |ws| && forall i :: 0 <= i < |ws| ==> cs[i] == CapitalizeFirst(ws[i])
  {
    seq(|ws|, i requires 0 <= i < |ws| => CapitalizeFirst(ws[i]))
  }

  /** Snake-case words come back capitalised and run together; a name without `_` only gains a capital. */
  lemma PascalizeWords(ws: seq<string>)
    requires |ws| >= 1 && forall i :: 0 <= i < |ws| ==> '_' !in ws[i]
    ensures Pascalize(Join(ws, "_")) == Concat(CapitalizeAll(ws))
    ensures |ws| == 1 ==> Pascalize(ws[0]) == CapitalizeFirst(ws[0])
  {
    SplitJoin(ws, '_');
    if |ws| == 1 {
      assert CapitalizeAll(ws) == [CapitalizeFirst(ws[0])];
    }
  }

  /** `^add_.*_to_server$`: `.` stops at a newline, and `$` also matches before a final newline. */
  predicate IsAdderName(name: string) {
    |name| >= 14 && StartsWith(name, "add_") && EndsWith(name, "_to_server") &&
    '\n' !in name[4..|name| - 10]
  }

  predicate MatchesAdderPattern(name: string) {
    IsAdderName(name) || (|name| > 0 && name[|name| - 1] == '\n' && IsAdderName(name[..|name| - 1]))
  }

  /**
   * `get_service_adder(module)`: the first attribute name, in `dir()` order, that matches
   * the adder pattern, or None when there is none.
   */
  method GetServiceAdder(names: seq<string>) returns (r: Option<string>)
    ensures r.Some? ==> exists i :: (0 <= i < |names| && names[i] == r.value && MatchesAdderPattern(names[i]) &&
                                     forall j :: 0 <= j < i ==> !MatchesAdderPattern(names[j]))
    ensures r.None? ==> forall i :: 0 <= i < |names| ==> !MatchesAdderPattern(names[i])
  {
    var i := 0;
    while i < |names|
      invariant 0 <= i <= |names|
      invariant forall j :: 0 <= j < i ==> !MatchesAdderPattern(names[j])
    {
      if MatchesAdderPattern(names[i]) {
        return Some(names[i]);
      }
      i := i + 1;
    }
    return None;
  }

  /** An object built by a decorated class, with the arguments of its construction. */
  datatype Instance = Instance(cls: string, args: seq<string>)

  /**
   * `singleton(cls)`: the returned `inner` keeps the one instance of `cls` in a closure
   * dictionary; the first call constructs it, every later call returns it unchanged.
   */
  class Singleton {
    const cls: string
    var instance: Option<Instance>

    constructor (cls: string)
      ensures this.cls == cls && instance == None
    {
      this.cls := cls;
      instance := None;
    }

    /** `inner(*args)`. */
    method Call(args: seq<string>) returns (obj: Instance)
      modifies this
      ensures old(instance).Some? ==> obj == old(instance).value && instance == old(instance)
      ensures old(instance).None? ==> obj == Instance(cls, args) && instance == Some(obj)
    {
      if instance.None? {
        instance := Some(Instance(cls, args));
      }
      obj := instance.value;
    }
  }

  /** Two calls with different arguments give the instance built by the first. */
  method SingletonKeepsFirst(cls: string, first: seq<string>, second: seq<string>) returns (a: Instance, b: Instance)
    ensures a == b == Instance(cls, first)
  {
    var s := new Singleton(cls);
    a := s.Call(first);
    b := s.Call(second);
  }
}

=== FILE: operators.dfy ===
/**
 * The Django-style filter translator: a key `field` or `field__operator` paired with a
 * value becomes a predicate on the model's column `field`; a key `-field` or `field`
 * becomes a descending or ascending ordering. Predicates are kept as data (not SQL).
 */
module Operators {
  import opened Wrappers
  import opened Strings
  import opened Values

  const OperatorSplitter: string := "__"
  const Reverser: char := '-'

  datatype Cmp = Eq | Ne | Gt | Ge | Lt | Le
  datatype DatePart = Year | Month | Day

  /** The operators of the closed `OPERATORS` table. */
  datatype Op =
    | IsNullOp | Exact | NotEqual | Greater | GreaterEq | Less | LessEq
    | InOp | NotInOp | BetweenOp
    | LikeOp | ILikeOp | StartsWithOp | IStartsWithOp | EndsWithOp | IEndsWithOp | ContainsOp
    | DateOp(part: DatePart, cmp: Cmp)

  /** A LIKE pattern: the value itself, or `'%{v}%'` built from the text of any value. */
  datatype Pattern = Literal(v: Value) | Surrounded(v: Value)

  /** The predicate an operator builds on a column. */
  datatype Predicate =
    | IsNull(col: string, isNull: bool)
    | Compare(col: string, cmp: Cmp, v: Value)
    | In(col: string, v: Value)
    | NotIn(col: string, v: Value)
    | Between(col: string, lo: Value, hi: Value)
    | Like(col: string, pattern: Pattern, caseInsensitive: bool)
    | HasPrefix(col: string, v: Value)
    | HasSuffix(col: string, v: Value)
    | DatePartCmp(part: DatePart, cmp: Cmp, col: string, v: Value)

  datatype Direction = Asc | Desc
  datatype OrderBy = OrderBy(dir: Direction, col: string)

  /** The model class handed to the translator: whether it is callable, and its attributes. */
  datatype Model = Model(callable: bool, attrs: set<string>)

  datatype FilterError =
    | OperatorModelError
      /** KeyError naming the whole expression and the unknown operator */
    | UnknownOperator(expression: string, op: string)
      /** AttributeError from `getattr(cls, name)` */
    | NoSuchAttribute(name: string)
      /** TypeError or IndexError raised by the operator on this value */
    | BadValue(expression: string)

  /** The key of a date-part operator: the part's name, then `_ne`, `_gt`, `_ge`, `_lt`, `_le` or nothing. */
  function DateOpName(p: DatePart, c: Cmp): string {
    match (p, c)
    case (Year, Eq) => "year"
    case (Year, Ne) => "year_ne"
    case (Year, Gt) => "year_gt"
    case (Year, Ge) => "year_ge"
    case (Year, Lt) => "year_lt"
    case (Year, Le) => "year_le"
    case (Month, Eq) => "month"
    case (Month, Ne) => "month_ne"
    case (Month, Gt) => "month_gt"
    case (Month, Ge) => "month_ge"
    case (Month, Lt) => "month_lt"
    case (Month, Le) => "month_le"
    case (Day, Eq) => "day"
    case (Day, Ne) => "day_ne"
    case (Day, Gt) => "day_gt"
    case (Day, Ge) => "day_ge"
    case (Day, Lt) => "day_lt"
    case (Day, Le) => "day_le"
  }

  /** The key of each operator in the `OPERATORS` table. */
  function OpName(op: Op): string {
    match op
    case IsNullOp => "isnull"
    case Exact => "exact"
    case NotEqual => "ne"
    case Greater => "gt"
    case GreaterEq => "gte"
    case Less => "lt"
    case LessEq => "lte"
    case InOp => "in"
    case NotInOp => "notin"
    case BetweenOp => "between"
    case LikeOp => "like"
    case ILikeOp => "ilike"
    case StartsWithOp => "startswith"
    case IStartsWithOp => "istartswith"
    case EndsWithOp => "endswith"
    case IEndsWithOp => "iendswith"
    case ContainsOp => "contains"
    case DateOp(p, c) => DateOpName(p, c)
  }

  /** `OPERATORS.get(name)`: the table lookup; the table is keyed by name, so an operator is found only under its own name. */
  function OperatorNamed(name: string): (r: Option<Op>)
    ensures r.Some? ==> OpName(r.value) == name
  {
    if name == "isnull" then Some(IsNullOp)
    else if name == "exact" then Some(Exact)
    else if name == "ne" then Some(NotEqual)
    else if name == "gt" then Some(Greater)
    else if name == "gte" then Some(GreaterEq)
    else if name == "lt" then Some(Less)
    else if name == "lte" then Some(LessEq)
    else if name == "in" then Some(InOp)
    else if name == "notin" then Some(NotInOp)
    else if name == "between" then Some(BetweenOp)
    else if name == "like" then Some(LikeOp)
    else if name == "ilike" then Some(ILikeOp)
    else if name == "startswith" then Some(StartsWithOp)
    else if name == "istartswith" then Some(IStartsWithOp)
    else if name == "endswith" then Some(EndsWithOp)
    else if name == "iendswith" then Some(IEndsWithOp)
    else if name == "contains" then Some(ContainsOp)
    else if name == "year" then Some(DateOp(Year, Eq))
    else if name == "year_ne" then Some(DateOp(Year, Ne))
    else if name == "year_gt" then Some(DateOp(Year, Gt))
    else if name == "year_ge" then Some(DateOp(Year, Ge))
    else if name == "year_lt" then Some(DateOp(Year, Lt))
    else if name == "year_le" then Some(DateOp(Year, Le))
    else if name == "month" then Some(DateOp(Month, Eq))
    else if name == "month_ne" then Some(DateOp(Month, Ne))
    else if name == "month_gt" then Some(DateOp(Month, Gt))
    else if name == "month_ge" then Some(DateOp(Month, Ge))
    else if name == "month_lt" then Some(DateOp(Month, Lt))
    else if name == "month_le" then Some(DateOp(Month, Le))
    else if name == "day" then Some(DateOp(Day, Eq))
    else if name == "day_ne" then Some(DateOp(Day, Ne))
    else if name == "day_gt" then Some(DateOp(Day, Gt))
    else if name == "day_ge" then Some(DateOp(Day, Ge))
    else if name == "day_lt" then Some(DateOp(Day, Lt))
    else if name == "day_le" then Some(DateOp(Day, Le))
    else None
  }

  /** Every operator is found in the table under its own name. */
  lemma OperatorFoundByName(op: Op)
    ensures OperatorNamed(OpName(op)) == Some(op)
  {
    if op.DateOp? {
      DateOperatorFound(op.part, op.cmp);
    }
  }

  /** Every date operator is found in the table under its own name. */
  lemma DateOperatorFound(p: DatePart, c: Cmp)
    ensures OperatorNamed(DateOpName(p, c)) == Some(DateOp(p, c))
  {
    match p {
      case Year => YearOperatorFound(c);
      case Month => MonthOperatorFound(c);
      case Day => DayOperatorFound(c);
    }
  }

  lemma YearOperatorFound(c: Cmp)
    ensures OperatorNamed(DateOpName(Year, c)) == Some(DateOp(Year, c))
  {
    match c { case Eq => case Ne => case Gt => case Ge => case Lt => case Le => }
  }

  lemma MonthOperatorFound(c: Cmp)
    ensures OperatorNamed(DateOpName(Month, c)) == Some(DateOp(Month, c))
  {
    match c { case Eq => case Ne => case Gt => case Ge => case Lt => case Le => }
  }

  lemma DayOperatorFound(c: Cmp)
    ensures OperatorNamed(DateOpName(Day, c)) == Some(DateOp(Day, c))
  {
    match c { case Eq => case Ne => case Gt => case Ge => case Lt => case Le => }
  }

  /** Python's `v[k]` on an indexable value (a list, or a string giving one character). */
  function ItemAt(v: Value, k: nat): Option<Value> {
    match v
    case VList(items) => if k < |items| then Some(items[k]) else None
    case VStr(s) => if k < |s| then Some(VStr([s[k]])) else None
    case _ => None
  }

  /** Applying an operator of the table to a column and a value: `OPERATORS[op](column, value)`. */
  function Apply(op: Op, col: string, v: Value): Option<Predicate> {
    match op
    case IsNullOp => Some(IsNull(col, Truthy(v)))
    case Exact => Some(Compare(col, Eq, v))
    case NotEqual => Some(Compare(col, Ne, v))
    case Greater => Some(Compare(col, Gt, v))
    case GreaterEq => Some(Compare(col, Ge, v))
    case Less => Some(Compare(col, Lt, v))
    case LessEq => Some(Compare(col, Le, v))
    case InOp => Some(In(col, v))
    case NotInOp => Some(NotIn(col, v))
    case BetweenOp =>
      (match (ItemAt(v, 0), ItemAt(v, 1))
       case (Some(lo), Some(hi)) => Some(Between(col, lo, hi))
       case _ => None)
    case LikeOp => Some(Like(col, Literal(v), false))
    case ILikeOp => Some(Like(col, Literal(v), true))
    case StartsWithOp => Some(HasPrefix(col, v))
    case IStartsWithOp => if v.VStr? then Some(Like(col, Literal(VStr(v.s + "%")), true)) else None
    case EndsWithOp => Some(HasSuffix(col, v))
    case IEndsWithOp => if v.VStr? then Some(Like(col, Literal(VStr("%" + v.s)), true)) else None
    case ContainsOp => Some(Like(col, Surrounded(v), true))
    case DateOp(p, c) => Some(DatePartCmp(p, c, col, v))
  }

  /** The largest index below `k` at which `pat` occurs in `s`. */
  function LastOccurrenceBelow(s: string, pat: string, k: nat): (r: Option<nat>)
    ensures r.Some? ==> r.value < k && OccursAt(s, pat, r.value)
    ensures r.Some? ==> forall j :: r.value < j < k ==> !OccursAt(s, pat, j)
    ensures r.None? ==> forall j :: 0 <= j < k ==> !OccursAt(s, pat, j)
    decreases k
  {
    if k == 0 then None
    else if OccursAt(s, pat, k - 1) then Some(k - 1)
    else LastOccurrenceBelow(s, pat, k - 1)
  }

  /** Python's `s.rsplit('__', 1)` when `'__' in s`, and None otherwise. */
  function RSplitOnce(s: string): Option<(string, string)> {
    match LastOccurrenceBelow(s, OperatorSplitter, |s| + 1)
    case None => None
    case Some(i) => Some((s[..i], s[i + 2..]))
  }

  /**
   * The split happens exactly when the key contains `__`, and it is at the LAST
   * occurrence: the key is `head + "__" + tail`, and no `__` starts after `head`.
   */
  lemma RSplitAtLast(s: string)
    ensures RSplitOnce(s).Some? <==> Contains(s, OperatorSplitter)
    ensures RSplitOnce(s).Some? ==>
      var (head, tail) := RSplitOnce(s).value;
      s == head + OperatorSplitter + tail &&
      (forall j :: |head| < j ==> !OccursAt(s, OperatorSplitter, j)) &&
      !Contains(tail, OperatorSplitter)
  {
    var r := LastOccurrenceBelow(s, OperatorSplitter, |s| + 1);
    if r.Some? {
      var i := r.value;
      var head, tail := s[..i], s[i + 2..];
      assert s == head + OperatorSplitter + tail;
      forall j | |head| < j ensures !OccursAt(s, OperatorSplitter, j) {
        if j <= |s| {
          assert j < |s| + 1;
        }
      }
      forall j | 0 <= j <= |tail| && OccursAt(tail, OperatorSplitter, j)
        ensures false
      {
        assert s[i + 2 + j..i + 2 + j + 2] == tail[j..j + 2];
        assert OccursAt(s, OperatorSplitter, i + 2 + j);
      }
    } else {
      forall j | 0 <= j <= |s| ensures !OccursAt(s, OperatorSplitter, j) {
      }
    }
  }

  /**
   * One filter entry of `get_filters_expr`: split the key at its last `__` (the operator
   * defaults to equality when there is none), look the operator up, resolve the column
   * on the model and apply the operator to it and the value.
   */
  function TranslateEntry(model: Model, key: string, v: Value): (r: Result<Predicate, FilterError>)
    ensures var col := if RSplitOnce(key).Some? then RSplitOnce(key).value.0 else key;
      (r.Ok? ==> col in model.attrs) &&
      (r.Err? && r.error.NoSuchAttribute? ==> r.error.name == col && col !in model.attrs)
    ensures r.Err? ==> r.error != OperatorModelError && (r.error.UnknownOperator? || r.error.BadValue? ==> r.error.expression == key)
    ensures RSplitOnce(key).None? ==> !(r.Err? && r.error.UnknownOperator?)
  {
    var split := RSplitOnce(key);
    var found: Result<(string, Op), FilterError> :=
      match split
      case None => Ok((key, Exact))
      case Some((col, opName)) =>
        match OperatorNamed(opName)
        case None => Err(UnknownOperator(key, opName))
        case Some(op) => Ok((col, op));
    match found
    case Err(e) => Err(e)
    case Ok((col, op)) =>
      if col !in model.attrs then Err(NoSuchAttribute(col))
      else match Apply(op, col, v)
        case None => Err(BadValue(key))
        case Some(p) => Ok(p)
  }

  /** The entries translated in order; the first entry that fails decides the error. */
  function TranslateAll(model: Model, filters: seq<(string, Value)>): (r: Result<seq<Predicate>, FilterError>)
    ensures r.Ok? ==> |r.value| == |filters|
    ensures r.Err? ==> r.error != OperatorModelError
    decreases |filters|
  {
    if filters == [] then Ok([])
    else
      match TranslateAll(model, filters[..|filters| - 1])
      case Err(e) => Err(e)
      case Ok(ps) =>
        var last := filters[|filters| - 1];
        match TranslateEntry(model, last.0, last.1)
        case Err(e) => Err(e)
        case Ok(p) => Ok(ps + [p])
  }

  /** `get_filters_expr(cls, **filters)` on its own terms: no callable model, no predicates. */
  function FiltersExpr(model: Model, filters: seq<(string, Value)>): Result<seq<Predicate>, FilterError> {
    if !model.callable then Err(OperatorModelError) else TranslateAll(model, filters)
  }

  /** `get_filters_expr`: the loop appending one predicate per filter entry. */
  method GetFiltersExpr(model: Model, filters: seq<(string, Value)>) returns (r: Result<seq<Predicate>, FilterError>)
    ensures r == FiltersExpr(model, filters)
  {
    if !model.callable {
      return Err(OperatorModelError);
    }
    var expressions: seq<Predicate> := [];
    var i := 0;
    while i < |filters|
      invariant 0 <= i <= |filters|
      invariant TranslateAll(model, filters[..i]) == Ok(expressions)
    {
      assert filters[..i + 1][..i] == filters[..i];
      var entry := TranslateEntry(model, filters[i].0, filters[i].1);
      match entry {
        case Err(e) =>
          TranslateAllPrefixError(model, filters, i + 1);
          return Err(e);
        case Ok(p) =>
          expressions := expressions + [p];
      }
      i := i + 1;
    }
    assert filters[..i] == filters;
    return Ok(expressions);
  }

  /** An error in a prefix is the error of the whole. */
  lemma {:induction false} TranslateAllPrefixError(model: Model, filters: seq<(string, Value)>, n: nat)
    requires n <= |filters| && TranslateAll(model, filters[..n]).Err?
    ensures TranslateAll(model, filters) == TranslateAll(model, filters[..n])
    decreases |filters| - n
  {
    if n < |filters| {
      assert filters[..n + 1][..n] == filters[..n];
      TranslateAllPrefixError(model, filters, n + 1);
    } else {
      assert filters[..n] == filters;
    }
  }

  /** Success means exactly one predicate per entry, each the translation of the entry at the same position. */
  lemma {:induction false} TranslateAllSucceeds(model: Model, filters: seq<(string, Value)>)
    requires TranslateAll(model, filters).Ok?
    ensures |TranslateAll(model, filters).value| == |filters|
    ensures forall i :: 0 <= i < |filters| ==>
      TranslateEntry(model, filters[i].0, filters[i].1) == Ok(TranslateAll(model, filters).value[i])
    decreases |filters|
  {
    if filters != [] {
      var init := filters[..|filters| - 1];
      var last := filters[|filters| - 1];
      assert TranslateAll(model, init).Ok?;
      TranslateAllSucceeds(model, init);
      var ps := TranslateAll(model, init).value;
      var p := TranslateEntry(model, last.0, last.1).value;
      assert TranslateAll(model, filters).value == ps + [p];
      forall i | 0 <= i < |filters|
        ensures TranslateEntry(model, filters[i].0, filters[i].1) == Ok((ps + [p])[i])
      {
        if i < |init| {
          assert filters[i] == init[i] && (ps + [p])[i] == ps[i];
        } else {
          assert filters[i] == last && (ps + [p])[i] == p;
        }
      }
    }
  }

  /** Failure means every entry before some position translates and the entry there raises the error. */
  lemma {:induction false} TranslateAllFails(model: Model, filters: seq<(string, Value)>)
    requires TranslateAll(model, filters).Err?
    ensures exists k :: (0 <= k < |filters| &&
      TranslateEntry(model, filters[k].0, filters[k].1) == Err(TranslateAll(model, filters).error) &&
      forall i :: 0 <= i < k ==> TranslateEntry(model, filters[i].0, filters[i].1).Ok?)
    decreases |filters|
  {
    var init := filters[..|filters| - 1];
    var last := filters[|filters| - 1];
    var e := TranslateAll(model, filters).error;
    if TranslateAll(model, init).Err? {
      assert TranslateAll(model, init).error == e;
      TranslateAllFails(model, init);
      var k :| 0 <= k < |init| &&
        TranslateEntry(model, init[k].0, init[k].1) == Err(e) &&
        forall i :: 0 <= i < k ==> TranslateEntry(model, init[i].0, init[i].1).Ok?;
      assert filters[k] == init[k];
      forall i | 0 <= i < k ensures TranslateEntry(model, filters[i].0, filters[i].1).Ok? {
        assert filters[i] == init[i];
      }
    } else {
      TranslateAllSucceeds(model, init);
      assert TranslateEntry(model, last.0, last.1) == Err(e);
      forall i | 0 <= i < |init| ensures TranslateEntry(model, filters[i].0, filters[i].1).Ok? {
        assert filters[i] == init[i];
      }
      assert filters[|init|] == last;
    }
  }

  /** A non-callable model is rejected before any entry is looked at, whatever the entries are. */
  lemma ModelCheckedFirst(model: Model, filters: seq<(string, Value)>)
    requires !model.callable
    ensures FiltersExpr(model, filters) == Err(OperatorModelError)
  {
  }

  /** A key without `__` is an equality on the whole key as the column. */
  lemma PlainKeyIsEquality(model: Model, key: string, v: Value)
    requires !Contains(key, OperatorSplitter) && key in model.attrs
    ensures TranslateEntry(model, key, v) == Ok(Compare(key, Eq, v))
  {
    RSplitAtLast(key);
  }

  /**
   * A key with `__` names the column before its last `__` and the operator after it; an
   * operator outside the table raises naming the key and the operator.
   */
  lemma SplitKeyUsesLastSeparator(model: Model, col: string, opName: string, v: Value)
    requires !Contains(opName, OperatorSplitter) && (opName == [] || opName[0] != '_')
    ensures var key := col + OperatorSplitter + opName;
      match OperatorNamed(opName)
      case None => TranslateEntry(model, key, v) == Err(UnknownOperator(key, opName))
      case Some(op) =>
        col in model.attrs ==>
          TranslateEntry(model, key, v) == (match Apply(op, col, v)
                                             case None => Err(BadValue(key))
                                             case Some(p) => Ok(p))
  {
    KeySplitsAtColumn(col, opName);
  }

  /** The largest occurrence below `k` is `m` when `m` occurs and nothing between them does. */
  lemma {:induction false} LastOccurrenceIs(s: string, pat: string, m: nat, k: nat)
    requires m < k && OccursAt(s, pat, m)
    requires forall j :: m < j < k ==> !OccursAt(s, pat, j)
    ensures LastOccurrenceBelow(s, pat, k) == Some(m)
    decreases k
  {
    if k - 1 != m {
      LastOccurrenceIs(s, pat, m, k - 1);
    }
  }

  /**
   * A key built as `col + "__" + opName`, where the operator name holds no `__` and does
   * not start with `_`, splits back into exactly `col` and `opName`.
   */
  lemma KeySplitsAtColumn(col: string, opName: string)
    requires !Contains(opName, OperatorSplitter) && (opName == [] || opName[0] != '_')
    ensures RSplitOnce(col + OperatorSplitter + opName) == Some((col, opName))
  {
    var key := col + OperatorSplitter + opName;
    assert key[|col|..|col| + 2] == OperatorSplitter;
    assert |OperatorSplitter| == 2 && OperatorSplitter[1] == '_';
    forall j | |col| < j < |key| + 1 ensures !OccursAt(key, OperatorSplitter, j) {
      if j + 2 <= |key| {
        if j == |col| + 1 {
          assert key[j + 1] == opName[0];
          assert key[j..j + 2][1] != OperatorSplitter[1];
        } else {
          var i := j - |col| - 2;
          assert i + 2 <= |opName|;
          assert key[j..j + 2] == opName[i..i + 2];
          assert !OccursAt(opName, OperatorSplitter, i);
        }
      }
    }
    LastOccurrenceIs(key, OperatorSplitter, |col|, |key| + 1);
    assert key[..|col|] == col;
    assert key[|col| + 2..] == opName;
  }

  /** `isnull` with a truthy value tests IS NULL, with a falsy value IS NOT NULL. */
  lemma IsNullFollowsTruthiness(col: string, v: Value)
    ensures Apply(IsNullOp, col, v) == Some(IsNull(col, Truthy(v)))
  {
  }

  /** `between` uses the first two items of the value as its bounds, and raises on anything shorter. */
  lemma BetweenUsesFirstTwo(col: string, items: seq<Value>)
    ensures |items| >= 2 ==> Apply(BetweenOp, col, VList(items)) == Some(Between(col, items[0], items[1]))
    ensures |items| < 2 ==> Apply(BetweenOp, col, VList(items)) == None
  {
  }

  /** The case-insensitive pattern operators: `v%`, `%v` and `%v%`. */
  lemma PatternOperators(col: string, s: string)
    ensures Apply(IStartsWithOp, col, VStr(s)) == Some(Like(col, Literal(VStr(s + "%")), true))
    ensures Apply(IEndsWithOp, col, VStr(s)) == Some(Like(col, Literal(VStr("%" + s)), true))
    ensures Apply(ContainsOp, col, VStr(s)) == Some(Like(col, Surrounded(VStr(s)), true))
  {
  }

  /** Every date-part operator compares the extracted part with the comparison its suffix names. */
  lemma DateOperators(p: DatePart, c: Cmp, col: string, v: Value)
    ensures OperatorNamed(DateOpName(p, c)) == Some(DateOp(p, c))
    ensures Apply(DateOp(p, c), col, v) == Some(DatePartCmp(p, c, col, v))
  {
    OperatorFoundByName(DateOp(p, c));
  }

  /** `gte`/`lte` are `>=`/`<=`; `in`/`notin` are membership and non-membership. */
  lemma ComparisonOperators(col: string, v: Value)
    ensures OperatorNamed("gte") == Some(GreaterEq) && Apply(GreaterEq, col, v) == Some(Compare(col, Ge, v))
    ensures OperatorNamed("lte") == Some(LessEq) && Apply(LessEq, col, v) == Some(Compare(col, Le, v))
    ensures OperatorNamed("in") == Some(InOp) && Apply(InOp, col, v) == Some(In(col, v))
    ensures OperatorNamed("notin") == Some(NotInOp) && Apply(NotInOp, col, v) == Some(NotIn(col, v))
  {
  }

  datatype LookupError = LookupKeyError(op: string)

  /**
   * `dj_lookup_to_sqla(expression)` / `dj_query(expression)`: the operator and the column
   * name, the operator defaulting to `exact`; an unknown operator fails at the table lookup.
   */
  function Lookup(expression: string): (r: Result<(Op, string), LookupError>)
    ensures !Contains(expression, OperatorSplitter) ==> r == Ok((Exact, expression))
    ensures RSplitOnce(expression).Some? ==>
      var (col, opName) := RSplitOnce(expression).value;
      r == (match OperatorNamed(opName)
            case None => Err(LookupKeyError(opName))
            case Some(op) => Ok((op, col)))
  {
    RSplitAtLast(expression);
    var (col, opName) := match RSplitOnce(expression)
                         case None => (expression, "exact")
                         case Some(pair) => pair;
    match OperatorNamed(opName)
    case None => Err(LookupKeyError(opName))
    case Some(op) => Ok((op, col))
  }

  /** `dj_lookup_to_sqla` on a key built from a column and a table operator gives them back. */
  lemma LookupRoundTrip(col: string, op: Op)
    requires OpName(op) != [] && OpName(op)[0] != '_' && !Contains(OpName(op), OperatorSplitter)
    ensures Lookup(col + OperatorSplitter + OpName(op)) == Ok((op, col))
  {
    KeySplitsAtColumn(col, OpName(op));
    OperatorFoundByName(op);
  }

  /** `dj_ordering_to_sqla` / `dj_ordering`: a leading `-` is descending; every leading `-` is dropped. */
  function Ordering(expression: string): (r: OrderBy)
    ensures r.dir == Desc <==> StartsWith(expression, [Reverser])
    ensures r.col == [] || r.col[0] != Reverser
    ensures |r.col| <= |expression|
    ensures expression == seq(|expression| - |r.col|, _ => Reverser) + r.col
  {
    OrderBy(if StartsWith(expression, [Reverser]) then Desc else Asc, LStrip(expression, Reverser))
  }

  /** The ordering round trip: `"name"` is ascending on `name`, `"-name"` descending on `name`. */
  lemma OrderingRoundTrip(col: string)
    requires col == [] || col[0] != Reverser
    ensures Ordering(col) == OrderBy(Asc, col)
    ensures Ordering([Reverser] + col) == OrderBy(Desc, col)
  {
  }

  /** A name without an underscore never contains the separator. */
  lemma NoUnderscoreNoSplitter(s: string)
    requires '_' !in s
    ensures !Contains(s, OperatorSplitter)
  {
    forall i | 0 <= i <= |s| ensures !OccursAt(s, OperatorSplitter, i) {
      if i + 2 <= |s| {
        assert s[i] in s;
      }
    }
  }

  /** A row of the table, by column name. */
  type Row = map<string, Value>

  /**
   * The meaning of the predicates that have a fixed meaning over integers and NULL; the
   * others are left to the database (None).
   */
  function Holds(p: Predicate, row: Row): Option<bool> {
    match p
    case IsNull(c, isNull) => if c in row then Some((row[c] == VNone) == isNull) else None
    case Between(c, VInt(lo), VInt(hi)) =>
      if c in row && row[c].VInt? then Some(lo <= row[c].i <= hi) else None
    case Compare(c, cmp, VInt(x)) =>
      if c in row && row[c].VInt? then
        var y := row[c].i;
        Some(match cmp
             case Eq => y == x
             case Ne => y != x
             case Gt => y > x
             case Ge => y >= x
             case Lt => y < x
             case Le => y <= x)
      else None
    case _ => None
  }

  /** A key made of a column the model has, the separator and an operator's name without `_` translates by that operator. */
  lemma TranslateNamed(model: Model, col: string, op: Op, v: Value)
    requires col in model.attrs && '_' !in OpName(op)
    ensures TranslateEntry(model, col + OperatorSplitter + OpName(op), v) ==
      (match Apply(op, col, v)
       case None => Err(BadValue(col + OperatorSplitter + OpName(op)))
       case Some(p) => Ok(p))
  {
    NoUnderscoreNoSplitter(OpName(op));
    OperatorFoundByName(op);
    SplitKeyUsesLastSeparator(model, col, OpName(op), v);
  }

  /** `c__isnull=True` (the key `c`, the separator, `isnull`) selects exactly the NULL rows, `c__isnull=False` exactly the others. */
  lemma IsNullExhaustive(model: Model, col: string, v: Value, row: Row)
    requires col in model.attrs && col in row
    ensures var r := TranslateEntry(model, col + OperatorSplitter + OpName(IsNullOp), v);
      r.Ok? && Holds(r.value, row) == Some(row[col] == VNone <==> Truthy(v))
  {
    TranslateNamed(model, col, IsNullOp, v);
  }


  /** `c__between=[lo, hi]` (the key `c`, the separator, `between`) is inclusive at both bounds. */
  lemma BetweenInclusive(model: Model, col: string, lo: int, hi: int, row: Row)
    requires col in model.attrs && col in row && row[col].VInt?
    ensures var r := TranslateEntry(model, col + OperatorSplitter + OpName(BetweenOp), VList([VInt(lo), VInt(hi)]));
      r.Ok? && Holds(r.value, row) == Some(lo <= row[col].i <= hi)
  {
    var items := [VInt(lo), VInt(hi)];
    TranslateNamed(model, col, BetweenOp, VList(items));
    BetweenUsesFirstTwo(col, items);
  }






}

=== FILE: ordered.dfy ===
/**
 * Python's insertion-ordered dictionaries (`OrderedDict`, and `dict` since 3.7): a key
 * keeps the position of its first insertion, assigning it again only replaces its value,
 * and deleting it removes it from the order.
 */
module OrderedMaps {
  datatype OrderedMap<K, V> = OrderedMap(keys: seq<K>, values: map<K, V>)

  function Empty<K(!new), V>(): OrderedMap<K, V> {
    OrderedMap([], map[])
  }

  /** The key order lists exactly the keys of the mapping, each once. */
  ghost predicate Valid<K(!new), V>(m: OrderedMap<K, V>) {
    (forall k :: k in m.values <==> k in m.keys) &&
    (forall i, j :: 0 <= i < j < |m.keys| ==> m.keys[i] != m.keys[j])
  }

  /** `m[k] = v`. */
  function Put<K(!new), V>(m: OrderedMap<K, V>, k: K, v: V): (r: OrderedMap<K, V>)
    ensures Valid(m) ==> Valid(r)
    ensures r.values == m.values[k := v]
    ensures k in m.values ==> r.keys == m.keys
    ensures k !in m.values ==> r.keys == m.keys + [k]
  {
    OrderedMap(if k in m.values then m.keys else m.keys + [k], m.values[k := v])
  }

  /** The position of a key in a key order that holds it. */
  function Position<K(==, !new)>(keys: seq<K>, k: K): (p: nat)
    requires k in keys
    ensures p < |keys| && keys[p] == k
  {
    if keys[0] == k then 0 else 1 + Position(keys[1..], k)
  }

  /** Dropping position `p` shifts every later element down by one. */
  lemma SkipAt<K>(s: seq<K>, p: nat, t: seq<K>)
    requires p < |s| && t == s[..p] + s[p + 1..]
    ensures |t| == |s| - 1
    ensures forall i :: 0 <= i < |t| ==> t[i] == s[if i < p then i else i + 1]
  {
  }

  /** Dropping the key at position `p` from the order and from the mapping keeps the map valid. */
  lemma RemoveAt<K(!new), V>(m: OrderedMap<K, V>, p: nat)
    requires Valid(m) && p < |m.keys|
    ensures Valid(OrderedMap(m.keys[..p] + m.keys[p + 1..], m.values - {m.keys[p]}))
  {
    var k := m.keys[p];
    var keys := m.keys[..p] + m.keys[p + 1..];
    SkipAt(m.keys, p, keys);
    forall i, j | 0 <= i < j < |keys| ensures keys[i] != keys[j] {
      assert keys[i] == m.keys[if i < p then i else i + 1];
      assert keys[j] == m.keys[if j < p then j else j + 1];
    }
    forall q ensures q in m.values - {k} <==> q in keys {
      if q in keys {
        var i :| 0 <= i < |keys| && keys[i] == q;
        assert m.keys[if i < p then i else i + 1] == q;
      }
      if q in m.values && q != k {
        var i :| 0 <= i < |m.keys| && m.keys[i] == q;
        assert keys[if i < p then i else i - 1] == q;
      }
    }
  }

  /** `del m[k]` on a present key: the key leaves the order, the others keep theirs. */
  function Remove<K(!new), V>(m: OrderedMap<K, V>, k: K): (r: OrderedMap<K, V>)
    requires Valid(m) && k in m.values
    ensures Valid(r)
    ensures r.values == m.values - {k}
    ensures exists p :: 0 <= p < |m.keys| && r.keys == m.keys[..p] + m.keys[p + 1..]
  {
    var p := Position(m.keys, k);
    RemoveAt(m, p);
    OrderedMap(m.keys[..p] + m.keys[p + 1..], m.values - {k})
  }

  /** The values in key order: what `.values()` iterates. */
  function Values<K(!new), V>(m: OrderedMap<K, V>): (vs: seq<V>)
    requires Valid(m)
    ensures |vs| == |m.keys|
    ensures forall i :: 0 <= i < |vs| ==> vs[i] == m.values[m.keys[i]]
  {
    seq(|m.keys|, i requires 0 <= i < |m.keys| => m.values[m.keys[i]])
  }

  /** The pairs in key order: what `.items()` iterates. */
  function Items<K(!new), V>(m: OrderedMap<K, V>): (ps: seq<(K, V)>)
    requires Valid(m)
    ensures |ps| == |m.keys|
    ensures forall i :: 0 <= i < |ps| ==> ps[i] == (m.keys[i], m.values[m.keys[i]])
  {
    seq(|m.keys|, i requires 0 <= i < |m.keys| => (m.keys[i], m.values[m.keys[i]]))
  }

  /** A dictionary filled by assigning the pairs in order. */
  function FromPairs<K(!new), V>(ps: seq<(K, V)>): (r: OrderedMap<K, V>)
    ensures Valid(r)
    ensures forall k :: k in r.values <==> exists i :: 0 <= i < |ps| && ps[i].0 == k
    decreases |ps|
  {
    if ps == [] then Empty()
    else
      var front := FromPairs(ps[..|ps| - 1]);
      var r := Put(front, ps[|ps| - 1].0, ps[|ps| - 1].1);
      assert forall k :: k in r.values <==> exists i :: 0 <= i < |ps| && ps[i].0 == k by {
        forall k | k in r.values ensures exists i :: 0 <= i < |ps| && ps[i].0 == k {
          if k != ps[|ps| - 1].0 {
            var i :| 0 <= i < |ps| - 1 && ps[..|ps| - 1][i].0 == k;
            assert ps[i].0 == k;
          }
        }
        forall k | exists i :: 0 <= i < |ps| && ps[i].0 == k ensures k in r.values {
          var i :| 0 <= i < |ps| && ps[i].0 == k;
          if i < |ps| - 1 {
            assert ps[..|ps| - 1][i].0 == k;
          }
        }
      }
      r
  }

  /** The value stored under a key is the one of its LAST assignment. */
  lemma {:induction false} LastAssignmentWins<K(!new), V>(ps: seq<(K, V)>, i: nat)
    requires i < |ps|
    requires forall j :: i < j < |ps| ==> ps[j].0 != ps[i].0
    ensures ps[i].0 in FromPairs(ps).values && FromPairs(ps).values[ps[i].0] == ps[i].1
    decreases |ps|
  {
    if i < |ps| - 1 {
      var front := ps[..|ps| - 1];
      forall j | i < j < |front| ensures front[j].0 != front[i].0 {
        assert front[j] == ps[j];
      }
      LastAssignmentWins(front, i);
    }
  }

  /** The index of the first pair with key `k`. */
  function FirstIndex<K(==, !new), V>(ps: seq<(K, V)>, k: K): (n: nat)
    ensures n <= |ps|
    ensures n < |ps| ==> ps[n].0 == k
    ensures forall j :: 0 <= j < n ==> ps[j].0 != k
    decreases |ps|
  {
    if ps == [] then 0
    else if ps[0].0 == k then 0
    else 1 + FirstIndex(ps[1..], k)
  }

  /**
   * Keys are ordered by their FIRST assignment: a key listed before another was first
   * assigned before it.
   */
  lemma {:induction false} KeysInFirstAssignmentOrder<K(!new), V>(ps: seq<(K, V)>, a: nat, b: nat)
    requires a < b < |FromPairs(ps).keys|
    ensures FirstIndex(ps, FromPairs(ps).keys[a]) < FirstIndex(ps, FromPairs(ps).keys[b])
    decreases |ps|
  {
    var front := ps[..|ps| - 1];
    var last := ps[|ps| - 1];
    var keys := FromPairs(ps).keys;
    var fkeys := FromPairs(front).keys;
    FirstIndexOfPrefix(ps, keys[a]);
    FirstIndexOfPrefix(ps, keys[b]);
    AssignedIffFirstIndexInside(front, keys[a]);
    AssignedIffFirstIndexInside(front, keys[b]);
    if b < |fkeys| {
      KeysInFirstAssignmentOrder(front, a, b);
    } else {
      // keys[b] is the last pair's key, seen for the first time there.
      assert keys[b] == last.0 && last.0 !in FromPairs(front).values;
      assert keys[a] == fkeys[a] && keys[a] in FromPairs(front).values;
    }
  }

  /** Appending a pair leaves the first index of an already assigned key unchanged. */
  lemma FirstIndexOfPrefix<K(!new), V>(ps: seq<(K, V)>, k: K)
    requires ps != []
    ensures FirstIndex(ps[..|ps| - 1], k) < |ps| - 1 ==> FirstIndex(ps, k) == FirstIndex(ps[..|ps| - 1], k)
    ensures FirstIndex(ps[..|ps| - 1], k) == |ps| - 1 ==> FirstIndex(ps, k) >= |ps| - 1
  {
    var front := ps[..|ps| - 1];
    var n := FirstIndex(front, k);
    forall j | 0 <= j < |front| ensures ps[j] == front[j] {
    }
    if n < |front| {
      FirstIndexIsFirst(ps, k, n);
    } else {
      FirstIndexAtLeast(ps, k, |ps| - 1);
    }
  }

  /** A key was assigned exactly when its first index is inside the pairs. */
  lemma AssignedIffFirstIndexInside<K(!new), V>(ps: seq<(K, V)>, k: K)
    ensures k in FromPairs(ps).values <==> FirstIndex(ps, k) < |ps|
  {
    if k in FromPairs(ps).values {
      var i :| 0 <= i < |ps| && ps[i].0 == k;
    }
  }

  lemma {:induction false} FirstIndexIsFirst<K(!new), V>(ps: seq<(K, V)>, k: K, n: nat)
    requires n < |ps| && ps[n].0 == k
    requires forall j :: 0 <= j < n ==> ps[j].0 != k
    ensures FirstIndex(ps, k) == n
    decreases n
  {
    if n > 0 {
      FirstIndexIsFirst(ps[1..], k, n - 1);
    }
  }

  lemma {:induction false} FirstIndexAtLeast<K(!new), V>(ps: seq<(K, V)>, k: K, n: nat)
    requires n <= |ps|
    requires forall j :: 0 <= j < n ==> ps[j].0 != k
    ensures FirstIndex(ps, k) >= n
    decreases n
  {
    if n > 0 {
      FirstIndexAtLeast(ps[1..], k, n - 1);
    }
  }
}

=== FILE: paginate.dfy ===
/**
 * `paginate(sequence, params, is_rpc)`: a list is paged in memory, anything else by the
 * query paginator; over HTTP the page is returned as it is, over RPC it is reshaped into a
 * mapping whose `count` is the total and whose `items` and `data` are the page's items
 * converted to mappings. Two variants exist: one converts each item with `.dict()`
 * (unless it already is a dict), the other with `parse_dict` and the model schema.
 */
module Paginate {
  import opened Wrappers
  import opened Values

  /** `LimitOffsetParams`. */
  datatype Params = Params(limit: nat, offset: nat)

  /** The `limit` and `offset` of `LimitOffsetParams` when they are not given. */
  const DefaultParams: Params := Params(50, 0)

  /** The largest `limit` `LimitOffsetParams` accepts. */
  const MaxLimit: nat := 100

  /** The bounds `LimitOffsetParams` validates: `1 <= limit <= 100` and `offset >= 0`. */
  predicate InBounds(limit: int, offset: int) {
    1 <= limit <= MaxLimit && offset >= 0
  }

  /** A `LimitOffsetPage`: one page of items, the total, and the parameters it was cut with. */
  datatype Page = Page(items: seq<Value>, total: int, limit: nat, offset: nat)

  /** What `paginate` returns: the page itself (HTTP) or the reshaped mapping (RPC). */
  datatype Paginated = HttpPage(page: Page) | RpcData(data: map<string, Value>)

  datatype PaginateError =
    | ReturnTypeError
      /** `.dict()` called on an item that is neither a dict nor a model */
    | NoDictMethod

  function Min(a: int, b: int): int { if a <= b then a else b }

  /** Python's `items[offset:offset + limit]` for non-negative bounds. */
  function Slice(items: seq<Value>, offset: nat, limit: nat): (r: seq<Value>)
    ensures |r| == (if offset >= |items| then 0 else Min(limit, |items| - offset))
    ensures forall i :: 0 <= i < |r| ==> r[i] == items[offset + i]
  {
    if offset >= |items| then [] else items[offset..offset + Min(limit, |items| - offset)]
  }

  /** Two consecutive slices make up the slice as long as both. */
  lemma ConsecutiveSlices(items: seq<Value>, offset: nat, a: nat, b: nat)
    ensures Slice(items, offset, a) + Slice(items, offset + a, b) == Slice(items, offset, a + b)
  {
    var l, r, whole := Slice(items, offset, a), Slice(items, offset + a, b), Slice(items, offset, a + b);
    assert |l| + |r| == |whole|;
    forall i | 0 <= i < |whole| ensures (l + r)[i] == whole[i] {
      if i >= |l| {
        assert (l + r)[i] == r[i - |l|] == items[offset + a + (i - |l|)];
      }
    }
  }

  /** The in-memory paginator: the slice the parameters select, and the length of the whole list. */
  function InMemoryPage(items: seq<Value>, p: Params): (pg: Page)
    ensures pg.total == |items| && pg.limit == p.limit && pg.offset == p.offset
    ensures pg.items == Slice(items, p.offset, p.limit)
  {
    Page(Slice(items, p.offset, p.limit), |items|, p.limit, p.offset)
  }

  /**
   * The page the paginator produces: a model is refused, a list is paged in memory, any
   * other value (a query) by the query paginator; explicit parameters are passed on,
   * otherwise the paginator uses `resolved`, the parameters fastapi_pagination resolves
   * from the current request.
   */
  function PageOf(sequence: Value, params: Option<Params>, resolved: Params, query: (Value, Params) -> Page)
    : (r: Result<Page, PaginateError>)
    ensures sequence.VModel? <==> r == Err(ReturnTypeError)
    ensures r.Err? ==> sequence.VModel?
    ensures sequence.VList? ==>
      r == Ok(InMemoryPage(sequence.items, if params.Some? then params.value else resolved))
    ensures !sequence.VList? && !sequence.VModel? ==>
      r == Ok(query(sequence, if params.Some? then params.value else resolved))
  {
    var p := if params.Some? then params.value else resolved;
    if sequence.VModel? then Err(ReturnTypeError)
    else if sequence.VList? then Ok(InMemoryPage(sequence.items, p))
    else Ok(query(sequence, p))
  }

  /** `paginator.dict()`. */
  function PageDict(pg: Page): map<string, Value> {
    map["items" := VList(pg.items), "total" := VInt(pg.total), "limit" := VInt(pg.limit), "offset" := VInt(pg.offset)]
  }

  /** `response_data.update(count=total, items=items, data=items)`. */
  function Reshape(pg: Page, items: seq<Value>): (d: map<string, Value>)
    ensures d.Keys == {"items", "total", "limit", "offset", "count", "data"}
    ensures d["count"] == d["total"] == VInt(pg.total)
    ensures d["items"] == d["data"] == VList(items)
    ensures d["limit"] == VInt(pg.limit) && d["offset"] == VInt(pg.offset)
  {
    var d := PageDict(pg);
    d["count" := d["total"]]["items" := VList(items)]["data" := VList(items)]
  }

  /** `item if isinstance(item, dict) else item.dict()`. */
  function ItemDict(item: Value): (r: Result<Value, PaginateError>)
    ensures r.Ok? <==> item.VDict? || item.VModel?
    ensures item.VDict? ==> r == Ok(item)
    ensures item.VModel? ==> r == Ok(VDict(item.fields))
  {
    match item
    case VDict(_) => Ok(item)
    case VModel(fields) => Ok(VDict(fields))
    case _ => Err(NoDictMethod)
  }

  /** The list comprehension over the page's items; the first item without `.dict()` raises. */
  function ItemDicts(items: seq<Value>): (r: Result<seq<Value>, PaginateError>)
    ensures r.Ok? <==> forall i :: 0 <= i < |items| ==> ItemDict(items[i]).Ok?
    ensures r.Err? ==> r.error == NoDictMethod
    ensures r.Ok? ==> |r.value| == |items| && forall i :: 0 <= i < |items| ==> r.value[i] == ItemDict(items[i]).value
  {
    if items == [] then Ok([])
    else
      match ItemDict(items[0])
      case Err(e) => Err(e)
      case Ok(first) =>
        match ItemDicts(items[1..])
        case Err(e) => Err(e)
        case Ok(rest) => Ok([first] + rest)
  }

  /** `bali/paginate.py`: `paginate(sequence, params, is_rpc)`. */
  function Paginate(sequence: Value, params: Option<Params>, resolved: Params, isRpc: bool,
                    query: (Value, Params) -> Page): (r: Result<Paginated, PaginateError>)
    ensures r == Err(ReturnTypeError) <==> sequence.VModel?
    ensures r.Err? ==> r.error == ReturnTypeError || (isRpc && r.error == NoDictMethod)
    ensures !isRpc && !sequence.VModel? ==> r == Ok(HttpPage(PageOf(sequence, params, resolved, query).value))
    ensures isRpc && r.Ok? ==>
      r.value.RpcData? && r.value.data.Keys == {"items", "total", "limit", "offset", "count", "data"} &&
      r.value.data["count"] == VInt(PageOf(sequence, params, resolved, query).value.total)
    ensures isRpc && !sequence.VModel? ==>
      var pg := PageOf(sequence, params, resolved, query).value;
      (r == Err(NoDictMethod) <==> exists i :: 0 <= i < |pg.items| && ItemDict(pg.items[i]).Err?) &&
      (r.Ok? ==> (
        var d := r.value.data;
        d["total"] == VInt(pg.total) && d["limit"] == VInt(pg.limit) && d["offset"] == VInt(pg.offset) &&
        d["items"] == d["data"] && d["data"].VList? && |d["data"].items| == |pg.items| &&
        forall i :: 0 <= i < |pg.items| ==> ItemDict(pg.items[i]) == Ok(d["data"].items[i])))
  {
    match PageOf(sequence, params, resolved, query)
    case Err(e) => Err(e)
    case Ok(pg) =>
      if !isRpc then Ok(HttpPage(pg))
      else
        match ItemDicts(pg.items)
        case Err(e) => Err(e)
        case Ok(items) => Ok(RpcData(Reshape(pg, items)))
  }

  /** `bali-core/paginate.py`: every item goes through `parse_dict` with the model schema. */
  function PaginateParsed(sequence: Value, params: Option<Params>, resolved: Params, isRpc: bool,
                          query: (Value, Params) -> Page, parseDict: Value -> Value): (r: Result<Paginated, PaginateError>)
    ensures r.Err? <==> sequence.VModel?
    ensures r.Err? ==> r.error == ReturnTypeError
    ensures r.Ok? ==> (r.value.RpcData? <==> isRpc)
    ensures r.Ok? && !isRpc ==> r.value.page == PageOf(sequence, params, resolved, query).value
  {
    match PageOf(sequence, params, resolved, query)
    case Err(e) => Err(e)
    case Ok(pg) =>
      if !isRpc then Ok(HttpPage(pg))
      else Ok(RpcData(Reshape(pg, seq(|pg.items|, i requires 0 <= i < |pg.items| => parseDict(pg.items[i])))))
  }

  /**
   * Over HTTP the page is returned unchanged; over RPC, for a list, `count` and `total`
   * are the list's length and `items` and `data` are the selected slice, each item as a
   * mapping; a model is refused either way.
   */
  lemma PaginateShape(sequence: Value, params: Option<Params>, resolved: Params, isRpc: bool, query: (Value, Params) -> Page)
    ensures sequence.VModel? ==> Paginate(sequence, params, resolved, isRpc, query) == Err(ReturnTypeError)
    ensures !isRpc && !sequence.VModel? ==>
      Paginate(sequence, params, resolved, isRpc, query) == Ok(HttpPage(PageOf(sequence, params, resolved, query).value))
    ensures isRpc && sequence.VList? ==>
      var p := if params.Some? then params.value else resolved;
      var slice := Slice(sequence.items, p.offset, p.limit);
      match Paginate(sequence, params, resolved, isRpc, query)
      case Ok(RpcData(d)) =>
        d["count"] == d["total"] == VInt(|sequence.items|) && d["items"] == d["data"] &&
        ItemDicts(slice).Ok? && d["data"] == VList(ItemDicts(slice).value)
      case Ok(HttpPage(_)) => false
      case Err(e) => e == NoDictMethod && exists i :: 0 <= i < |slice| && ItemDict(slice[i]).Err?
  {
  }

  /** The `parse_dict` variant has the same shape and never fails on the RPC path except for a model. */
  lemma PaginateParsedShape(sequence: Value, params: Option<Params>, resolved: Params, isRpc: bool,
                            query: (Value, Params) -> Page, parseDict: Value -> Value)
    ensures PaginateParsed(sequence, params, resolved, isRpc, query, parseDict).Err? <==> sequence.VModel?
    ensures !isRpc && !sequence.VModel? ==>
      PaginateParsed(sequence, params, resolved, isRpc, query, parseDict) ==
      Ok(HttpPage(PageOf(sequence, params, resolved, query).value))
    ensures isRpc && !sequence.VModel? ==>
      var pg := PageOf(sequence, params, resolved, query).value;
      var d := PaginateParsed(sequence, params, resolved, isRpc, query, parseDict).value.data;
      d["count"] == d["total"] == VInt(pg.total) && d["items"] == d["data"] &&
      d["data"].VList? && |d["data"].items| == |pg.items| &&
      forall i :: 0 <= i < |pg.items| ==> d["data"].items[i] == parseDict(pg.items[i])
  {
  }
}

=== FILE: resources.dfy ===
/**
 * The `Resource` base class and the two generators that turn a resource class into a
 * FastAPI router and a gRPC servicer: the endpoint and RPC method names derived from the
 * class name, the order in which registered actions are emitted, the route table, the
 * ordered filter declarations and the permission checks run before every action.
 */
module Resources {
  import opened Wrappers
  import opened Strings
  import opened Values
  import opened Naming
  import opened Actions
  import opened Envelopes
  import OrderedMaps

  /** A type named in a filter declaration: `type(None)` or any other class. */
  datatype TypeRef = NoneType | Type(name: string)

  /** A declared filter type: a plain class, or a `typing` alias such as `Optional[int]`. */
  datatype FilterType = Plain(t: TypeRef) | Alias(args: seq<TypeRef>)

  /** What a resource is constructed with: nothing, an HTTP request, or a protobuf message. */
  datatype Request = NoRequest | HttpRequest(query: seq<(string, string)>) | RpcMessage(fields: Data)

  /**
   * The class-level declarations of a `Resource` subclass that the generators read:
   * its `__name__`, `http_endpoint`, `filters` (a list of dicts, each in its own order),
   * the names of its `permission_classes`, the names `hasattr` finds on it, and the
   * names of its actions that are coroutine functions.
   */
  datatype ResourceClass = ResourceClass(
    name: string,
    httpEndpoint: Option<string>,
    filters: seq<seq<(string, FilterType)>>,
    permissions: seq<string>,
    attributes: set<string>,
    coroutines: set<string>)

  /** A resource instance: the request it serves and the transport it was built for. */
  class Resource {
    var request: Request
    var context: Value
    var responseMessage: Option<EnvelopeType>
    var isRpc: bool
    var isHttp: bool
    var auth: Value

    constructor (request: Request, context: Value, responseMessage: Option<EnvelopeType>)
      ensures this.request == request && this.context == context
      ensures this.responseMessage == responseMessage
      ensures isRpc <==> request.RpcMessage?
      ensures isHttp == !isRpc
      ensures auth == VModel(map[])
    {
      this.request := request;
      this.context := context;
      this.responseMessage := responseMessage;
      isRpc := request.RpcMessage?;
      isHttp := !request.RpcMessage?;
      auth := VModel(map[]);
    }
  }

  // ---------------------------------------------------------------- names

  const ResourceWord: string := "Resource"

  /** `__name__.replace('Resource', '')`. */
  function ResourceName(className: string): string {
    ReplaceAll(className, ResourceWord, "")
  }

  /** No `Resource` starts inside `x`, so in `x + "Resource"` only the suffix is one. */
  predicate NoInnerResource(x: string) {
    forall i :: 0 <= i < |x| ==> !OccursAt(x + ResourceWord, ResourceWord, i)
  }

  /** The words with the last one pluralized. */
  function PluralizeLast(words: seq<string>): (r: seq<string>)
    requires |words| >= 1
    ensures |r| == |words| && r[..|r| - 1] == words[..|words| - 1]
    ensures r[|r| - 1] == PluralizeAsWritten(words[|words| - 1])
  {
    words[..|words| - 1] + [PluralizeAsWritten(words[|words| - 1])]
  }

  /** The endpoint derived from the class name: the decamelized words, the last pluralized, joined by `-`. */
  function GeneratedEndpoint(className: string): (e: string)
    ensures EndsWith(e, "s")
  {
    var words := Split(Decamelize(ResourceName(className)), '_');
    JoinEndsWithLast(PluralizeLast(words), "-", "s");
    Join(PluralizeLast(Split(Decamelize(ResourceName(className)), '_')), "-")
  }

  /** `ResourceMeta._http_endpoint`: a truthy `http_endpoint` or the generated one, with a leading `/`. */
  function HttpEndpoint(httpEndpoint: Option<string>, className: string): (e: string)
    ensures StartsWith(e, "/")
    ensures httpEndpoint.Some? && StartsWith(httpEndpoint.value, "/") ==> e == httpEndpoint.value
    ensures httpEndpoint.Some? && httpEndpoint.value != [] && !StartsWith(httpEndpoint.value, "/") ==>
      e == "/" + httpEndpoint.value
  {
    var endpoint := if httpEndpoint.Some? && httpEndpoint.value != [] then httpEndpoint.value
                    else GeneratedEndpoint(className);
    if StartsWith(endpoint, "/") then endpoint else "/" + endpoint
  }

  lemma LowerWordsHaveNoUnderscore(ws: seq<string>)
    requires forall i :: 0 <= i < |ws| ==> CapitalWord(ws[i])
    ensures forall i :: 0 <= i < |ws| ==> |LowerWords(ws)[i]| >= 2 && IsLower(LowerWords(ws)[i][0])
    ensures forall i :: 0 <= i < |ws| ==> '_' !in LowerWords(ws)[i]
  {
    forall i | 0 <= i < |ws| ensures '_' !in LowerWords(ws)[i] {
      var l := LowerWords(ws)[i];
      forall j | 0 <= j < |l| ensures l[j] != '_' {
        assert l[j] == LowerChar(ws[i][j]);
      }
    }
  }

  lemma JoinStartsWithFirst(parts: seq<string>, sep: string)
    requires |parts| >= 1 && parts[0] != []
    ensures Join(parts, sep) != [] && Join(parts, sep)[0] == parts[0][0]
  {
  }

  /** Removing `Resource` from `x + "Resource"` gives `x` back. */
  lemma ResourceNameOf(x: string)
    requires NoInnerResource(x)
    ensures ResourceName(x + ResourceWord) == x
  {
    ReplaceTrailing(x, ResourceWord, "");
    assert x + "" == x;
  }

  lemma GeneratedOfWords(ws: seq<string>)
    requires |ws| >= 1 && forall i :: 0 <= i < |ws| ==> CapitalWord(ws[i])
    requires NoInnerResource(Concat(ws))
    ensures GeneratedEndpoint(Concat(ws) + ResourceWord) == Join(PluralizeLast(LowerWords(ws)), "-")
  {
    ResourceNameOf(Concat(ws));
    DecamelizeWords(ws);
    LowerWordsHaveNoUnderscore(ws);
    SplitJoin(LowerWords(ws), '_');
  }

  /** The generated endpoint of capitalised words begins with a lower-case letter. */
  lemma GeneratedStartsLower(ws: seq<string>)
    requires |ws| >= 1 && forall i :: 0 <= i < |ws| ==> CapitalWord(ws[i])
    ensures var j := Join(PluralizeLast(LowerWords(ws)), "-"); j != [] && IsLower(j[0])
  {
    LowerWordsHaveNoUnderscore(ws);
    var parts := PluralizeLast(LowerWords(ws));
    var first := LowerWords(ws)[0];
    if |ws| == 1 {
      assert parts[0] == PluralizeAsWritten(first);
      assert StartsWith(PluralizeAsWritten(first), first[..|first| - 1]);
    } else {
      assert parts[0] == parts[..|parts| - 1][0] == first;
    }
    assert parts[0] != [] && parts[0][0] == first[0];
    JoinStartsWithFirst(parts, "-");
  }

  /**
   * A class named by capitalised words followed by `Resource`, and without a truthy
   * `http_endpoint`, is served under `/` and its lower-cased words joined by `-`, the
   * last one pluralized.
   */
  lemma EndpointOfWords(ws: seq<string>)
    requires |ws| >= 1 && forall i :: 0 <= i < |ws| ==> CapitalWord(ws[i])
    requires NoInnerResource(Concat(ws))
    ensures HttpEndpoint(None, Concat(ws) + ResourceWord) == "/" + Join(PluralizeLast(LowerWords(ws)), "-")
    ensures HttpEndpoint(Some(""), Concat(ws) + ResourceWord) == "/" + Join(PluralizeLast(LowerWords(ws)), "-")
  {
    var c := Concat(ws) + ResourceWord;
    GeneratedOfWords(ws);
    GeneratedStartsLower(ws);
    LowerStartNotSlash(Join(PluralizeLast(LowerWords(ws)), "-"));
    FalsyEndpointIsGenerated(c);
  }

  lemma LowerStartNotSlash(g: string)
    requires g != [] && IsLower(g[0])
    ensures !StartsWith(g, "/")
  {
    assert g[..1][0] == g[0];
  }

  /** Without a truthy `http_endpoint` the generated endpoint is used. */
  lemma FalsyEndpointIsGenerated(c: string)
    ensures var g := GeneratedEndpoint(c);
      HttpEndpoint(None, c) == HttpEndpoint(Some(""), c) == if StartsWith(g, "/") then g else "/" + g
  {
  }

  /** `ResourceMeta._get_rpc_object`: the resource name, pluralized for `list`. */
  function RpcObject(className: string, action: string): (o: string)
    ensures action != "list" ==> o == ResourceName(className)
    ensures action == "list" ==> |o| > |ResourceName(className)| && EndsWith(o, "s")
  {
    var name := ResourceName(className);
    if action == "list" then PluralizeAsWritten(name) else name
  }

  /** The servicer method name: the capitalized action (the rest of it lower-cased) followed by the RPC object. */
  function RpcMethodName(className: string, action: string): (m: string)
    ensures |m| == |action| + |RpcObject(className, action)|
    ensures m[|action|..] == RpcObject(className, action)
    ensures action != [] ==> m[0] == UpperChar(action[0]) && m[1..|action|] == Lower(action[1..])
  {
    Capitalize(action) + RpcObject(className, action)
  }

  /**
   * For `XResource`, the method is the capitalized action followed by `X`, or by the
   * plural of `X` for `list`; the generic actions therefore never share a method name.
   */
  lemma RpcMethodNames(x: string, action: string)
    requires NoInnerResource(x)
    ensures RpcMethodName(x + ResourceWord, action) == Capitalize(action) + (if action == "list" then PluralizeAsWritten(x) else x)
  {
    ReplaceTrailing(x, ResourceWord, "");
    assert x + "" == x;
  }

  /**
   * With the rule as written, a resource named by a capitalised word ending in a
   * consonant and `y` keeps the `y` and only gains an `s`: `CategoryResource` is
   * served under `/categorys` and lists through `ListCategorys`.
   */
  lemma ConsonantYPlural(w: string)
    requires CapitalWord(w) && 'R' !in w && |w| >= 3 && EndsInConsonantY(w)
    ensures HttpEndpoint(None, w + ResourceWord) == "/" + Lower(w) + "s"
    ensures RpcMethodName(w + ResourceWord, "list") == "List" + w + "s"
  {
    assert HttpEndpoint(None, w + ResourceWord) == "/" + Lower(w) + "s" by {
      LowerKeepsTail(w);
      PluralAsWrittenAtY(Lower(w));
      PluralEndpoint(w, Lower(w) + "s");
      AppendAssoc("/", Lower(w), "s");
    }
    PluralAsWrittenAtY(w);
    PluralListMethod(w, w + "s");
    AppendAssoc("List", w, "s");
  }

  /**
   * With the rule as written, a resource named by a capitalised word ending in a
   * vowel and `y` trades the `y` for `ies`: `DayResource` is served under `/daies`
   * and lists through `ListDaies`.
   */
  lemma VowelYPlural(w: string)
    requires CapitalWord(w) && 'R' !in w && |w| >= 3 && EndsInVowelY(w)
    ensures HttpEndpoint(None, w + ResourceWord) == "/" + Lower(w)[..|w| - 1] + "ies"
    ensures RpcMethodName(w + ResourceWord, "list") == "List" + w[..|w| - 1] + "ies"
  {
    assert HttpEndpoint(None, w + ResourceWord) == "/" + Lower(w)[..|w| - 1] + "ies" by {
      LowerKeepsTail(w);
      PluralAsWrittenAtY(Lower(w));
      PluralEndpoint(w, Lower(w)[..|w| - 1] + "ies");
      AppendAssoc("/", Lower(w)[..|w| - 1], "ies");
    }
    PluralAsWrittenAtY(w);
    PluralListMethod(w, w[..|w| - 1] + "ies");
    AppendAssoc("List", w[..|w| - 1], "ies");
  }

  lemma PluralEndpoint(w: string, plural: string)
    requires CapitalWord(w) && 'R' !in w && PluralizeAsWritten(Lower(w)) == plural
    ensures HttpEndpoint(None, w + ResourceWord) == "/" + plural
  {
    CapitalWordsEndpoint(w);
  }

  lemma PluralListMethod(w: string, plural: string)
    requires 'R' !in w && PluralizeAsWritten(w) == plural
    ensures RpcMethodName(w + ResourceWord, "list") == "List" + plural
  {
    NoOccurrenceWithoutFirstLetter(w, ResourceWord, ResourceWord);
    RpcMethodNames(w, "list");
    assert Capitalize("list") == "List";
  }

  /** Lower-casing a capitalised word of three or more letters keeps its last two. */
  lemma LowerKeepsTail(w: string)
    requires CapitalWord(w) && |w| >= 3
    ensures var l := Lower(w); |l| == |w| && l[|w| - 1] == w[|w| - 1] && l[|w| - 2] == w[|w| - 2]
  {
  }

  /** A single capitalised word without an `R` is served under its own lower-cased plural. */
  lemma CapitalWordsEndpoint(w: string)
    requires CapitalWord(w) && 'R' !in w
    ensures NoInnerResource(w)
    ensures HttpEndpoint(None, w + ResourceWord) == "/" + PluralizeAsWritten(Lower(w))
  {
    NoOccurrenceWithoutFirstLetter(w, ResourceWord, ResourceWord);
    assert Concat([w]) == w;
    EndpointOfWords([w]);
    assert PluralizeLast(LowerWords([w])) == [PluralizeAsWritten(Lower(w))];
  }

  /** The response message of a servicer: fixed for the generic actions, none for a custom one. */
  function ResponseType(action: string): (r: Option<EnvelopeType>)
    ensures r.Some? <==> action in GenericActionNames
    ensures r == Some(TListResponse) <==> action == "list"
    ensures r == Some(TResultResponse) <==> action == "delete"
    ensures r == Some(TItemResponse) <==> action in ["create", "get", "update"]
  {
    if action == "list" then Some(TListResponse)
    else if action == "create" then Some(TItemResponse)
    else if action == "get" then Some(TItemResponse)
    else if action == "update" then Some(TItemResponse)
    else if action == "delete" then Some(TResultResponse)
    else None
  }

  // ---------------------------------------------------------------- emission order

  predicate IsGenericName(name: string) { name in GenericActionNames }

  /** The custom action names, in their order. */
  function Customs(names: seq<string>): (r: seq<string>)
    ensures forall i :: 0 <= i < |r| ==> !IsGenericName(r[i]) && r[i] in names
  {
    if names == [] then []
    else (if IsGenericName(names[0]) then [] else [names[0]]) + Customs(names[1..])
  }

  /** The generic action names, in their order. */
  function Generics(names: seq<string>): (r: seq<string>)
    ensures forall i :: 0 <= i < |r| ==> IsGenericName(r[i]) && r[i] in names
  {
    if names == [] then []
    else (if IsGenericName(names[0]) then [names[0]] else []) + Generics(names[1..])
  }

  /** `sorted(_actions.keys(), key=lambda x: x in GENERIC_ACTIONS)`. */
  function EmitOrder(names: seq<string>): (r: seq<string>)
    ensures forall i :: 0 <= i < |r| ==> r[i] in names
  {
    Customs(names) + Generics(names)
  }

  lemma {:induction false} PartitionMultiset(names: seq<string>)
    ensures multiset(Customs(names)) + multiset(Generics(names)) == multiset(names)
  {
    if names != [] {
      PartitionMultiset(names[1..]);
      assert names == [names[0]] + names[1..];
    }
  }

  lemma {:induction false} FilterAppend(a: seq<string>, b: seq<string>)
    ensures Customs(a + b) == Customs(a) + Customs(b)
    ensures Generics(a + b) == Generics(a) + Generics(b)
  {
    if a != [] {
      FilterAppend(a[1..], b);
      assert (a + b)[0] == a[0] && (a + b)[1..] == a[1..] + b;
      var c, g := if IsGenericName(a[0]) then [] else [a[0]], if IsGenericName(a[0]) then [a[0]] else [];
      AppendAssoc(c, Customs(a[1..]), Customs(b));
      AppendAssoc(g, Generics(a[1..]), Generics(b));
    } else {
      assert a + b == b;
    }
  }

  lemma {:induction false} FilterIdempotent(names: seq<string>)
    ensures Customs(Customs(names)) == Customs(names) && Generics(Customs(names)) == []
    ensures Generics(Generics(names)) == Generics(names) && Customs(Generics(names)) == []
  {
    if names != [] {
      FilterIdempotent(names[1..]);
      var c := Customs(names);
      var g := Generics(names);
      if IsGenericName(names[0]) {
        assert c == Customs(names[1..]);
        assert g == [names[0]] + Generics(names[1..]);
        assert g[0] == names[0] && g[1..] == Generics(names[1..]);
      } else {
        assert g == Generics(names[1..]);
        assert c == [names[0]] + Customs(names[1..]);
        assert c[0] == names[0] && c[1..] == Customs(names[1..]);
      }
    }
  }

  /**
   * The emission order is a stable sort on "is generic": a permutation of the registered
   * names, every custom action before every generic one, and the relative order of the
   * custom actions, and of the generic ones, kept.
   */
  lemma EmitOrderIsStableSort(names: seq<string>)
    ensures multiset(EmitOrder(names)) == multiset(names)
    ensures forall i, j :: 0 <= i < j < |EmitOrder(names)| && IsGenericName(EmitOrder(names)[i]) ==>
      IsGenericName(EmitOrder(names)[j])
    ensures Customs(EmitOrder(names)) == Customs(names)
    ensures Generics(EmitOrder(names)) == Generics(names)
  {
    PartitionMultiset(names);
    FilterAppend(Customs(names), Generics(names));
    FilterIdempotent(names);
    var e := EmitOrder(names);
    forall i, j | 0 <= i < j < |e| && IsGenericName(e[i]) ensures IsGenericName(e[j]) {
      assert i >= |Customs(names)|;
    }
  }

  // ---------------------------------------------------------------- routes

  /** An API route as `add_api_route` receives it. */
  datatype Route = Route(path: string, methods: seq<string>, action: string)

  /** `'/{%s}' % primary_key` */
  const DetailPath: string := "/{id}"

  /** The path of a custom action: `/{id}` when `detail` is truthy, then `/` and the name with `_` turned into `-`. */
  function CustomPath(action: string, detail: Value): (p: string)
    ensures |p| == (if Truthy(detail) then |DetailPath| + 1 else 1) + |action|
    ensures StartsWith(p, if Truthy(detail) then DetailPath + "/" else "/")
    ensures forall i :: 0 <= i < |action| ==>
      p[|p| - |action| + i] == if action[i] == '_' then '-' else action[i]
  {
    ReplaceChar(action, '_', '-');
    (if Truthy(detail) then DetailPath else "") + "/" + ReplaceAll(action, "_", "-")
  }

  /** The route `add_route` registers for an action. */
  function RouteFor(action: string, info: ActionInfo): (r: Route)
    ensures r.action == action
  {
    if action == "list" then Route("", ["GET"], action)
    else if action == "create" then Route("", ["POST"], action)
    else if action == "get" then Route(DetailPath, ["GET"], action)
    else if action == "update" then Route(DetailPath, ["PATCH"], action)
    else if action == "delete" then Route(DetailPath, ["DELETE"], action)
    else Route(CustomPath(action, info.detail), info.methods, action)
  }

  /** A Python identifier: letters, digits and `_`. */
  predicate IsIdentifier(s: string) {
    forall i :: 0 <= i < |s| ==> IsLower(s[i]) || IsUpper(s[i]) || IsDigit(s[i]) || s[i] == '_'
  }

  /**
   * A custom path holds no `_`, begins with `/{id}/` exactly when `detail` is truthy, and
   * gives the action name back when its `-` are turned into `_` again.
   */
  lemma CustomPathShape(action: string, detail: Value)
    requires IsIdentifier(action)
    ensures '_' !in CustomPath(action, detail)
    ensures StartsWith(CustomPath(action, detail), DetailPath + "/") <==> Truthy(detail)
    ensures var p := CustomPath(action, detail);
      ReplaceAll(p[if Truthy(detail) then |DetailPath| + 1 else 1..], "-", "_") == action
  {
    var t := ReplaceAll(action, "_", "-");
    DashRoundTrip(action);
    CustomPathParts(action, detail);
    var p := CustomPath(action, detail);
    var k := if Truthy(detail) then 6 else 1;
    forall i | 0 <= i < |p| ensures p[i] != '_' {
      if i >= k {
        assert p[i] == t[i - k];
      } else {
        assert p[i] == p[..k][i];
      }
    }
    if !Truthy(detail) && |p| >= 6 {
      assert p[1] == t[0] && p[1] != '{';
      assert p[..6][1] == p[1];
    }
  }

  /** Turning `_` into `-` and back restores an identifier, and the dashed form has no `_`. */
  lemma DashRoundTrip(action: string)
    requires IsIdentifier(action)
    ensures var t := ReplaceAll(action, "_", "-");
      |t| == |action| && '_' !in t && ReplaceAll(t, "-", "_") == action &&
      (|t| > 0 ==> t[0] != '{')
  {
    var t := ReplaceAll(action, "_", "-");
    ReplaceChar(action, '_', '-');
    ReplaceChar(t, '-', '_');
    var back := ReplaceAll(t, "-", "_");
    forall i | 0 <= i < |action| ensures back[i] == action[i] {
      assert action[i] != '-';
    }
  }

  /** A custom path is its prefix followed by the dashed action name. */
  lemma CustomPathParts(action: string, detail: Value)
    ensures var p := CustomPath(action, detail);
      var k := if Truthy(detail) then |DetailPath| + 1 else 1;
      |p| >= k && p[..k] == (if Truthy(detail) then DetailPath + "/" else "/") &&
      p[k..] == ReplaceAll(action, "_", "-")
  {
  }

  /** The routes `__call__` adds for the names, in order, skipping names the class lacks. */
  function RoutesOf(names: seq<string>, infos: map<string, ActionInfo>, attributes: set<string>): (rs: seq<Route>)
    requires forall i :: 0 <= i < |names| ==> names[i] in infos
    ensures |rs| <= |names|
    ensures forall k :: 0 <= k < |rs| ==> rs[k].action in names && rs[k].action in attributes
    decreases |names|
  {
    if names == [] then []
    else
      var init := names[..|names| - 1];
      var last := names[|names| - 1];
      var front := RoutesOf(init, infos, attributes);
      assert forall k :: 0 <= k < |front| ==> front[k].action in names by {
        forall k | 0 <= k < |front| ensures front[k].action in names {
          var i :| 0 <= i < |init| && init[i] == front[k].action;
          assert names[i] == init[i];
        }
      }
      front + (if last in attributes then [RouteFor(last, infos[last])] else [])
  }

  /** The routes of one more name: its route is appended when the class has it. */
  lemma RoutesOfStep(names: seq<string>, infos: map<string, ActionInfo>, attributes: set<string>, i: nat)
    requires i < |names| && forall j :: 0 <= j < |names| ==> names[j] in infos
    ensures RoutesOf(names[..i + 1], infos, attributes) ==
      RoutesOf(names[..i], infos, attributes) + (if names[i] in attributes then [RouteFor(names[i], infos[names[i]])] else [])
  {
    assert names[..i + 1][..i] == names[..i];
  }

  /** Every name the class has gets a route; names it lacks get none. */
  lemma {:induction false} RoutesCover(names: seq<string>, infos: map<string, ActionInfo>, attributes: set<string>, i: nat)
    requires forall j :: 0 <= j < |names| ==> names[j] in infos
    requires i < |names| && names[i] in attributes
    ensures exists k :: (0 <= k < |RoutesOf(names, infos, attributes)| &&
                         RoutesOf(names, infos, attributes)[k] == RouteFor(names[i], infos[names[i]]))
    decreases |names|
  {
    var front := names[..|names| - 1];
    if i < |names| - 1 {
      assert front[i] == names[i];
      RoutesCover(front, infos, attributes, i);
      var k :| 0 <= k < |RoutesOf(front, infos, attributes)| &&
        RoutesOf(front, infos, attributes)[k] == RouteFor(front[i], infos[front[i]]);
      assert RoutesOf(names, infos, attributes)[k] == RoutesOf(front, infos, attributes)[k];
    } else {
      var rs := RoutesOf(names, infos, attributes);
      assert rs[|rs| - 1] == RouteFor(names[i], infos[names[i]]);
    }
  }

  /** Custom actions come first among the names. */
  predicate CustomFirst(names: seq<string>) {
    forall i, j :: 0 <= i < j < |names| && IsGenericName(names[i]) ==> IsGenericName(names[j])
  }

  /** Custom routes come first among the routes. */
  predicate CustomRoutesFirst(rs: seq<Route>) {
    forall i, j :: 0 <= i < j < |rs| && IsGenericName(rs[i].action) ==> IsGenericName(rs[j].action)
  }

  /** Routes keep the order of the names they come from, so custom routes precede generic ones. */
  lemma {:induction false} RoutesCustomFirst(names: seq<string>, infos: map<string, ActionInfo>, attributes: set<string>)
    requires forall i :: 0 <= i < |names| ==> names[i] in infos
    requires CustomFirst(names)
    ensures CustomRoutesFirst(RoutesOf(names, infos, attributes))
    decreases |names|
  {
    if names != [] {
      var front := names[..|names| - 1];
      var last := names[|names| - 1];
      assert CustomFirst(front) by {
        forall i, j | 0 <= i < j < |front| && IsGenericName(front[i]) ensures IsGenericName(front[j]) {
          assert front[i] == names[i] && front[j] == names[j];
        }
      }
      RoutesCustomFirst(front, infos, attributes);
      var fr := RoutesOf(front, infos, attributes);
      var rs := RoutesOf(names, infos, attributes);
      assert rs == fr + (if last in attributes then [RouteFor(last, infos[last])] else []);
      forall i, j | 0 <= i < j < |rs| && IsGenericName(rs[i].action) ensures IsGenericName(rs[j].action) {
        if j == |fr| {
          var m :| 0 <= m < |front| && fr[i].action == front[m] && front[m] in attributes;
          assert rs[i] == fr[i] && front[m] == names[m];
          assert IsGenericName(names[m]) && m < |names| - 1;
          assert IsGenericName(names[|names| - 1]);
          assert rs[j].action == last;
        } else {
          assert rs[i] == fr[i] && rs[j] == fr[j];
        }
      }
    }
  }

  /** Every registered name is emitted. */
  lemma {:induction false} EmittedName(names: seq<string>, x: string)
    requires x in names
    ensures x in EmitOrder(names)
  {
    if names[0] != x {
      assert x in names[1..];
      EmittedName(names[1..], x);
    }
  }

  /**
   * What `RouterGenerator.__call__` emits for a registry: custom routes before generic
   * ones, and only routes of registered actions the class has.
   */
  lemma EmittedRoutesOrder(actions: OrderedMaps.OrderedMap<string, ActionInfo>, attributes: set<string>)
    requires OrderedMaps.Valid(actions)
    ensures CustomRoutesFirst(RoutesOf(EmitOrder(actions.keys), actions.values, attributes))
    ensures var rs := RoutesOf(EmitOrder(actions.keys), actions.values, attributes);
      forall k :: 0 <= k < |rs| ==> rs[k].action in actions.values && rs[k].action in attributes
  {
    EmitOrderIsStableSort(actions.keys);
    assert CustomFirst(EmitOrder(actions.keys));
    RoutesCustomFirst(EmitOrder(actions.keys), actions.values, attributes);
  }

  /** Every registered action the class has gets its route. */
  lemma EmittedRouteFor(actions: OrderedMaps.OrderedMap<string, ActionInfo>, attributes: set<string>, name: string)
    requires OrderedMaps.Valid(actions)
    requires name in actions.values && name in attributes
    ensures exists k :: (0 <= k < |RoutesOf(EmitOrder(actions.keys), actions.values, attributes)| &&
                         RoutesOf(EmitOrder(actions.keys), actions.values, attributes)[k] == RouteFor(name, actions.values[name]))
  {
    var order := EmitOrder(actions.keys);
    assert name in actions.keys;
    EmittedName(actions.keys, name);
    var i :| 0 <= i < |order| && order[i] == name;
    RoutesCover(order, actions.values, attributes, i);
  }

  // ---------------------------------------------------------------- permissions

  /** The HTTP error a route raises. */
  datatype HttpError = HttpError(status: int, detail: string)

  const PermissionDenied: HttpError := HttpError(403, "Permission Denied")

  /** The index of the first failing check, or the number of checks when none fails. */
  function FirstFailure(checks: seq<bool>): (n: nat)
    ensures n <= |checks|
    ensures forall i :: 0 <= i < n ==> checks[i]
    ensures n < |checks| ==> !checks[n]
  {
    if checks == [] || !checks[0] then 0 else 1 + FirstFailure(checks[1..])
  }

  // ---------------------------------------------------------------- generators

  /** `next(iter(item.keys()))` on an empty dict. */
  datatype GeneratorError = EmptyFilterEntry(index: nat)

  /** The first entry of each filter declaration. */
  function FirstEntries(items: seq<seq<(string, FilterType)>>): (ps: seq<(string, FilterType)>)
    requires forall i :: 0 <= i < |items| ==> items[i] != []
    ensures |ps| == |items| && forall i :: 0 <= i < |items| ==> ps[i] == items[i][0]
  {
    seq(|items|, i requires 0 <= i < |items| => items[i][0])
  }

  /** Assigning the first entry of one more declaration. */
  lemma FiltersStep(items: seq<seq<(string, FilterType)>>, i: nat)
    requires i < |items| && forall j :: 0 <= j <= i ==> items[j] != []
    ensures OrderedMaps.FromPairs(FirstEntries(items[..i + 1])) ==
      OrderedMaps.Put(OrderedMaps.FromPairs(FirstEntries(items[..i])), items[i][0].0, items[i][0].1)
  {
    var ps := FirstEntries(items[..i + 1]);
    assert ps[..i] == FirstEntries(items[..i]);
  }

  /**
   * `_get_ordered_filters`: the first key and value of each declared dict, assigned in
   * list order into an ordered dictionary (so a later duplicate key replaces the value
   * but keeps the first position); an empty dict stops it.
   */
  method GetOrderedFilters(items: seq<seq<(string, FilterType)>>)
    returns (r: Result<OrderedMaps.OrderedMap<string, FilterType>, GeneratorError>)
    ensures r.Err? <==> exists i :: 0 <= i < |items| && items[i] == []
    ensures r.Err? ==> (r.error.index < |items| && items[r.error.index] == [] &&
                        forall i :: 0 <= i < r.error.index ==> items[i] != [])
    ensures r.Ok? ==> r.value == OrderedMaps.FromPairs(FirstEntries(items))
  {
    var filters := OrderedMaps.Empty();
    var i := 0;
    while i < |items|
      invariant 0 <= i <= |items|
      invariant forall j :: 0 <= j < i ==> items[j] != []
      invariant filters == OrderedMaps.FromPairs(FirstEntries(items[..i]))
    {
      if items[i] == [] {
        return Err(EmptyFilterEntry(i));
      }
      FiltersStep(items, i);
      filters := OrderedMaps.Put(filters, items[i][0].0, items[i][0].1);
      i := i + 1;
    }
    assert items[..i] == items;
    return Ok(filters);
  }

  /** A router under construction: the routes added so far. */
  class RouterGenerator {
    const cls: ResourceClass
    const actions: OrderedMaps.OrderedMap<string, ActionInfo>
    const orderedFilters: OrderedMaps.OrderedMap<string, FilterType>
    var routes: seq<Route>

    ghost predicate Valid()
      reads this
    {
      OrderedMaps.Valid(actions)
    }

    constructor (cls: ResourceClass, actions: OrderedMaps.OrderedMap<string, ActionInfo>,
                 orderedFilters: OrderedMaps.OrderedMap<string, FilterType>)
      requires OrderedMaps.Valid(actions)
      ensures Valid()
      ensures this.cls == cls && this.actions == actions && this.orderedFilters == orderedFilters
      ensures routes == []
    {
      this.cls := cls;
      this.actions := actions;
      this.orderedFilters := orderedFilters;
      routes := [];
    }

    /** `__call__`: one route per registered action the class has, custom actions first. */
    method Call()
      requires Valid()
      modifies this
      ensures routes == old(routes) + RoutesOf(EmitOrder(actions.keys), actions.values, cls.attributes)
    {
      var order := EmitOrder(actions.keys);
      assert forall j :: 0 <= j < |order| ==> order[j] in actions.values;
      AddRoutesInOrder(order);
    }

    /** The loop of `__call__`: `add_route` for each name in turn that the class has. */
    method AddRoutesInOrder(order: seq<string>)
      requires forall j :: 0 <= j < |order| ==> order[j] in actions.values
      modifies this
      ensures routes == old(routes) + RoutesOf(order, actions.values, cls.attributes)
    {
      ghost var added: seq<Route> := [];
      var i := 0;
      while i < |order|
        invariant 0 <= i <= |order|
        invariant routes == old(routes) + added
        invariant added == RoutesOf(order[..i], actions.values, cls.attributes)
      {
        var action := order[i];
        RoutesOfStep(order, actions.values, cls.attributes, i);
        if action in cls.attributes {
          AppendAssoc(old(routes), added, [RouteFor(action, actions.values[action])]);
          AddRoute(action, actions.values[action]);
          added := added + [RouteFor(action, actions.values[action])];
        }
        i := i + 1;
      }
      assert order[..i] == order;
    }

    /** `add_route(action, extra)`: the route of one action is added to the router. */
    method AddRoute(action: string, info: ActionInfo)
      modifies this
      ensures routes == old(routes) + [RouteFor(action, info)]
    {
      routes := routes + [RouteFor(action, info)];
    }

    /**
     * `check_permissions`: the permission classes in declared order; the first whose
     * `check()` fails raises 403 and the later ones are not run.
     */
    method CheckPermissions(check: string -> bool) returns (denied: Option<HttpError>, ran: nat)
      ensures denied.Some? <==> exists i :: 0 <= i < |cls.permissions| && !check(cls.permissions[i])
      ensures denied.Some? ==> denied.value == PermissionDenied
      ensures var results := seq(|cls.permissions|, i requires 0 <= i < |cls.permissions| => check(cls.permissions[i]));
        ran == if denied.Some? then FirstFailure(results) + 1 else |cls.permissions|
    {
      ghost var results := seq(|cls.permissions|, i requires 0 <= i < |cls.permissions| => check(cls.permissions[i]));
      ran := 0;
      while ran < |cls.permissions|
        invariant 0 <= ran <= |cls.permissions|
        invariant forall j :: 0 <= j < ran ==> check(cls.permissions[j])
      {
        if !check(cls.permissions[ran]) {
          assert forall j :: 0 <= j < ran ==> results[j];
          assert !results[ran];
          assert FirstFailure(results) == ran;
          return Some(PermissionDenied), ran + 1;
        }
        ran := ran + 1;
      }
      assert forall j :: 0 <= j < |results| ==> results[j];
      assert FirstFailure(results) == |results|;
      return None, ran;
    }
  }

  /** `RouterGenerator(cls)`: the ordered filters are read when the generator is built. */
  method NewRouterGenerator(cls: ResourceClass, actions: OrderedMaps.OrderedMap<string, ActionInfo>)
    returns (r: Result<RouterGenerator, GeneratorError>)
    requires OrderedMaps.Valid(actions)
    ensures r.Err? <==> exists i :: 0 <= i < |cls.filters| && cls.filters[i] == []
    ensures r.Ok? ==> (fresh(r.value) && r.value.Valid() && r.value.routes == [] && r.value.cls == cls &&
                       r.value.actions == actions &&
                       r.value.orderedFilters == OrderedMaps.FromPairs(FirstEntries(cls.filters)))
  {
    var filters := GetOrderedFilters(cls.filters);
    if filters.Err? {
      return Err(filters.error);
    }
    var g := new RouterGenerator(cls, actions, filters.value);
    return Ok(g);
  }

  /** A servicer method: the action it calls and the response message it builds. */
  datatype Servicer = Servicer(action: string, response: Option<EnvelopeType>)

  /** `app._rpc_servicer`: the object the servicer methods are set on. */
  class RpcServicer {
    var methods: map<string, Servicer>

    constructor ()
      ensures methods == map[]
    {
      methods := map[];
    }
  }

  /** Installing one more name: the method it maps to is (re)set when the class has the action. */
  function InstallOne(m: map<string, Servicer>, cls: ResourceClass, name: string): map<string, Servicer> {
    if name in cls.attributes then m[RpcMethodName(cls.name, name) := Servicer(name, ResponseType(name))] else m
  }

  /** The methods `setattr` leaves after installing the names in order, skipping names the class lacks. */
  function Install(m: map<string, Servicer>, cls: ResourceClass, names: seq<string>): (r: map<string, Servicer>)
    ensures forall meth :: meth in r <==> (meth in m ||
      exists i :: 0 <= i < |names| && names[i] in cls.attributes && RpcMethodName(cls.name, names[i]) == meth)
    decreases |names|
  {
    if names == [] then m
    else
      var front := Install(m, cls, names[..|names| - 1]);
      InstallKeysStep(m, cls, names, names[..|names| - 1], front);
      InstallOne(front, cls, names[|names| - 1])
  }

  /** The names of the methods after one more installation, given those before it. */
  lemma InstallKeysStep(m: map<string, Servicer>, cls: ResourceClass, names: seq<string>, init: seq<string>,
                        front: map<string, Servicer>)
    requires names != [] && init == names[..|names| - 1]
    requires forall meth :: meth in front <==> (meth in m ||
      exists i :: 0 <= i < |init| && init[i] in cls.attributes && RpcMethodName(cls.name, init[i]) == meth)
    ensures forall meth :: meth in InstallOne(front, cls, names[|names| - 1]) <==> (meth in m ||
      exists i :: 0 <= i < |names| && names[i] in cls.attributes && RpcMethodName(cls.name, names[i]) == meth)
  {
    var last := names[|names| - 1];
    var r := InstallOne(front, cls, last);
    forall meth | meth in r && meth !in m
      ensures exists i :: 0 <= i < |names| && names[i] in cls.attributes && RpcMethodName(cls.name, names[i]) == meth
    {
      if !(last in cls.attributes && meth == RpcMethodName(cls.name, last)) {
        var i :| 0 <= i < |init| && init[i] in cls.attributes && RpcMethodName(cls.name, init[i]) == meth;
        assert names[i] == init[i];
      }
    }
    forall meth | exists i :: 0 <= i < |names| && names[i] in cls.attributes && RpcMethodName(cls.name, names[i]) == meth
      ensures meth in r
    {
      var i :| 0 <= i < |names| && names[i] in cls.attributes && RpcMethodName(cls.name, names[i]) == meth;
      if i < |names| - 1 {
        assert init[i] == names[i];
      }
    }
  }

  /** Installing a prefix one name longer installs that name on top of the shorter prefix. */
  lemma InstallStep(m: map<string, Servicer>, cls: ResourceClass, names: seq<string>, i: nat)
    requires i < |names|
    ensures Install(m, cls, names[..i + 1]) == InstallOne(Install(m, cls, names[..i]), cls, names[i])
  {
    assert names[..i + 1][..i] == names[..i];
  }

  /** The method installed last under a name serves the last action that maps to it. */
  lemma {:induction false} InstalledServicer(m: map<string, Servicer>, cls: ResourceClass, names: seq<string>, i: nat)
    requires i < |names| && names[i] in cls.attributes
    requires forall j :: i < j < |names| && names[j] in cls.attributes ==>
      RpcMethodName(cls.name, names[j]) != RpcMethodName(cls.name, names[i])
    ensures Install(m, cls, names)[RpcMethodName(cls.name, names[i])] == Servicer(names[i], ResponseType(names[i]))
    decreases |names|
  {
    if i < |names| - 1 {
      var front := names[..|names| - 1];
      var key := RpcMethodName(cls.name, names[i]);
      assert front[i] == names[i];
      forall j | i < j < |front| && front[j] in cls.attributes
        ensures RpcMethodName(cls.name, front[j]) != key
      {
        assert front[j] == names[j];
      }
      InstalledServicer(m, cls, front, i);
    }
  }

  class ServicerGenerator {
    const cls: ResourceClass
    const actions: OrderedMaps.OrderedMap<string, ActionInfo>

    constructor (cls: ResourceClass, actions: OrderedMaps.OrderedMap<string, ActionInfo>)
      ensures this.cls == cls && this.actions == actions
    {
      this.cls := cls;
      this.actions := actions;
    }

    /** `__call__(app)`: one servicer method per registered action the class has, custom actions first. */
    method Call(app: RpcServicer)
      modifies app
      ensures app.methods == Install(old(app.methods), cls, EmitOrder(actions.keys))
    {
      var order := EmitOrder(actions.keys);
      var i := 0;
      while i < |order|
        invariant 0 <= i <= |order|
        invariant app.methods == Install(old(app.methods), cls, order[..i])
      {
        var action := order[i];
        InstallStep(old(app.methods), cls, order, i);
        ghost var before := app.methods;
        if action in cls.attributes {
          app.methods := app.methods[RpcMethodName(cls.name, action) := Servicer(action, ResponseType(action))];
        }
        assert app.methods == InstallOne(before, cls, action);
        i := i + 1;
      }
      assert order[..i] == order;
    }
  }
}

=== FILE: routing.dfy ===
/**
 * The request handler of bali's `APIRoute`: a sync endpoint is wrapped so that it releases
 * the scoped session when it raises and otherwise hands the session back with its
 * response; the handler unpacks that pair and releases the session once the response is
 * built. `session_persist` runs its release after the `with` body without a `finally`.
 */
module Routing {
  import opened Wrappers
  import opened Values
  import opened SessionControl

  /** What an endpoint returns: a ready `Response` (with or without background tasks), or content to serialise. */
  datatype Raw = ResponseObject(background: Option<nat>) | Content(content: Value)

  /** How the endpoint itself ends. */
  datatype EndpointOutcome = Returns(raw: Raw) | Raises

  /** What the (possibly wrapped) endpoint hands the handler: the raw response, with the session when wrapped. */
  datatype EndpointReturn = Bare(raw: Raw) | WithSession(raw: Raw, session: ScopedSession)

  /** The response the handler returns. */
  datatype Reply =
    | Passed(background: Option<nat>)
    | Built(content: Value, background: Option<nat>, status: int)

  datatype HandlerError = ValidationFailed | EndpointRaised | SerializationFailed

  /**
   * The part of a request that does not depend on the session: whether dependency
   * resolution reported errors, the background tasks it produced, the route's status code
   * and the sub-response's status code (0 when unset), and the response serialiser (None
   * when it raises).
   */
  datatype RequestContext = RequestContext(
    errors: bool,
    backgroundTasks: Option<nat>,
    statusCode: int,
    subStatus: int,
    serialize: Value -> Option<Value>)

  /**
   * `_inject_scoped_session_clear(endpoint)(...)`: when the endpoint raises, the session is
   * removed once and the exception propagates; otherwise the response comes back paired
   * with the session, which is not removed.
   */
  method InjectedEndpoint(db: ScopedSession, endpoint: EndpointOutcome) returns (r: Result<EndpointReturn, HandlerError>)
    modifies db
    ensures endpoint.Raises? ==> r == Err(EndpointRaised) && db.removals == old(db.removals) + 1
    ensures endpoint.Returns? ==> r == Ok(WithSession(endpoint.raw, db)) && db.removals == old(db.removals)
  {
    if endpoint.Raises? {
      db.Remove();
      return Err(EndpointRaised);
    }
    return Ok(WithSession(endpoint.raw, db));
  }

  /** The body of the `with session_persist(...)` block: a ready response gets the tasks only if it has none. */
  function Respond(raw: Raw, ctx: RequestContext): (r: Result<Reply, HandlerError>)
    ensures raw.ResponseObject? ==>
      r == Ok(Passed(if raw.background.None? then ctx.backgroundTasks else raw.background))
    ensures raw.Content? ==> (r.Err? <==> ctx.serialize(raw.content).None?)
    ensures raw.Content? && r.Ok? ==>
      r.value.Built? && r.value.content == ctx.serialize(raw.content).value &&
      r.value.background == ctx.backgroundTasks &&
      r.value.status == (if ctx.subStatus != 0 then ctx.subStatus else ctx.statusCode)
  {
    match raw
    case ResponseObject(bg) => Ok(Passed(if bg.None? then ctx.backgroundTasks else bg))
    case Content(v) =>
      match ctx.serialize(v)
      case None => Err(SerializationFailed)
      case Some(data) => Ok(Built(data, ctx.backgroundTasks, if ctx.subStatus != 0 then ctx.subStatus else ctx.statusCode))
  }

  /**
   * `with session_persist(session): ...` as written: the release follows the `yield`
   * without `finally`, so it happens only when the body completes.
   */
  method SessionPersistAsWritten(session: Option<ScopedSession>, raw: Raw, ctx: RequestContext)
    returns (r: Result<Reply, HandlerError>)
    modifies if session.Some? then {session.value} else {}
    ensures r == Respond(raw, ctx)
    ensures session.Some? ==>
      session.value.removals == old(session.value.removals) + (if r.Ok? then 1 else 0)
  {
    r := Respond(raw, ctx);
    if r.Err? {
      return;  // the exception is thrown into the generator at `yield` and propagates
    }
    if session.Some? {
      session.value.Remove();
    }
  }

  /** `session_persist` with the release in a `finally`: the session is removed however the body ends. */
  method SessionPersist(session: Option<ScopedSession>, raw: Raw, ctx: RequestContext)
    returns (r: Result<Reply, HandlerError>)
    modifies if session.Some? then {session.value} else {}
    ensures r == Respond(raw, ctx)
    ensures session.Some? ==> session.value.removals == old(session.value.removals) + 1
  {
    r := Respond(raw, ctx);
    if session.Some? {
      session.value.Remove();
    }
  }

  /** What the handler returns, for any session handling. */
  function HandlerResult(isCoroutine: bool, endpoint: EndpointOutcome, ctx: RequestContext): (r: Result<Reply, HandlerError>)
    ensures ctx.errors ==> r == Err(ValidationFailed)
    ensures !ctx.errors && endpoint.Raises? ==> r == Err(EndpointRaised)
    ensures !ctx.errors && endpoint.Returns? ==> r == Respond(endpoint.raw, ctx)
  {
    if ctx.errors then Err(ValidationFailed)
    else if endpoint.Raises? then Err(EndpointRaised)
    else Respond(endpoint.raw, ctx)
  }

  /**
   * How many times the handler as written removes the session: never for a coroutine
   * endpoint or a request that fails validation; once for a sync endpoint that raises or
   * whose response is built; never when serialising its response raises.
   */
  function RemovalsAsWritten(isCoroutine: bool, endpoint: EndpointOutcome, ctx: RequestContext): nat {
    if ctx.errors || isCoroutine then 0
    else if endpoint.Raises? then 1
    else if Respond(endpoint.raw, ctx).Ok? then 1
    else 0
  }

  /** How many times the handler removes the session once the release sits in a `finally`. */
  function Removals(isCoroutine: bool, endpoint: EndpointOutcome, ctx: RequestContext): nat {
    if ctx.errors || isCoroutine then 0 else 1
  }

  /**
   * `get_request_handler(...).app(request)` on an `APIRoute`, as written: validation
   * errors stop the request before the endpoint; a sync endpoint runs wrapped; a returned
   * pair is unpacked into the response and the session; the response is built inside
   * `session_persist`.
   */
  method HandleAsWritten(db: ScopedSession, isCoroutine: bool, endpoint: EndpointOutcome, ctx: RequestContext)
    returns (r: Result<Reply, HandlerError>)
    modifies db
    ensures r == HandlerResult(isCoroutine, endpoint, ctx)
    ensures db.removals == old(db.removals) + RemovalsAsWritten(isCoroutine, endpoint, ctx)
  {
    if ctx.errors {
      return Err(ValidationFailed);
    }
    var returned: EndpointReturn;
    if isCoroutine {
      if endpoint.Raises? {
        return Err(EndpointRaised);
      }
      returned := Bare(endpoint.raw);
    } else {
      var wrapped := InjectedEndpoint(db, endpoint);
      if wrapped.Err? {
        return Err(wrapped.error);
      }
      returned := wrapped.value;
    }
    var session: Option<ScopedSession> := if returned.WithSession? then Some(returned.session) else None;
    r := SessionPersistAsWritten(session, returned.raw, ctx);
  }

  /** The same handler with `session_persist` releasing in a `finally`. */
  method Handle(db: ScopedSession, isCoroutine: bool, endpoint: EndpointOutcome, ctx: RequestContext)
    returns (r: Result<Reply, HandlerError>)
    modifies db
    ensures r == HandlerResult(isCoroutine, endpoint, ctx)
    ensures db.removals == old(db.removals) + Removals(isCoroutine, endpoint, ctx)
  {
    if ctx.errors {
      return Err(ValidationFailed);
    }
    var returned: EndpointReturn;
    if isCoroutine {
      if endpoint.Raises? {
        return Err(EndpointRaised);
      }
      returned := Bare(endpoint.raw);
    } else {
      var wrapped := InjectedEndpoint(db, endpoint);
      if wrapped.Err? {
        return Err(wrapped.error);
      }
      returned := wrapped.value;
    }
    var session: Option<ScopedSession> := if returned.WithSession? then Some(returned.session) else None;
    r := SessionPersist(session, returned.raw, ctx);
  }

  /**
   * As written, a sync endpoint whose response fails to serialise leaves the session in
   * place; the handler with `finally` removes it.
   */
  lemma SerializationFailureKeepsSession(v: Value, ctx: RequestContext)
    requires !ctx.errors && ctx.serialize(v).None?
    ensures HandlerResult(false, Returns(Content(v)), ctx) == Err(SerializationFailed)
    ensures RemovalsAsWritten(false, Returns(Content(v)), ctx) == 0
    ensures Removals(false, Returns(Content(v)), ctx) == 1
  {
  }

  /**
   * With the release in a `finally`, every request to a sync endpoint that passes
   * validation removes the session exactly once, on every path; the written handler
   * agrees everywhere except on a failed serialisation.
   */
  lemma SyncEndpointsReleaseOnce(endpoint: EndpointOutcome, ctx: RequestContext)
    requires !ctx.errors
    ensures Removals(false, endpoint, ctx) == 1
    ensures RemovalsAsWritten(false, endpoint, ctx) == 1 <==>
      !(endpoint.Returns? && endpoint.raw.Content? && ctx.serialize(endpoint.raw.content).None?)
  {
  }

  /** Coroutine endpoints and requests that fail validation never touch the session. */
  lemma NoSessionWorkOtherwise(isCoroutine: bool, endpoint: EndpointOutcome, ctx: RequestContext)
    requires isCoroutine || ctx.errors
    ensures Removals(isCoroutine, endpoint, ctx) == 0 && RemovalsAsWritten(isCoroutine, endpoint, ctx) == 0
  {
  }
}

=== FILE: schemas.dfy ===
/**
 * The eight generic request and response records. Each has fixed fields with
 * defaults (0, the empty map, the empty list, false); constructing one from keyword
 * arguments takes the default for a missing field, ignores unknown keys and rejects a
 * value of the wrong shape.
 */
module Envelopes {
  import opened Wrappers
  import opened Strings
  import opened Values

  type Data = map<string, Value>

  datatype Envelope =
    | GetRequest(id: int)
    | ListRequest(filters: Data, offset: int, limit: int, ordering: seq<string>)
    | CreateRequest(data: Data)
    | UpdateRequest(id: int, data: Data)
    | DeleteRequest(id: int)
    | ItemResponse(rows: seq<Data>)
    | ListResponse(rows: seq<Data>, count: int)
    | ResultResponse(result: bool)

  /** The record classes themselves. */
  datatype EnvelopeType =
    | TGetRequest | TListRequest | TCreateRequest | TUpdateRequest | TDeleteRequest
    | TItemResponse | TListResponse | TResultResponse

  function TypeOf(e: Envelope): EnvelopeType {
    match e
    case GetRequest(_) => TGetRequest
    case ListRequest(_, _, _, _) => TListRequest
    case CreateRequest(_) => TCreateRequest
    case UpdateRequest(_, _) => TUpdateRequest
    case DeleteRequest(_) => TDeleteRequest
    case ItemResponse(_) => TItemResponse
    case ListResponse(_, _) => TListResponse
    case ResultResponse(_) => TResultResponse
  }

  /** The declared fields, in declaration order. */
  function Fields(t: EnvelopeType): seq<string> {
    match t
    case TGetRequest => ["id"]
    case TListRequest => ["filters", "offset", "limit", "ordering"]
    case TCreateRequest => ["data"]
    case TUpdateRequest => ["id", "data"]
    case TDeleteRequest => ["id"]
    case TItemResponse => ["data"]
    case TListResponse => ["data", "count"]
    case TResultResponse => ["result"]
  }

  /** pydantic's `int` field: ints, bools (as 0/1) and decimal strings. */
  function AsInt(v: Value): Option<int> {
    match v
    case VInt(i) => Some(i)
    case VBool(b) => Some(if b then 1 else 0)
    case VStr(s) => ParseDecimal(s)
    case _ => None
  }

  /** pydantic's `bool` field: bools, the ints 0 and 1, and the usual words. */
  function AsBool(v: Value): Option<bool> {
    match v
    case VBool(b) => Some(b)
    case VInt(i) => if i == 0 then Some(false) else if i == 1 then Some(true) else None
    case VStr(s) =>
      var w := Lower(s);
      if w in {"1", "on", "t", "true", "y", "yes"} then Some(true)
      else if w in {"0", "off", "f", "false", "n", "no"} then Some(false)
      else None
    case _ => None
  }

  /** A `Dict[str, Any]` field. */
  function AsData(v: Value): Option<Data> {
    match v
    case VDict(m) => Some(m)
    case _ => None
  }

  /** A `List[str]` field. */
  function AsStrings(v: Value): Option<seq<string>> {
    match v
    case VList(items) =>
      if forall i :: 0 <= i < |items| ==> items[i].VStr? then
        Some(seq(|items|, i requires 0 <= i < |items| && items[i].VStr? => items[i].s))
      else None
    case _ => None
  }

  /** A `List[Dict[str, Any]]` field. */
  function AsRows(v: Value): Option<seq<Data>> {
    match v
    case VList(items) =>
      if forall i :: 0 <= i < |items| ==> items[i].VDict? then
        Some(seq(|items|, i requires 0 <= i < |items| && items[i].VDict? => items[i].entries))
      else None
    case _ => None
  }

  /** The coercion a field of a record applies. */
  datatype FieldType = IntField | BoolField | DataField | StringsField | RowsField

  function FieldTypeOf(t: EnvelopeType, name: string): FieldType {
    if name == "id" || name == "offset" || name == "limit" || name == "count" then IntField
    else if name == "result" then BoolField
    else if name == "ordering" then StringsField
    else if name == "data" && (t == TItemResponse || t == TListResponse) then RowsField
    else DataField
  }

  predicate Accepts(ft: FieldType, v: Value) {
    match ft
    case IntField => AsInt(v).Some?
    case BoolField => AsBool(v).Some?
    case DataField => AsData(v).Some?
    case StringsField => AsStrings(v).Some?
    case RowsField => AsRows(v).Some?
  }

  datatype ValidationError = ValidationError(fields: seq<string>)

  /** The declared fields whose given value has the wrong shape, in declaration order. */
  function Invalid(t: EnvelopeType, kwargs: Data): seq<string> {
    var fs := Fields(t);
    Filter(fs, kwargs, t)
  }

  function Filter(fs: seq<string>, kwargs: Data, t: EnvelopeType): (bad: seq<string>)
    ensures forall f :: f in bad <==> f in fs && f in kwargs && !Accepts(FieldTypeOf(t, f), kwargs[f])
  {
    if fs == [] then []
    else
      var rest := Filter(fs[1..], kwargs, t);
      if fs[0] in kwargs && !Accepts(FieldTypeOf(t, fs[0]), kwargs[fs[0]]) then [fs[0]] + rest else rest
  }

  function IntOr(kwargs: Data, name: string, default: int): int {
    if name in kwargs && AsInt(kwargs[name]).Some? then AsInt(kwargs[name]).value else default
  }

  function DataOr(kwargs: Data, name: string): Data {
    if name in kwargs && AsData(kwargs[name]).Some? then AsData(kwargs[name]).value else map[]
  }

  /**
   * `T(**kwargs)`: every field takes its given value, coerced, or its default; keys that
   * are not fields are ignored; any field whose value cannot be coerced is reported.
   */
  function Construct(t: EnvelopeType, kwargs: Data): (r: Result<Envelope, ValidationError>)
    ensures r.Ok? <==> Invalid(t, kwargs) == []
    ensures r.Ok? ==> TypeOf(r.value) == t
    ensures r.Err? ==> r.error.fields == Invalid(t, kwargs)
  {
    if Invalid(t, kwargs) != [] then Err(ValidationError(Invalid(t, kwargs)))
    else Ok(match t
      case TGetRequest => GetRequest(IntOr(kwargs, "id", 0))
      case TListRequest =>
        ListRequest(DataOr(kwargs, "filters"), IntOr(kwargs, "offset", 0), IntOr(kwargs, "limit", 0),
                    if "ordering" in kwargs && AsStrings(kwargs["ordering"]).Some? then AsStrings(kwargs["ordering"]).value else [])
      case TCreateRequest => CreateRequest(DataOr(kwargs, "data"))
      case TUpdateRequest => UpdateRequest(IntOr(kwargs, "id", 0), DataOr(kwargs, "data"))
      case TDeleteRequest => DeleteRequest(IntOr(kwargs, "id", 0))
      case TItemResponse =>
        ItemResponse(if "data" in kwargs && AsRows(kwargs["data"]).Some? then AsRows(kwargs["data"]).value else [])
      case TListResponse =>
        ListResponse(if "data" in kwargs && AsRows(kwargs["data"]).Some? then AsRows(kwargs["data"]).value else [],
                     IntOr(kwargs, "count", 0))
      case TResultResponse =>
        ResultResponse(if "result" in kwargs && AsBool(kwargs["result"]).Some? then AsBool(kwargs["result"]).value else false))
  }

  function StringValues(ss: seq<string>): (vs: seq<Value>)
    ensures |vs| == |ss| && forall i :: 0 <= i < |ss| ==> vs[i] == VStr(ss[i])
  {
    seq(|ss|, i requires 0 <= i < |ss| => VStr(ss[i]))
  }

  function RowValues(rows: seq<Data>): (vs: seq<Value>)
    ensures |vs| == |rows| && forall i :: 0 <= i < |rows| ==> vs[i] == VDict(rows[i])
  {
    seq(|rows|, i requires 0 <= i < |rows| => VDict(rows[i]))
  }

  /** `.dict()`: the record as a mapping from its field names to its values. */
  function ToDict(e: Envelope): (d: Data)
    ensures d.Keys == set f | f in Fields(TypeOf(e))
  {
    match e
    case GetRequest(id) => map["id" := VInt(id)]
    case ListRequest(filters, offset, limit, ordering) =>
      map["filters" := VDict(filters), "offset" := VInt(offset), "limit" := VInt(limit),
          "ordering" := VList(StringValues(ordering))]
    case CreateRequest(data) => map["data" := VDict(data)]
    case UpdateRequest(id, data) => map["id" := VInt(id), "data" := VDict(data)]
    case DeleteRequest(id) => map["id" := VInt(id)]
    case ItemResponse(rows) => map["data" := VList(RowValues(rows))]
    case ListResponse(rows, count) => map["data" := VList(RowValues(rows)), "count" := VInt(count)]
    case ResultResponse(result) => map["result" := VBool(result)]
  }

  /** The defaults of the request records: what each holds when constructed with no arguments. */
  lemma RequestDefaults()
    ensures Construct(TGetRequest, map[]) == Ok(GetRequest(0))
    ensures Construct(TListRequest, map[]) == Ok(ListRequest(map[], 0, 0, []))
    ensures Construct(TCreateRequest, map[]) == Ok(CreateRequest(map[]))
    ensures Construct(TUpdateRequest, map[]) == Ok(UpdateRequest(0, map[]))
    ensures Construct(TDeleteRequest, map[]) == Ok(DeleteRequest(0))
  {
    EmptyIsValid(TGetRequest);
    EmptyIsValid(TListRequest);
    EmptyIsValid(TCreateRequest);
    EmptyIsValid(TUpdateRequest);
    EmptyIsValid(TDeleteRequest);
  }

  /** The defaults of the response records. */
  lemma ResponseDefaults()
    ensures Construct(TItemResponse, map[]) == Ok(ItemResponse([]))
    ensures Construct(TListResponse, map[]) == Ok(ListResponse([], 0))
    ensures Construct(TResultResponse, map[]) == Ok(ResultResponse(false))
  {
    EmptyIsValid(TItemResponse);
    EmptyIsValid(TListResponse);
    EmptyIsValid(TResultResponse);
  }

  lemma EmptyIsValid(t: EnvelopeType)
    ensures Invalid(t, map[]) == []
  {
    NothingInvalid(Fields(t), map[], t);
  }


  /** Construction reads only the declared fields: unknown keyword arguments change nothing. */
  lemma UnknownKeysIgnored(t: EnvelopeType, kwargs: Data, extra: Data)
    requires forall k :: k in extra ==> k !in Fields(t)
    ensures Construct(t, kwargs + extra) == Construct(t, kwargs - extra.Keys)
  {
    ConstructAgrees(t, kwargs + extra, kwargs - extra.Keys);
  }

  /** Two keyword sets that agree on the declared fields construct the same record. */
  lemma ConstructAgrees(t: EnvelopeType, a: Data, b: Data)
    requires forall f :: f in Fields(t) ==> (f in a <==> f in b) && (f in a ==> a[f] == b[f])
    ensures Construct(t, a) == Construct(t, b)
  {
    FilterAgrees(Fields(t), a, b, t);
    match t {
      case TGetRequest => case TListRequest => case TCreateRequest => case TUpdateRequest =>
      case TDeleteRequest => case TItemResponse => case TListResponse => case TResultResponse =>
    }
  }


  lemma {:induction false} FilterAgrees(fs: seq<string>, a: Data, b: Data, t: EnvelopeType)
    requires forall f :: f in fs ==> (f in a <==> f in b) && (f in a ==> a[f] == b[f])
    ensures Filter(fs, a, t) == Filter(fs, b, t)
  {
    if fs != [] {
      FilterAgrees(fs[1..], a, b, t);
    }
  }

  /** No declared field has a bad value, so nothing is reported. */
  lemma {:induction false} NothingInvalid(fs: seq<string>, kwargs: Data, t: EnvelopeType)
    requires forall f :: f in fs && f in kwargs ==> Accepts(FieldTypeOf(t, f), kwargs[f])
    ensures Filter(fs, kwargs, t) == []
  {
    if fs != [] {
      NothingInvalid(fs[1..], kwargs, t);
    }
  }

  /** Exactly one declared field is given, with a bad value: it alone is reported. */
  lemma {:induction false} OnlyOneInvalid(fs: seq<string>, kwargs: Data, t: EnvelopeType, f: string)
    requires f in fs && kwargs.Keys == {f} && !Accepts(FieldTypeOf(t, f), kwargs[f])
    requires forall i, j :: 0 <= i < j < |fs| ==> fs[i] != fs[j]
    ensures Filter(fs, kwargs, t) == [f]
  {
    if fs[0] == f {
      assert forall g :: g in fs[1..] ==> g != f by {
        forall g | g in fs[1..] ensures g != f {
          var j :| 0 <= j < |fs[1..]| && fs[1..][j] == g;
          assert fs[j + 1] == g;
        }
      }
      NothingInvalid(fs[1..], kwargs, t);
    } else {
      OnlyOneInvalid(fs[1..], kwargs, t, f);
    }
  }

  lemma StringsRoundTrip(ss: seq<string>)
    ensures AsStrings(VList(StringValues(ss))) == Some(ss)
  {
    var vs := StringValues(ss);
    assert seq(|vs|, i requires 0 <= i < |vs| && vs[i].VStr? => vs[i].s) == ss;
  }

  lemma RowsRoundTrip(rows: seq<Data>)
    ensures AsRows(VList(RowValues(rows))) == Some(rows)
  {
    var vs := RowValues(rows);
    assert seq(|vs|, i requires 0 <= i < |vs| && vs[i].VDict? => vs[i].entries) == rows;
  }

  /** Every record survives `.dict()` followed by construction from the result. */
  lemma DictRoundTrip(e: Envelope)
    ensures Construct(TypeOf(e), ToDict(e)) == Ok(e)
  {
    match e {
      case ListRequest(filters, offset, limit, ordering) =>
        StringsRoundTrip(ordering);
        ListRequestRoundTrip(filters, offset, limit, ordering);
      case ItemResponse(rows) =>
        RowsRoundTrip(rows);
        ResponseRoundTrip(e);
      case ListResponse(rows, _) =>
        RowsRoundTrip(rows);
        ResponseRoundTrip(e);
      case ResultResponse(_) => ResultRoundTrip(e);
      case _ => RequestRoundTrip(e);
    }
  }

  /** The `.dict()` of a list request. */
  function ListRequestDict(filters: Data, offset: int, limit: int, ordering: seq<string>): Data {
    map["filters" := VDict(filters), "offset" := VInt(offset), "limit" := VInt(limit),
        "ordering" := VList(StringValues(ordering))]
  }

  /** Every field of a list request's `.dict()` is accepted again. */
  lemma ListRequestDictValid(filters: Data, offset: int, limit: int, ordering: seq<string>)
    requires AsStrings(VList(StringValues(ordering))) == Some(ordering)
    ensures Invalid(TListRequest, ListRequestDict(filters, offset, limit, ordering)) == []
  {
    var d := ListRequestDict(filters, offset, limit, ordering);
    assert FieldTypeOf(TListRequest, "filters") == DataField;
    assert FieldTypeOf(TListRequest, "ordering") == StringsField;
    NothingInvalid(Fields(TListRequest), d, TListRequest);
  }

  /** The round trip of a list request, once its ordering converts back. */
  lemma ListRequestRoundTrip(filters: Data, offset: int, limit: int, ordering: seq<string>)
    requires AsStrings(VList(StringValues(ordering))) == Some(ordering)
    ensures var e := ListRequest(filters, offset, limit, ordering);
      Construct(TypeOf(e), ToDict(e)) == Ok(e)
  {
    var d := ListRequestDict(filters, offset, limit, ordering);
    assert ToDict(ListRequest(filters, offset, limit, ordering)) == d;
    ListRequestDictValid(filters, offset, limit, ordering);
    ListRequestDictFields(filters, offset, limit, ordering);
  }

  /** Reading the fields back from a list request's `.dict()`. */
  lemma ListRequestDictFields(filters: Data, offset: int, limit: int, ordering: seq<string>)
    ensures var d := ListRequestDict(filters, offset, limit, ordering);
      "filters" in d && d["filters"] == VDict(filters) && "offset" in d && d["offset"] == VInt(offset) &&
      "limit" in d && d["limit"] == VInt(limit) && "ordering" in d && d["ordering"] == VList(StringValues(ordering))
  {
  }

  /** The round trip of a response with rows, once its rows convert back. */
  lemma ResponseRoundTrip(e: Envelope)
    requires (e.ItemResponse? || e.ListResponse?) && AsRows(VList(RowValues(e.rows))) == Some(e.rows)
    ensures Construct(TypeOf(e), ToDict(e)) == Ok(e)
  {
    NothingInvalid(Fields(TypeOf(e)), ToDict(e), TypeOf(e));
  }

  lemma ResultRoundTrip(e: Envelope)
    requires e.ResultResponse?
    ensures Construct(TypeOf(e), ToDict(e)) == Ok(e)
  {
    NothingInvalid(Fields(TResultResponse), ToDict(e), TResultResponse);
  }

  lemma RequestRoundTrip(e: Envelope)
    requires e.GetRequest? || e.CreateRequest? || e.UpdateRequest? || e.DeleteRequest?
    ensures Construct(TypeOf(e), ToDict(e)) == Ok(e)
  {
    NothingInvalid(Fields(TypeOf(e)), ToDict(e), TypeOf(e));
  }

  /** An integer field also accepts the decimal text of the integer. */
  lemma IntFieldAcceptsText(t: EnvelopeType, i: int)
    requires "id" in Fields(t)
    ensures Construct(t, map["id" := VStr(ToDecimal(i))]).Ok?
    ensures Construct(t, map["id" := VStr(ToDecimal(i))]).value.id == i
  {
    ParseToDecimal(i);
    NothingInvalid(Fields(t), map["id" := VStr(ToDecimal(i))], t);
  }

  /** A None given for a field is rejected, not replaced by the default. */
  lemma NoneIsRejected(t: EnvelopeType, f: string)
    requires f in Fields(t)
    ensures Construct(t, map[f := VNone]) == Err(ValidationError([f]))
  {
    OnlyOneInvalid(Fields(t), map[f := VNone], t, f);
  }
}

/**
 * Resolving the input schema of an action from its signature, and deriving the fields
 * of a schema from the columns of a database model.
 */
module Schemas {
  import opened Wrappers
  import opened Envelopes
  import opened Actions

  /** A schema class: one of the generic records, or a schema the application declares. */
  datatype SchemaRef = Generic(t: EnvelopeType) | Declared(name: string)

  /**
   * A parameter annotation: `inspect.Parameter.empty` (the marker for "no annotation",
   * which is a class and therefore truthy), a falsy annotation such as None, or a schema.
   */
  datatype Annotation = Unannotated | Falsy | Schema(ref: SchemaRef)

  datatype Param = Param(name: string, annotation: Annotation)

  datatype SchemaError = CustomActionNeedsAnnotation | ArgumentsError

  /** `generic_schemas.get(func.__name__)`. */
  function GenericSchema(k: ActionKind): (r: Option<SchemaRef>)
    ensures r.Some? <==> IsGeneric(k)
  {
    match k
    case ListAction => Some(Generic(TListRequest))
    case CreateAction => Some(Generic(TCreateRequest))
    case GetAction => Some(Generic(TGetRequest))
    case UpdateAction => Some(Generic(TUpdateRequest))
    case DeleteAction => Some(Generic(TDeleteRequest))
    case CustomAction(_) => None
  }

  /** The parameter that holds the schema: the second one, or an earlier one named `schema_in`. */
  function Selected(params: seq<Param>): (r: Option<nat>)
    ensures r.Some? ==> r.value < |params| && (r.value == 1 || params[r.value].name == "schema_in")
    ensures r.Some? ==> forall j :: 0 <= j < r.value ==> j != 1 && params[j].name != "schema_in"
    ensures r.None? ==> forall j :: 0 <= j < |params| ==> j != 1 && params[j].name != "schema_in"
  {
    if |params| > 0 && params[0].name == "schema_in" then Some(0)
    else if |params| > 1 then Some(1)
    else None
  }

  /**
   * `get_schema_in(func, default_by_action)` as written: the selected parameter's annotation
   * is returned whenever it is truthy, and `inspect.Parameter.empty` is truthy.
   */
  function SchemaInAsWritten(params: seq<Param>, k: ActionKind, defaultByAction: bool)
    : (r: Result<Option<Annotation>, SchemaError>)
    ensures Selected(params).None? <==> r == Err(ArgumentsError)
    ensures r.Ok? && r.value.Some? ==> r.value.value != Falsy
    ensures Selected(params).Some? && params[Selected(params).value].annotation != Falsy ==>
      r == Ok(Some(params[Selected(params).value].annotation))
    ensures r == Ok(None) <==>
      Selected(params).Some? && params[Selected(params).value].annotation == Falsy && defaultByAction && !IsGeneric(k)
    ensures r == Err(CustomActionNeedsAnnotation) <==>
      Selected(params).Some? && params[Selected(params).value].annotation == Falsy && !defaultByAction
  {
    match Selected(params)
    case None => Err(ArgumentsError)
    case Some(i) =>
      if params[i].annotation != Falsy then Ok(Some(params[i].annotation))
      else if defaultByAction then Ok(match GenericSchema(k) case None => None case Some(s) => Some(Schema(s)))
      else Err(CustomActionNeedsAnnotation)
  }

  /** An unannotated `schema_in` of a generic action resolves to the `empty` marker, not to the generic record. */
  lemma UnannotatedGenericResolvesToMarker(k: ActionKind)
    requires IsGeneric(k)
    ensures SchemaInAsWritten([Param("self", Falsy), Param("schema_in", Unannotated)], k, true) == Ok(Some(Unannotated))
  {
  }

  /**
   * `get_schema_in` with "no annotation" treated like a falsy one: a schema annotation is
   * the schema; otherwise a generic action (with `default_by_action`) gets its generic
   * record, a custom one nothing, and without `default_by_action` it raises.
   */
  function SchemaIn(params: seq<Param>, k: ActionKind, defaultByAction: bool): (r: Result<Option<SchemaRef>, SchemaError>)
    ensures Selected(params).None? <==> r == Err(ArgumentsError)
    ensures Selected(params).Some? && params[Selected(params).value].annotation.Schema? ==>
      r == Ok(Some(params[Selected(params).value].annotation.ref))
    ensures Selected(params).Some? && !params[Selected(params).value].annotation.Schema? ==>
      r == (if defaultByAction then Ok(GenericSchema(k)) else Err(CustomActionNeedsAnnotation))
  {
    match Selected(params)
    case None => Err(ArgumentsError)
    case Some(i) =>
      match params[i].annotation
      case Schema(s) => Ok(Some(s))
      case _ => if defaultByAction then Ok(GenericSchema(k)) else Err(CustomActionNeedsAnnotation)
  }

  /** Both readings agree whenever the selected parameter is annotated (or falsy). */
  lemma SchemaInAgreesWhenAnnotated(params: seq<Param>, k: ActionKind, defaultByAction: bool)
    requires Selected(params).Some? && params[Selected(params).value].annotation != Unannotated
    ensures match SchemaIn(params, k, defaultByAction)
      case Err(e) => SchemaInAsWritten(params, k, defaultByAction) == Err(e)
      case Ok(None) => SchemaInAsWritten(params, k, defaultByAction) == Ok(None)
      case Ok(Some(s)) => SchemaInAsWritten(params, k, defaultByAction) == Ok(Some(Schema(s)))
  {
  }

  /**
   * The loop of `get_schema_in`: count parameters and stop at the first one that is second
   * or named `schema_in`.
   */
  method GetSchemaIn(params: seq<Param>, k: ActionKind, defaultByAction: bool)
    returns (r: Result<Option<Annotation>, SchemaError>)
    ensures r == SchemaInAsWritten(params, k, defaultByAction)
  {
    var index := 0;
    while index < |params|
      invariant 0 <= index <= |params| && index <= 1
      invariant index == 1 ==> params[0].name != "schema_in"
    {
      var param := params[index];
      index := index + 1;
      if index == 2 || param.name == "schema_in" {
        if param.annotation != Falsy {
          return Ok(Some(param.annotation));
        } else if defaultByAction {
          var generic := GenericSchema(k);
          return Ok(if generic.Some? then Some(Schema(generic.value)) else None);
        } else {
          return Err(CustomActionNeedsAnnotation);
        }
      }
    }
    return Err(ArgumentsError);
  }

  // ---- model_to_schema: the field rule ----

  /** A mapper attribute, reduced to what the field rule looks at. */
  datatype Column = Column(
    key: string,
    isColumnProperty: bool,
    hasColumns: bool,
    pythonType: Option<string>,
    hasDefault: bool,
    nullable: bool)

  /** A pydantic field: its type (possibly `Optional`) and whether it must be given. */
  datatype FieldSpec = FieldSpec(typeName: string, optional: bool, required: bool)

  datatype ModelError = NoPythonType(column: string)

  /** The field one column yields, or None when the column is skipped. */
  function ColumnField(c: Column, exclude: set<string>, partial: bool): Result<Option<FieldSpec>, ModelError> {
    if !c.isColumnProperty || !c.hasColumns || c.key in exclude then Ok(None)
    else if c.pythonType.None? then Err(NoPythonType(c.key))
    else if partial then Ok(Some(FieldSpec(c.pythonType.value, true, false)))
    else Ok(Some(FieldSpec(c.pythonType.value, false, !c.hasDefault && !c.nullable)))
  }

  /** The fields of the columns, in order; the first column without a python type fails. */
  function FieldsOf(columns: seq<Column>, exclude: set<string>, partial: bool)
    : Result<seq<(string, FieldSpec)>, ModelError>
    decreases |columns|
  {
    if columns == [] then Ok([])
    else match FieldsOf(columns[..|columns| - 1], exclude, partial)
      case Err(e) => Err(e)
      case Ok(fields) =>
        var c := columns[|columns| - 1];
        match ColumnField(c, exclude, partial)
        case Err(e) => Err(e)
        case Ok(None) => Ok(fields)
        case Ok(Some(f)) => Ok(fields + [(c.key, f)])
  }

  /** The loop of `model_to_schema` over the mapper's attributes. */
  method ModelToSchema(columns: seq<Column>, exclude: set<string>, partial: bool)
    returns (r: Result<seq<(string, FieldSpec)>, ModelError>)
    ensures r == FieldsOf(columns, exclude, partial)
  {
    var fields: seq<(string, FieldSpec)> := [];
    var i := 0;
    while i < |columns|
      invariant 0 <= i <= |columns|
      invariant FieldsOf(columns[..i], exclude, partial) == Ok(fields)
    {
      var c := columns[i];
      assert columns[..i + 1][..i] == columns[..i];
      match ColumnField(c, exclude, partial) {
        case Err(e) =>
          FailureStaysFailure(columns, exclude, partial, i + 1);
          return Err(e);
        case Ok(None) =>
        case Ok(Some(f)) =>
          fields := fields + [(c.key, f)];
      }
      i := i + 1;
    }
    assert columns[..i] == columns;
    return Ok(fields);
  }

  /** Once a prefix of the columns fails, every longer prefix fails the same way. */
  lemma {:induction false} FailureStaysFailure(columns: seq<Column>, exclude: set<string>, partial: bool, n: nat)
    requires n <= |columns| && FieldsOf(columns[..n], exclude, partial).Err?
    ensures FieldsOf(columns, exclude, partial) == FieldsOf(columns[..n], exclude, partial)
    decreases |columns| - n
  {
    if n < |columns| {
      assert columns[..n + 1][..n] == columns[..n];
      FailureStaysFailure(columns, exclude, partial, n + 1);
    } else {
      assert columns[..n] == columns;
    }
  }

  /**
   * The field rule over all columns: excluded and non-column attributes give no field;
   * in partial mode every field is Optional and defaults to None; otherwise a field is
   * required exactly when its column has no default and is not nullable.
   */
  lemma {:induction false} FieldRule(columns: seq<Column>, exclude: set<string>, partial: bool, name: string, f: FieldSpec)
    requires FieldsOf(columns, exclude, partial).Ok?
    requires (name, f) in FieldsOf(columns, exclude, partial).value
    ensures name !in exclude
    ensures exists c :: (c in columns && c.key == name && c.isColumnProperty && c.hasColumns &&
                         c.pythonType == Some(f.typeName) &&
                         (partial ==> f.optional && !f.required) &&
                         (!partial ==> !f.optional && (f.required <==> !c.hasDefault && !c.nullable)))
    decreases |columns|
  {
    var front := columns[..|columns| - 1];
    var c := columns[|columns| - 1];
    var fields := FieldsOf(front, exclude, partial).value;
    if (name, f) in fields {
      FieldRule(front, exclude, partial, name, f);
      var c' :| c' in front && c'.key == name && c'.isColumnProperty && c'.hasColumns &&
        c'.pythonType == Some(f.typeName) &&
        (partial ==> f.optional && !f.required) &&
        (!partial ==> !f.optional && (f.required <==> !c'.hasDefault && !c'.nullable));
      assert c' in columns;
    } else {
      assert c in columns;
    }
  }

  /** A column the field rule keeps: a column property with columns, not excluded. */
  predicate IsKept(c: Column, exclude: set<string>) {
    c.isColumnProperty && c.hasColumns && c.key !in exclude
  }

  /** The kept columns, in column order. */
  function KeptColumns(columns: seq<Column>, exclude: set<string>): (kept: seq<Column>)
    ensures forall k :: 0 <= k < |kept| ==> kept[k] in columns && IsKept(kept[k], exclude)
    decreases |columns|
  {
    if columns == [] then []
    else
      var c := columns[|columns| - 1];
      KeptColumns(columns[..|columns| - 1], exclude) + (if IsKept(c, exclude) then [c] else [])
  }

  /**
   * The other direction of the field rule: when the derivation succeeds, its fields are
   * exactly those of the kept columns, one per kept column and in column order, each
   * named after its column and built by the rule from it.
   */
  lemma {:induction false} FieldsInColumnOrder(columns: seq<Column>, exclude: set<string>, partial: bool)
    requires FieldsOf(columns, exclude, partial).Ok?
    ensures var fields := FieldsOf(columns, exclude, partial).value;
      var kept := KeptColumns(columns, exclude);
      |fields| == |kept| &&
      forall k :: 0 <= k < |kept| ==>
        fields[k].0 == kept[k].key && ColumnField(kept[k], exclude, partial) == Ok(Some(fields[k].1))
    decreases |columns|
  {
    if columns != [] {
      var front := columns[..|columns| - 1];
      FieldsInColumnOrder(front, exclude, partial);
    }
  }

  /** Every kept column has a python type and gives its field when the derivation succeeds. */
  lemma KeptColumnGivesField(columns: seq<Column>, exclude: set<string>, partial: bool, i: nat)
    requires FieldsOf(columns, exclude, partial).Ok?
    requires i < |columns| && IsKept(columns[i], exclude)
    ensures columns[i].pythonType.Some?
    ensures ColumnField(columns[i], exclude, partial).Ok? && ColumnField(columns[i], exclude, partial).value.Some?
    ensures (columns[i].key, ColumnField(columns[i], exclude, partial).value.value) in FieldsOf(columns, exclude, partial).value
  {
    var k := KeptIndex(columns, exclude, i);
    FieldsInColumnOrder(columns, exclude, partial);
    var fields := FieldsOf(columns, exclude, partial).value;
    assert fields[k] == (columns[i].key, ColumnField(columns[i], exclude, partial).value.value);
  }

  /** The position of a kept column among the kept columns. */
  lemma {:induction false} KeptIndex(columns: seq<Column>, exclude: set<string>, i: nat) returns (k: nat)
    requires i < |columns| && IsKept(columns[i], exclude)
    ensures k < |KeptColumns(columns, exclude)| && KeptColumns(columns, exclude)[k] == columns[i]
    decreases |columns|
  {
    var front := columns[..|columns| - 1];
    if i == |columns| - 1 {
      k := |KeptColumns(front, exclude)|;
    } else {
      assert front[i] == columns[i];
      k := KeptIndex(front, exclude, i);
    }
  }

  /** A column without a python type fails the derivation unless it is skipped earlier. */
  lemma MissingPythonTypeFails(c: Column, exclude: set<string>, partial: bool)
    requires c.isColumnProperty && c.hasColumns && c.key !in exclude && c.pythonType.None?
    ensures FieldsOf([c], exclude, partial) == Err(NoPythonType(c.key))
  {
    assert [c][..0] == [];
  }
}

=== FILE: servicer.dfy ===
/**
 * Locating the generated gRPC classes for an application: the servicer base class and the
 * function that adds a servicer to a server are looked up by name in the application's
 * `_pb2_grpc` module, whose attribute names are given here as a set.
 */
module Servicer {
  import opened Wrappers
  import opened Strings

  datatype ServicerError = ServicerNotFound | ServicerMethodNotFound

  /** `app.title.capitalize()`. */
  function Title(title: string): (t: string)
    ensures |t| == |title|
    ensures title != [] ==> t[0] == UpperChar(title[0]) && t[1..] == Lower(title[1..])
  {
    Capitalize(title)
  }

  /**
   * `get_servicer(app)`: `{Title}ServiceServicer` is taken when it exists and then replaced
   * by `{Title}Servicer` when that exists too; with neither it raises. The result names
   * the base class the returned `Service` class derives from.
   */
  method GetServicer(title: string, pb2: set<string>) returns (r: Result<string, ServicerError>)
    ensures Title(title) + "Servicer" in pb2 ==> r == Ok(Title(title) + "Servicer")
    ensures Title(title) + "Servicer" !in pb2 && Title(title) + "ServiceServicer" in pb2 ==>
      r == Ok(Title(title) + "ServiceServicer")
    ensures r.Err? <==> Title(title) + "Servicer" !in pb2 && Title(title) + "ServiceServicer" !in pb2
    ensures r.Err? ==> r.error == ServicerNotFound
    ensures r.Ok? ==> r.value in pb2
  {
    var base: Option<string> := None;
    var servicer := Title(title) + "ServiceServicer";
    if servicer in pb2 {
      base := Some(servicer);
    }
    servicer := Title(title) + "Servicer";
    if servicer in pb2 {
      base := Some(servicer);
    }
    if base.Some? {
      return Ok(base.value);
    }
    return Err(ServicerNotFound);
  }

  /**
   * The adder lookup of `make_grpc_serve(app)`: `add_{Title}ServiceServicer_to_server` when
   * it exists, otherwise `add_{Title}Servicer_to_server`; with neither it raises.
   */
  method ServicerAdder(title: string, pb2: set<string>) returns (r: Result<string, ServicerError>)
    ensures "add_" + Title(title) + "ServiceServicer_to_server" in pb2 ==>
      r == Ok("add_" + Title(title) + "ServiceServicer_to_server")
    ensures "add_" + Title(title) + "ServiceServicer_to_server" !in pb2 && "add_" + Title(title) + "Servicer_to_server" in pb2 ==>
      r == Ok("add_" + Title(title) + "Servicer_to_server")
    ensures r.Err? <==>
      "add_" + Title(title) + "ServiceServicer_to_server" !in pb2 && "add_" + Title(title) + "Servicer_to_server" !in pb2
    ensures r.Err? ==> r.error == ServicerMethodNotFound
    ensures r.Ok? ==> r.value in pb2
  {
    var adder := "add_" + Title(title) + "ServiceServicer_to_server";
    if adder !in pb2 {
      adder := "add_" + Title(title) + "Servicer_to_server";
      if adder !in pb2 {
        return Err(ServicerMethodNotFound);
      }
    }
    return Ok(adder);
  }

  /**
   * The two lookups prefer opposite spellings: a module that defines both spellings of
   * both names gets the `Servicer` base class but the `ServiceServicer` adder.
   */
  method OppositePreferences(title: string) returns (base: Result<string, ServicerError>, adder: Result<string, ServicerError>)
    ensures base == Ok(Title(title) + "Servicer")
    ensures adder == Ok("add_" + Title(title) + "ServiceServicer_to_server")
  {
    var t := Title(title);
    var pb2 := {t + "Servicer", t + "ServiceServicer", "add_" + t + "Servicer_to_server", "add_" + t + "ServiceServicer_to_server"};
    base := GetServicer(title, pb2);
    adder := ServicerAdder(title, pb2);
  }
}

=== FILE: session_control.dfy ===
/**
 * The scoped database session and the helpers that release it: `merge_session` attaches a
 * detached object to the current session, `remove_session` releases the session after a
 * call however it ends, and `automatic_session_property` releases it after a property body
 * only when it had to merge the instance first.
 */
module SessionControl {
  import opened Wrappers
  import opened Values

  /** The thread's scoped session; `removals` counts the calls to `remove()`. */
  class ScopedSession {
    var removals: nat

    constructor ()
      ensures removals == 0
    {
      removals := 0;
    }

    /** `db.session.remove()`. */
    method Remove()
      modifies this
      ensures removals == old(removals) + 1
    {
      removals := removals + 1;
    }
  }

  /** How a wrapped call ended: with a value or with an exception. */
  datatype Outcome = Returned(value: Value) | Raised

  /** What `inspect(obj)` reports about an ORM object. */
  datatype ObjectState = ObjectState(transient: bool, attached: bool)

  /** What `merge_session` did with the object. */
  datatype Merge = Kept | MergedWithoutLoad | MergedWithLoad

  /**
   * `merge_session(obj)`: a transient object, or one already in a session, is kept and
   * reported as not merged; any other object is merged without loading, or, when that
   * raises `InvalidRequestError`, with a loading merge, and reported as merged.
   */
  function MergeSession(obj: ObjectState, noLoadMergeFails: bool): (r: (Merge, bool))
    ensures r.1 <==> !obj.transient && !obj.attached
    ensures r.0 == Kept <==> !r.1
    ensures r.0 == MergedWithLoad <==> r.1 && noLoadMergeFails
  {
    if obj.transient then (Kept, false)
    else if obj.attached then (Kept, false)
    else if noLoadMergeFails then (MergedWithLoad, true)
    else (MergedWithoutLoad, true)
  }

  /** `remove_session(func)(...)`: the call's own outcome, and the session removed exactly once. */
  method RemoveSession(db: ScopedSession, call: Outcome) returns (r: Outcome)
    modifies db
    ensures r == call
    ensures db.removals == old(db.removals) + 1
  {
    // try: return func(...) finally: db.session.remove()
    r := call;
    db.Remove();
  }

  /** The three attributes copied from the decorated function. */
  datatype FunctionInfo = FunctionInfo(doc: Value, name: string, moduleName: string)

  /** What reading the property gives: the descriptor itself, or the body's outcome. */
  datatype Access = Descriptor | Body(outcome: Outcome)

  /** `automatic_session_property(func)`. */
  class AutomaticSessionProperty {
    /** `__doc__`, `__name__` and `__module__` set on the descriptor, when a function was given. */
    const copied: Option<FunctionInfo>

    constructor (func: Option<FunctionInfo>)
      ensures copied == func
    {
      copied := func;
    }

    /**
     * `__get__(instance, owner)`: on the class the descriptor itself, with no session work;
     * on an instance the body runs on the merged object, and the session is removed
     * afterwards, however the body ends, exactly when a merge happened.
     */
    method Get(db: ScopedSession, instance: Option<ObjectState>, noLoadMergeFails: bool, body: Outcome)
      returns (r: Access)
      modifies db
      ensures instance.None? ==> r == Descriptor && db.removals == old(db.removals)
      ensures instance.Some? ==> r == Body(body)
      ensures instance.Some? ==>
        db.removals == old(db.removals) + (if MergeSession(instance.value, noLoadMergeFails).1 then 1 else 0)
    {
      if instance.None? {
        return Descriptor;
      }
      var (_, isMerged) := MergeSession(instance.value, noLoadMergeFails);
      r := Body(body);
      if isMerged {
        db.Remove();
      }
    }
  }
}

=== FILE: strings.dfy ===
/**
 * The string operations of Python's `str` that the framework relies on, restricted to
 * ASCII where case matters: prefix and suffix tests, `replace`, `lstrip`, `split`/`join`,
 * `lower`/`upper`/`capitalize`, and the decimal form of an integer (`str(i)` / `int(s)`).
 */
module Strings {
  import opened Wrappers

  /** Concatenation is associative (stated once, so that a proof can cite it instead of re-deriving it). */
  lemma AppendAssoc<T>(a: seq<T>, b: seq<T>, c: seq<T>)
    ensures (a + b) + c == a + (b + c)
  {
  }

  predicate StartsWith(s: string, p: string) {
    |p| <= |s| && s[..|p|] == p
  }

  predicate EndsWith(s: string, p: string) {
    |p| <= |s| && s[|s| - |p|..] == p
  }

  /** `p` occurs in `s` starting at index `i`. */
  predicate OccursAt(s: string, p: string, i: int) {
    0 <= i && i + |p| <= |s| && s[i..i + |p|] == p
  }

  /** Python's `p in s`. */
  predicate Contains(s: string, p: string) {
    exists i :: 0 <= i <= |s| && OccursAt(s, p, i)
  }

  /** Python's `s.replace(pat, rep)`: every non-overlapping occurrence, scanned left to right. */
  function ReplaceAll(s: string, pat: string, rep: string): string
    requires |pat| > 0
    decreases |s|
  {
    if |s| < |pat| then s
    else if s[..|pat|] == pat then rep + ReplaceAll(s[|pat|..], pat, rep)
    else [s[0]] + ReplaceAll(s[1..], pat, rep)
  }

  /** A string in which the pattern does not occur is left unchanged by `replace`. */
  lemma {:induction false} ReplaceAbsent(s: string, pat: string, rep: string)
    requires |pat| > 0 && !Contains(s, pat)
    ensures ReplaceAll(s, pat, rep) == s
    decreases |s|
  {
    if |s| >= |pat| {
      assert !OccursAt(s, pat, 0);
      forall i | OccursAt(s[1..], pat, i) ensures OccursAt(s, pat, i + 1) {
        assert s[i + 1..i + 1 + |pat|] == s[1..][i..i + |pat|];
      }
      ReplaceAbsent(s[1..], pat, rep);
    }
  }

  /** A pattern occurring at the very start is replaced there. */
  lemma ReplacePrefix(pat: string, rep: string, rest: string)
    requires |pat| > 0
    ensures ReplaceAll(pat + rest, pat, rep) == rep + ReplaceAll(rest, pat, rep)
  {
    assert (pat + rest)[..|pat|] == pat;
    assert (pat + rest)[|pat|..] == rest;
  }

  /** Python's `s.lstrip(c)` for a single character: every leading `c` is removed. */
  function LStrip(s: string, c: char): (r: string)
    ensures |r| <= |s| && (r == [] || r[0] != c)
    ensures s == seq(|s| - |r|, _ => c) + r
  {
    if s != [] && s[0] == c then LStrip(s[1..], c) else s
  }

  /** Python's `s.split(sep)` for a one-character separator. */
  function Split(s: string, sep: char): (parts: seq<string>)
    ensures |parts| >= 1
    ensures forall i :: 0 <= i < |parts| ==> sep !in parts[i]
  {
    if sep !in s then [s]
    else
      var k := IndexOf(s, sep);
      [s[..k]] + Split(s[k + 1..], sep)
  }

  /** The first index of `c` in `s`. */
  function IndexOf(s: string, c: char): (k: nat)
    requires c in s
    ensures k < |s| && s[k] == c && c !in s[..k]
  {
    if s[0] == c then 0 else 1 + IndexOf(s[1..], c)
  }

  /** Python's `sep.join(parts)`. */
  function Join(parts: seq<string>, sep: string): string {
    if parts == [] then ""
    else if |parts| == 1 then parts[0]
    else parts[0] + sep + Join(parts[1..], sep)
  }

  /** A joined string ends as its last part does. */
  lemma {:induction false} JoinEndsWithLast(parts: seq<string>, sep: string, p: string)
    requires |parts| >= 1 && EndsWith(parts[|parts| - 1], p)
    ensures EndsWith(Join(parts, sep), p)
    decreases |parts|
  {
    if |parts| > 1 {
      JoinEndsWithLast(parts[1..], sep, p);
      var rest := Join(parts[1..], sep);
      var j := parts[0] + sep + rest;
      assert j[|j| - |p|..] == rest[|rest| - |p|..];
    }
  }

  /** Splitting and joining again with the same separator gives back the string. */
  lemma {:induction false} JoinSplit(s: string, sep: char)
    ensures Join(Split(s, sep), [sep]) == s
    decreases |s|
  {
    if sep in s {
      var k := IndexOf(s, sep);
      var parts := Split(s, sep);
      var rest := Split(s[k + 1..], sep);
      assert parts == [s[..k]] + rest;
      assert parts[1..] == rest;
      assert Join(parts, [sep]) == s[..k] + [sep] + Join(rest, [sep]);
      JoinSplit(s[k + 1..], sep);
      assert s == s[..k] + [sep] + s[k + 1..];
    } else {
      assert Split(s, sep) == [s];
    }
  }

  /** Joining words that do not contain the separator and splitting again gives the words back. */
  lemma {:induction false} SplitJoin(parts: seq<string>, sep: char)
    requires |parts| >= 1
    requires forall i :: 0 <= i < |parts| ==> sep !in parts[i]
    ensures Split(Join(parts, [sep]), sep) == parts
    decreases |parts|
  {
    if |parts| > 1 {
      var s := Join(parts, [sep]);
      var rest := Join(parts[1..], [sep]);
      assert s == parts[0] + [sep] + rest;
      assert s[|parts[0]|] == sep && sep in s;
      assert s[..|parts[0]|] == parts[0];
      assert IndexOf(s, sep) == |parts[0]| by {
        IndexOfFirst(s, sep, |parts[0]|);
      }
      assert s[|parts[0]| + 1..] == rest;
      SplitJoin(parts[1..], sep);
    }
  }

  /** The first occurrence of `c` is at `k` when `c` is at `k` and not before it. */
  lemma {:induction false} IndexOfFirst(s: string, c: char, k: nat)
    requires k < |s| && s[k] == c && c !in s[..k]
    ensures IndexOf(s, c) == k
    decreases k
  {
    if k > 0 {
      assert s[..k][0] == s[0];
      assert s[1..][..k - 1] == s[..k][1..];
      IndexOfFirst(s[1..], c, k - 1);
    }
  }

  /** `replace` leaves a prefix alone when no occurrence of the pattern starts inside it. */
  lemma {:induction false} ReplaceAfter(x: string, y: string, p: string, r: string)
    requires |p| > 0
    requires forall i :: 0 <= i < |x| ==> !OccursAt(x + y, p, i)
    ensures ReplaceAll(x + y, p, r) == x + ReplaceAll(y, p, r)
    decreases |x|
  {
    if x == [] {
      assert x + y == y;
    } else if |x + y| < |p| {
      assert ReplaceAll(y, p, r) == y;
    } else {
      assert !OccursAt(x + y, p, 0);
      assert (x + y)[1..] == x[1..] + y;
      forall i | 0 <= i < |x[1..]| ensures !OccursAt(x[1..] + y, p, i) {
        assert !OccursAt(x + y, p, i + 1);
        if i + |p| <= |x[1..] + y| {
          assert (x + y)[i + 1..i + 1 + |p|] == (x[1..] + y)[i..i + |p|];
        }
      }
      ReplaceAfter(x[1..], y, p, r);
      assert x + ReplaceAll(y, p, r) == [x[0]] + (x[1..] + ReplaceAll(y, p, r));
    }
  }

  /** `(x + p).replace(p, r)` is `x + r` when no occurrence of `p` starts inside `x`. */
  lemma {:induction false} ReplaceTrailing(x: string, p: string, r: string)
    requires |p| > 0
    requires forall i :: 0 <= i < |x| ==> !OccursAt(x + p, p, i)
    ensures ReplaceAll(x + p, p, r) == x + r
  {
    ReplaceAfter(x, p, p, r);
    ReplacePrefix(p, r, []);
    assert p + [] == p;
    assert ReplaceAll([], p, r) == [];
    assert r + [] == r;
  }

  /** Replacing one character by another keeps the length and swaps that character pointwise. */
  lemma {:induction false} ReplaceChar(s: string, c: char, d: char)
    ensures |ReplaceAll(s, [c], [d])| == |s|
    ensures forall i :: 0 <= i < |s| ==> ReplaceAll(s, [c], [d])[i] == if s[i] == c then d else s[i]
    decreases |s|
  {
    if s != [] {
      ReplaceChar(s[1..], c, d);
      assert s[..1] == [s[0]];
    }
  }

  /** No occurrence of `p` starts inside `x` when `x` lacks the first letter of `p`. */
  lemma NoOccurrenceWithoutFirstLetter(x: string, y: string, p: string)
    requires |p| > 0 && p[0] !in x
    ensures forall i :: 0 <= i < |x| ==> !OccursAt(x + y, p, i)
  {
    forall i | 0 <= i < |x| ensures !OccursAt(x + y, p, i) {
      assert (x + y)[i] == x[i];
      if i + |p| <= |x + y| {
        assert (x + y)[i..i + |p|][0] == x[i];
      }
    }
  }

  predicate IsUpper(c: char) { 'A' <= c <= 'Z' }
  predicate IsLower(c: char) { 'a' <= c <= 'z' }
  predicate IsDigit(c: char) { '0' <= c <= '9' }

  function LowerChar(c: char): char {
    if IsUpper(c) then (c as int + 32) as char else c
  }

  function UpperChar(c: char): char {
    if IsLower(c) then (c as int - 32) as char else c
  }

  /** Python's `s.lower()` (ASCII letters). */
  function Lower(s: string): (r: string)
    ensures |r| == |s| && forall i :: 0 <= i < |s| ==> r[i] == LowerChar(s[i])
  {
    if s == [] then [] else [LowerChar(s[0])] + Lower(s[1..])
  }

  /** Python's `s.capitalize()`: the first character upper-cased, the rest lower-cased (ASCII). */
  function Capitalize(s: string): (r: string)
    ensures |r| == |s|
    ensures s != [] ==> r[0] == UpperChar(s[0]) && r[1..] == Lower(s[1..])
  {
    if s == [] then [] else [UpperChar(s[0])] + Lower(s[1..])
  }

  predicate AllDigits(s: string) {
    forall i :: 0 <= i < |s| ==> IsDigit(s[i])
  }

  function DigitChar(d: nat): char
    requires d < 10
  {
    ('0' as int + d) as char
  }

  /** `str(n)` for a natural number. */
  function NatToDecimal(n: nat): string
    decreases n
  {
    if n < 10 then [DigitChar(n)] else NatToDecimal(n / 10) + [DigitChar(n % 10)]
  }

  /** `str(i)` for an integer. */
  function ToDecimal(i: int): string {
    if i < 0 then "-" + NatToDecimal(-i) else NatToDecimal(i)
  }

  /** The value of a string of decimal digits, most significant first. */
  function DigitsValue(s: string): nat
    requires AllDigits(s)
  {
    if s == [] then 0 else DigitsValue(s[..|s| - 1]) * 10 + (s[|s| - 1] as int - '0' as int)
  }

  /**
   * `int(s)` restricted to an optional minus sign followed by one or more digits;
   * anything else is the `ValueError` branch (None).
   */
  function ParseDecimal(s: string): Option<int> {
    if |s| > 1 && s[0] == '-' && AllDigits(s[1..]) then Some(0 - DigitsValue(s[1..]) as int)
    else if |s| > 0 && AllDigits(s) then Some(DigitsValue(s) as int)
    else None
  }

  lemma {:induction false} NatToDecimalDigits(n: nat)
    ensures |NatToDecimal(n)| > 0 && AllDigits(NatToDecimal(n))
    ensures DigitsValue(NatToDecimal(n)) == n
    decreases n
  {
    if n >= 10 {
      NatToDecimalDigits(n / 10);
      var s := NatToDecimal(n);
      assert s[..|s| - 1] == NatToDecimal(n / 10);
    }
  }

  /** `int(str(i)) == i`: the decimal form of an integer parses back to it. */
  lemma ParseToDecimal(i: int)
    ensures ParseDecimal(ToDecimal(i)) == Some(i)
  {
    if i < 0 {
      NatToDecimalDigits(-i);
      assert ToDecimal(i)[1..] == NatToDecimal(-i);
    } else {
      NatToDecimalDigits(i);
    }
  }
}

=== FILE: values.dfy ===
/**
 * The Python values that cross the framework's boundaries: request parameters, filter
 * values, action results, cached values and configuration entries.
 */
module Values {

  datatype Value =
    | VNone
    | VBool(b: bool)
    | VInt(i: int)
    | VStr(s: string)
    | VList(items: seq<Value>)
    | VDict(entries: map<string, Value>)
      /** an instance of a pydantic model (`BaseModel`): `.dict()` gives its fields */
    | VModel(fields: map<string, Value>)
      /** any other object (an ORM row, a query, a callable), known only by identity */
    | VObject(id: nat)

  /** Python's `bool(v)`: None, False, 0 and empty containers are falsy; objects are truthy. */
  predicate Truthy(v: Value) {
    match v
    case VNone => false
    case VBool(b) => b
    case VInt(i) => i != 0
    case VStr(s) => s != []
    case VList(items) => items != []
    case VDict(entries) => entries != map[]
    case VModel(_) => true
    case VObject(_) => true
  }
}

=== FILE: wrappers.dfy ===
/** Failure-compatible wrappers shared by every module of the model. */
module Wrappers {

  /** A value that may be absent (Python's `None`). */
  datatype Option<+T> = None | Some(value: T)

  /** The outcome of an operation that may raise: the value, or the exception it raised. */
  datatype Result<+T, +E> = Ok(value: T) | Err(error: E)
}
